=== FILE: README.md ===
# nextplot core in Dafny

nextplot turns JSON output of routing and clustering solvers into plots and
maps. Beneath its plotly and folium rendering sits a layer of small pure
logic, and this project models that layer and proves properties of it:

- the position and route model: slicing a route into points or a polyline,
  position equality, bounding boxes;
- group extraction: index and `[a, b]` range references turned into
  position groups, out-of-bounds indices dropped and reported;
- world or planar coordinates, `--swap`, and the bounding box of all groups;
- colour palettes (`get_colors`, `gradient`, `multi_gradient`) and colour
  assignment in `prepare_colors`, including the clockwise ordering by
  group centroids;
- the statistics of the route, cluster and point modes;
- reconciliation of routing legs from RoutingKit and from OSRM;
- the duration-string parser and the common-prefix helper of the
  progression mode;
- the recursive GeoJSON bounding-box traversal and the box merge of the
  GeoJSON mode.

The distance measure (haversine or euclidean) is a function parameter
`Measure`. Where a property needs more, the ghost predicate `IsMeasure`
supplies `d(p, p) == 0`, `d >= 0` and symmetry. Backend answers, such as
the RoutingKit trips and the OSRM replies, are input sequences. JSON
documents are a tagged datatype `Json`, in which `JBool` counts as an
integer as Python's `bool` does. Exceptions and early returns become
`Failure` values of `Result`.

Files, one module each:

- `results.dfy`: `Result` and `Option`.
- `jsonvalue.dfy`: JSON values.
- `seqs.dfy`: filtering, flattening and counting.
- `reals.dfy`: sums, minima, maxima, means and the max/min/avg summary of the statistics.
- `geometry.dfy`: types.py.
- `common.dfy`: group extraction and coordinates in common.py.
- `colors.dfy`: colours in common.py.
- `indexsort.dfy`: the stable sort of `prepare_colors`.
- `distances.dfy`: path length and diameter.
- `routemode.dfy`: route.py.
- `clustermode.dfy`: cluster.py.
- `pointmode.dfy`: point.py.
- `routingkit.dfy`: routingkit.py.
- `osrm.dfy`: osrm.py.
- `progression.dfy`: progression.py.
- `geojson.dfy`: geojson.py.

## Model

| member | source | states |
|---|---|---|
| Geometry.Component | nextplot/types.py:51-57 | key 0 gives the longitude and key 1 the latitude; every other key fails |
| Geometry.Equal | nextplot/types.py:62-67 | two positions are equal exactly when their coordinates agree, component by component |
| Geometry.EqualIsEquivalence | nextplot/types.py:62-67 | position equality is reflexive, symmetric and transitive, and ignores description and distance |
| Geometry.Clone | nextplot/types.py:69-73 | the clone agrees with the original in lon, lat, desc and distance |
| Geometry.NewRoute | nextplot/types.py:105-108 | a new route keeps its points, has no legs, and has leg costs 0 |
| Geometry.ToPoints | nextplot/types.py:110-119 | the points from s = 1 (start omitted) or 0 up to e = n-1 (end omitted) or n, empty when e <= s, all points without omission |
| Geometry.ToPolyline | nextplot/types.py:121-134 | without legs, the same window as `to_points`; with legs, the concatenation of legs s .. e-2; fails exactly when a leg index is past the leg list |
| Geometry.JoinLegs | nextplot/types.py:125-130 | legs start .. stop-1 are concatenated in order, nothing when stop <= start; reading a leg past the list fails exactly when stop exceeds the leg count |
| Geometry.BoundingBox.Width | nextplot/types.py:36-37 | the width is what takes min_x to max_x, and is non-negative exactly when min_x <= max_x |
| Geometry.BoundingBox.Height | nextplot/types.py:36-38 | the height is what takes min_y to max_y, and is non-negative exactly when min_y <= max_y |
| Geometry.Centroid | nextplot/cluster.py:180-183 | the coordinate mean lies between the minimum and the maximum of each coordinate; one point is its own centroid |
| Common.InclusiveRange | nextplot/common.py:232 | `range(a, b + 1)` holds b - a + 1 consecutive indices from a, and none when b < a |
| Common.ItemIndices | nextplot/common.py:227-234 | a list element expands to `[i]` for an int or to a..b for an int pair, and fails for anything else |
| Common.ListIndices | nextplot/common.py:226-236 | a list match succeeds exactly when every element expands |
| Common.MatchIndices | nextplot/common.py:222-236 | an int match gives `[i]`; a list match gives the expansions of its elements; any other value gives no indices |
| Common.PlainIntListIndices | nextplot/common.py:226-236 | a list of plain ints stands for exactly those indices, in order |
| Common.ResolveIndices | nextplot/common.py:238-242 | in-bounds indices give their positions in order, and every other index goes to the out-of-bounds list in order |
| Common.AllInBounds | nextplot/common.py:238-242 | when every index is in bounds, the group is the indexed positions and nothing is reported |
| Common.KeptArePositions | nextplot/common.py:238-240 | every group member is one of the given positions |
| Common.ExtractAll | nextplot/common.py:192-193 | converting a list succeeds exactly when every element converts, and keeps order and length |
| Common.ExtractPositions | nextplot/common.py:184-195 | the position list has one slot per pair match and one per list element; any other match fails |
| Common.EmbeddedGroup | nextplot/common.py:208-219 | a raw pair gives one position, a list one position per element, and anything else one position |
| Common.IndexedGroup | nextplot/common.py:221-242 | with a position list, a group is its match's indices resolved against that list |
| Common.ExtractPositionGroups | nextplot/common.py:197-249 | null matches are skipped and counted; every other match gives exactly one group |
| Common.ExtractSucceeds | nextplot/common.py:220-234 | with a position list, extraction fails exactly when some non-null match is neither an int nor a list of ints and int pairs |
| Common.ExtractResolves | nextplot/common.py:237-243 | with a position list, every group member is one of the positions and every reported index lies outside them |
| Common.SwapAll | nextplot/common.py:258-261 | `--swap` exchanges lon and lat of every position and keeps the group shape |
| Common.SwapTwice | nextplot/common.py:258-261 | swapping twice restores the groups |
| Common.AllWorld | nextplot/common.py:263-264 | true exactly when every lon is in [-180, 180] and every lat is in [-90, 90] |
| Common.PreprocessCoordinates | nextplot/common.py:252-271 | fails exactly for "haversine" on data outside the world range; otherwise the world flag holds iff the data is world data and "euclidean" was not chosen |
| Common.BoxOf | nextplot/common.py:333-340 | the box contains every position, and each of its four bounds is attained by some position |
| Common.BoundingBoxOf | nextplot/common.py:333-340 | defined exactly when some group is non-empty; contains every position of every group, with non-negative width and height, and each of its four bounds is the coordinate of some group member |
| Common.BoxAttainedInGroups | nextplot/common.py:338-340 | the min and max over the flattened positions are coordinates of members of the groups |
| Common.FlattenFrom | nextplot/common.py:338-339 | every element of the flattened list is a member of some group |
| Common.FlattenContains | nextplot/common.py:338-339 | the flattened list holds every group member, and is non-empty iff some group is |
| Colors.RangeStep | nextplot/common.py:423-430 | 0 maps to start and 1 to end, and fractions in [0, 1] stay between them |
| Colors.Gradient | nextplot/common.py:433-451 | `max(count, 0)` colours, starting at start and, for count >= 2, ending at end |
| Colors.FillUp | nextplot/common.py:466-473 | the fill-up loop makes the section counts sum to count; each is target or target + 1, and they never increase |
| Colors.SectionCounts | nextplot/common.py:462-473 | the counts of the sections sum to count, differ by at most one, never increase, and the first is at least 2 |
| Colors.Sections | nextplot/common.py:476-485 | the joined sections hold the sum of their counts, start at the first stop and end at the last stop |
| Colors.MultiGradient | nextplot/common.py:454-485 | fewer colours than stops gives the first count stops; otherwise exactly count colours from the first stop to the last |
| Colors.RainbowColors | nextplot/common.py:541-542 | count hues, strictly increasing in [0, 360), with saturation and value 0.8 |
| Colors.CustomHue | nextplot/common.py:549 | only the offset wraps at 360, so every hue lies in [start, start + 360) |
| Colors.CustomRainbow | nextplot/common.py:545-549 | fails on count 0 (a division by zero); otherwise count colours with the given saturation and value |
| Colors.Split | nextplot/common.py:544 | `str.split` gives at least one part, and no part contains the separator |
| Colors.JoinSplit | nextplot/common.py:544 | joining the parts of a split restores the text |
| Colors.SplitJoin | nextplot/common.py:544 | splitting a join of separator-free parts gives the parts back |
| Colors.DecodeStops | nextplot/common.py:554 | gradient stops decode exactly when each one does, one colour per stop |
| Colors.RainbowProfile | nextplot/common.py:545-549 | fewer than four values after the name fail; otherwise it succeeds exactly when the count is not 0 and all four values parse, and then gives max(count, 0) colours |
| Colors.GradientProfile | nextplot/common.py:550-554 | a gradient needs at least two stops and then gives max(count, 0) colours |
| Colors.GetColors | nextplot/common.py:528-557 | auto gives cloud for at most 20 groups and rainbow above that; a gradient needs 2 stops and gives count colours; a custom rainbow with four values succeeds exactly when the count is not 0 and they parse, giving count colours; an unknown profile fails |
| Colors.GroupCentroids | nextplot/common.py:498-502 | exactly the non-empty groups get a centroid, their coordinate mean |
| Colors.Present | nextplot/common.py:504-507 | the defined centroids, none missing, and empty exactly when no group has one |
| Colors.SortingCentroids | nextplot/common.py:497-511 | defined exactly when some group is non-empty; empty groups take the centroid of the centroids |
| Colors.AssignColors | nextplot/common.py:521-525 | the k-th group in colouring order gets palette colour k mod palette size |
| Colors.PrepareColors | nextplot/common.py:488-525 | the colouring order is a permutation: the identity without sorting, otherwise clockwise with ties by index; every group gets its palette colour |
| IndexSort.BeforeTotal | nextplot/common.py:513-516 | of two distinct indices, exactly one comes first in the stable sort |
| IndexSort.BeforeTransitive | nextplot/common.py:513-516 | the stable order is transitive |
| IndexSort.Sort | nextplot/common.py:513-516 | the result is a permutation of the input, sorted by key with ties by index |
| IndexSort.StableOrder | nextplot/common.py:513-516 | `sorted(range(n), key=...)` is a permutation of 0..n-1; keys never decrease, and equal keys keep index order |
| IndexSort.PermutationCovers | nextplot/common.py:495 | a permutation of 0..n-1 contains every index, so every group is coloured |
| Distances.PathLength | nextplot/route.py:588-599 | the route length is 0 for fewer than two stops, and non-negative for a measure |
| Distances.PathLengthStep | nextplot/route.py:589-600 | each further stop adds the distance from the previous stop |
| Distances.PathLengthMonotone | nextplot/route.py:588-600 | the length up to a stop never decreases along the route |
| Distances.PathLengthIgnoresAttributes | nextplot/route.py:589-599 | the length depends only on the stop coordinates, not on the distances written during the loop |
| Distances.Diameter | nextplot/route.py:813-824 | the result is the diameter: at least 0 and at least every counted pair's distance, attained by a pair unless 0, and 0 for at most one point |
| Distances.DiameterUnique | nextplot/route.py:813-824 | a list of stops has one diameter: two values that both bound every counted pair and are both attained (or 0) are equal |
| RouteMode.UnassignedPaths | nextplot/route.py:241-250 | unassigned stops are read only with an unassigned path; their x/y paths fall back to the route's when empty |
| RouteMode.PrepareAsWritten | nextplot/route.py:563-577 | as written, the world flag is the unassigned check's flag whenever there are unassigned stops |
| RouteMode.Prepare | nextplot/route.py:563-577 | fails without points; swaps both groups; the world flag holds iff route and unassigned stops are all world data and "euclidean" was not chosen |
| RouteMode.WorldFlagOverwritten | nextplot/route.py:569-577 | planar routes next to in-range unassigned stops are taken for world data as written, but not by Prepare |
| RouteMode.StopRecord | nextplot/route.py:586-600 | each stop keeps its coordinates and description; from the second stop on, its distance is the path length up to it |
| RouteMode.AccumulateDistances | nextplot/route.py:588-601 | the loop records every stop's cumulative distance and returns the path length |
| RouteMode.StopDistancesIncrease | nextplot/route.py:588-600 | recorded stop distances never decrease along a route |
| RouteMode.ProcessRoutes | nextplot/route.py:586-601 | every route gets its stop distances and its length, and nothing else changes |
| RouteMode.OmitShort | nextplot/route.py:617-618 | with a positive bound, exactly the routes with more stops are kept; otherwise all routes |
| RouteMode.OmitShortAppend | nextplot/route.py:617-618 | the filter keeps order: filtering a concatenation concatenates the filtered parts |
| Reals.Summarize | nextplot/route.py:827-837 | max and min bound every value and are attained; the average lies between them and is the mean |
| Reals.Mean | nextplot/route.py:829 | `sum / float(len)`: the mean times the count is the sum |
| RouteMode.RouteCosts | nextplot/route.py:841-842 | defined exactly when every route has a cost list; each route's cost is its sum |
| RouteMode.Diameters | nextplot/route.py:813-824 | one value per route, and each is that route's diameter over its stops; 0 for a route of at most one stop |
| RouteMode.StopSummary | nextplot/route.py:811-829 | the stop-count figures bound every route's number of stops, the extremes are some route's count, and the average is the total stop count over the number of routes |
| RouteMode.CostSummary | nextplot/route.py:841-849 | cost figures exist exactly when every route has legs, fail when a routed route has no cost list, bound every route's cost total with attained extremes, and average the route totals |
| RouteMode.DiameterSummary | nextplot/route.py:813-837 | one diameter per route, each that route's diameter; the figures summarise exactly those diameters, the smallest is not negative and the largest bounds every pair distance of every route |
| RouteMode.RouteStatistics | nextplot/route.py:801-849 | needs a route; the stop, length, diameter and cost figures are the max/min/avg summaries of the routes' stop counts, lengths, diameters and cost totals; the unassigned count is the number of unassigned stops; cost figures appear exactly when every route has legs |
| RouteMode.DiametersBound | nextplot/route.py:813-837 | summarised route diameters are never negative at the minimum, and the maximum bounds every pair distance of every route |
| ClusterMode.ConvexHull | nextplot/cluster.py:69-82 | up to two points are their own outline in input order; otherwise the hull's vertices |
| ClusterMode.MaxDefaultZero | nextplot/cluster.py:187 | `max(values, default=0)`: 0 when empty, otherwise an attained upper bound |
| ClusterMode.Describe | nextplot/cluster.py:176-199 | a cluster's size, centroid, centroid distances, WCSS and distinct-pair diameter; all are 0 for one point |
| ClusterMode.SinglePointCluster | nextplot/cluster.py:180-199 | a one-point cluster has every figure 0 under a measure |
| ClusterMode.DescribeAll | nextplot/cluster.py:176-199 | one description per group, and every non-empty cluster gets a centroid |
| ClusterMode.OwnCentroidIrrelevant | nextplot/cluster.py:424-429 | a point is misassigned exactly when another cluster's centroid is strictly closer than its own |
| ClusterMode.MisassignedIn | nextplot/cluster.py:422-429 | a cluster has at most as many bad assignments as points |
| ClusterMode.BadAssignments | nextplot/cluster.py:421-429 | the count never exceeds the number of points |
| ClusterMode.SingleClusterNoBadAssignments | nextplot/cluster.py:421-429 | a single cluster has no bad assignments |
| ClusterMode.SizesTotal | nextplot/cluster.py:414-434 | the cluster sizes add up to the number of points |
| ClusterMode.ClusterStatistics | nextplot/cluster.py:407-461 | needs a cluster; npoints is the total of the sizes; sizes and diameters are the max/min/avg summaries over clusters, with average size npoints over nclusters; the distance figures are the sum and max of the per-cluster maxima and the sums of distances and of WCSS; bad assignments are their per-cluster total, at most npoints and 0 for one cluster |
| PointMode.GroupNumbers | nextplot/point.py:153-154 | the groups are numbered 1..n in input order |
| PointMode.RowsTotalClosed | nextplot/point.py:307-311 | the scan visits n(n+1)/2 pairs with self-pairs and n(n-1)/2 without |
| PointMode.SelfPairsAddNothing | nextplot/point.py:307-317 | under a measure the self-pairs add 0, so the sum over pairs is the same with or without them |
| PointMode.Step | nextplot/point.py:311-317 | one pair adds one to the count and its distance to the sum; min and max move only to it |
| PointMode.RowScannedStep | nextplot/point.py:308-317 | one more column keeps the row's count, sum and bounds invariant |
| PointMode.ScanRow | nextplot/point.py:308-317 | one row counts its pairs, adds exactly their distances to the sum, and min and max bound them and stay attained |
| PointMode.ScannedStep | nextplot/point.py:304-317 | a scanned row extends the invariant of the rows before it |
| PointMode.TotalsStep | nextplot/point.py:304-317 | after row i the count and the sum are those of rows 0..i |
| PointMode.ScannedAll | nextplot/point.py:304-317 | after the last row the sum is the sum over all visited pairs |
| PointMode.PairScan | nextplot/point.py:304-317 | the scan counts the visited pairs, its sum is the sum of their distances, and min and max bound and attain them |
| PointMode.Finish | nextplot/point.py:318-321 | an untouched minimum becomes 0; the mean is 0 with no pairs and otherwise the sum over the count, which lies between min and max |
| PointMode.OrderedMaximum | nextplot/point.py:304-317 | with self-pairs, the maximum bounds every pair i <= j and is 0 or one of their distances |
| PointMode.DistinctMaximum | nextplot/point.py:304-317 | over distinct pairs, the maximum bounds every pair i < j and is 0 or one of their distances |
| PointMode.StatisticsAsWritten | nextplot/point.py:295-328 | as written: n(n+1)/2 pairs including self-pairs; the mean is the sum over those pairs divided by their count; the maximum is an attained bound of every pair i <= j; the minimum is 0 whenever there is a point, and also when there is none |
| PointMode.DistinctMinimum | nextplot/point.py:316-319 | over distinct pairs, the minimum leaves the sentinel and is attained by a pair of different points |
| PointMode.Statistics | nextplot/point.py:295-328 | n(n-1)/2 distinct pairs; the maximum is an attained bound of every pair i < j; the minimum is the smallest distance between different points; the mean is the sum over distinct pairs divided by their count |
| PointMode.DistinctMinimumReported | nextplot/point.py:316-321 | the reported minimum over distinct pairs of at least two points bounds every pair and is attained |
| RoutingKit.ChFileName | nextplot/routingkit.py:46 | the file name is the OSM name, `_`, the profile, `_`, the mode and `.ch` |
| RoutingKit.ChSuffixInjective | nextplot/routingkit.py:46 | the suffix determines profile and cost mode |
| RoutingKit.ChFileNameInjective | nextplot/routingkit.py:46 | two file names for one OSM file are equal exactly when profile and cost mode are |
| RoutingKit.StopPairs | nextplot/routingkit.py:74-75 | a route of n stops gives max(0, n-1) queries, query i joining stop i to stop i+1 |
| RoutingKit.Queries | nextplot/routingkit.py:73-78 | the query list holds every route's stop pairs, route by route, and each query names its route |
| RoutingKit.Reconcile | nextplot/routingkit.py:95-116 | without a path or when not moving: leg [start, end] at the scaled straight cost; otherwise [start] + path + [end] with scaled snapping costs added |
| RoutingKit.ClearAll | nextplot/routingkit.py:84-86 | every route loses its legs and leg costs before results are applied |
| RoutingKit.Apply | nextplot/routingkit.py:88-124 | applying outcomes never changes the stops of any route |
| RoutingKit.CostsOf | nextplot/routingkit.py:119-124 | a route collects one cost per leg |
| RoutingKit.ApplyCollects | nextplot/routingkit.py:84-124 | after clearing, a route has no legs exactly when no outcome is its; otherwise it has exactly its legs and costs, in query order |
| RoutingKit.QueryRoutes | nextplot/routingkit.py:53-124 | succeeds exactly when no path lacks a query or a cost, with stops unchanged; the first path lacking either decides the error: a missing cost (IndexError) when the costs run out no later than the queries, otherwise a missing query |
| RoutingKit.Outcomes | nextplot/routingkit.py:89-116 | one reconciled leg per query, in order |
| RoutingKit.AllPairsCollected | nextplot/routingkit.py:73-124 | with an outcome for every query, route k gets one leg per stop pair, leg i from stop i to stop i+1 |
| RoutingKit.PairsFollowStops | nextplot/routingkit.py:100-108 | legs framed by their queries follow the stops in order |
| RoutingKit.CompleteAnswer | nextplot/routingkit.py:84-124 | with one path per query, a route of n >= 2 stops gets n-1 legs and costs following its stops; a shorter route keeps none |
| RoutingKit.ReconcileCost | nextplot/routingkit.py:95-116 | a leg cost is never negative when the routed cost is not, and is 0 when start and end coincide |
| RoutingKit.LegsMatchCosts | nextplot/routingkit.py:118-124 | a route has legs exactly when it has leg costs, and as many of each |
| Osrm.Fallback | nextplot/osrm.py:45-57 | NoRoute gives one straight two-point path per stop pair, flagged no-route and not zero-distance |
| Osrm.FallbackFigures | nextplot/osrm.py:51-56 | fallback distances are the straight-line lengths, and durations those over the travel speed |
| Osrm.Collapse | nextplot/osrm.py:80 | the first and last vertex are kept, no two adjacent vertices are equal, and the result is no longer |
| Osrm.KeptIndices | nextplot/osrm.py:80 | one kept index per collapsed vertex, starting at 0, strictly increasing and inside the path |
| Osrm.CollapsePicksKept | nextplot/osrm.py:80 | the collapsed path is the input taken at the kept indices |
| Osrm.KeptIndicesStartRuns | nextplot/osrm.py:80 | an index is kept exactly when it is 0 or its vertex differs from the previous one |
| Osrm.CollapseKeepsEveryVertex | nextplot/osrm.py:80 | every input vertex appears in the collapsed path |
| Osrm.CollapseKeepsDistinctRuns | nextplot/osrm.py:80 | a path without adjacent repeats is left as it is |
| Osrm.CollapseIdempotent | nextplot/osrm.py:80 | collapsing twice is collapsing once |
| Osrm.ToPositions | nextplot/osrm.py:82 | decoded (lat, lon) vertices become positions with the same lon and lat |
| Osrm.LegVertices | nextplot/osrm.py:76-82 | a leg's vertices exist exactly when its steps decode to any, and collapsing never adds any |
| Osrm.Snap | nextplot/osrm.py:92-95 | snapping terms measured from the stops to the decoded path's ends are non-negative |
| Osrm.SnapAsWrittenVanishes | nextplot/osrm.py:84-95 | as written, both snapping terms are d(p, p): the figures are meters/1000 and the raw seconds |
| Osrm.SnapGapIgnored | nextplot/osrm.py:92-95 | a stop 1 away from the road start adds nothing as written, and adds 1 and 0.1 when corrected |
| Osrm.ProcessLeg | nextplot/osrm.py:74-99 | a leg succeeds exactly when its steps decode to some vertex and a next stop exists |
| Osrm.ProcessLegFrames | nextplot/osrm.py:80-99 | a processed leg is its stop, its collapsed vertices and the next stop, with OSRM's figures plus the snapping terms of the chosen reading |
| Osrm.ProcessLegs | nextplot/osrm.py:72-106 | one path, distance and duration per leg, not flagged no-route |
| Osrm.ProcessLegsSucceeds | nextplot/osrm.py:74-99 | processing succeeds exactly when every leg has vertices and a next stop |
| Osrm.ProcessLegsReports | nextplot/osrm.py:72-106 | each leg is reported as processing it alone would be, in order |
| Osrm.ProcessLegsZeroDistance | nextplot/osrm.py:72-106 | the zero-distance flag holds exactly when no leg's kilometre distance is positive |
| Osrm.QueryRoute | nextplot/osrm.py:45-106 | NoRoute gives the fallback; an HTTP error, a code other than "Ok" or no routes fails; otherwise the first route's legs are processed with the chosen snapping |
| Osrm.AnsweredLegs | nextplot/osrm.py:84-95 | every leg of an answer runs from stop i to stop i+1, and its distance and duration are at least OSRM's own |
| Osrm.AnsweredFigures | nextplot/osrm.py:88-95 | as written, a leg reports OSRM's distance in km and its seconds unchanged; corrected, the distance adds the gaps from the stops to the decoded path's ends |
| Osrm.QueryRoutes | nextplot/osrm.py:123-133 | each route takes its response's paths, in order, and its response carries the leg distances and durations; the counts are those of the flagged responses |
| Osrm.QueryRoutesSucceeds | nextplot/osrm.py:123-133 | querying all routes succeeds exactly when every route's query does |
| Osrm.CountsBounded | nextplot/osrm.py:124-133 | both counts are at most the number of routes, and 0 exactly when no response is flagged |
| Progression.UnitSize | nextplot/progression.py:78-91 | a known unit has one or two characters and a size of at least 1 ns |
| Progression.UnitLadder | nextplot/progression.py:67-91 | us = 1000 ns (three spellings), ms, s, m = 60 s, h, d = 24 h, w = 7 d, mm = 30 d, y = 365 d; other units are unknown |
| Progression.MatchAt | nextplot/progression.py:216 | a match exists exactly when a non-empty run of digits and points is followed by a unit character; it is that maximal run followed by the maximal run of unit characters |
| Progression.Tokens | nextplot/progression.py:216-217 | `findall` yields well-formed (number, unit) tokens |
| Progression.TokensOfRender | nextplot/progression.py:216-217 | tokens written back to back without separators, as in "1h30m" or "1m30.5s", tokenize to exactly those tokens |
| Progression.MatchAtRendered | nextplot/progression.py:216 | a well-formed token followed by a number or by nothing is matched whole, and the scan resumes right after it |
| Progression.MatchAtStops | nextplot/progression.py:216 | a match never crosses a character that belongs to no token |
| Progression.TokensSplit | nextplot/progression.py:216-217 | text ending in a separator tokenizes on its own: the tokens of a + b are those of a then b |
| Progression.TokensSkipSeparator | nextplot/progression.py:216-217 | characters outside tokens are ignored |
| Progression.ParseNumber | nextplot/progression.py:228 | `float` of digits and points succeeds exactly when the text is non-empty, not ".", and has at most one point; the value is non-negative, and plain digits read as their value |
| Progression.DotsAfterPoint | nextplot/progression.py:228 | after the first point, the rest is all digits exactly when no second point exists |
| Progression.ParseNumberPoint | nextplot/progression.py:228 | a number with one point reads as its whole digits plus its fraction digits shifted by their count |
| Progression.ShiftIsDivision | nextplot/progression.py:228 | shifting by k places is division by 10^k |
| Progression.FractionIsShifted | nextplot/progression.py:228 | digits after a point are worth their whole-number value over ten to their count |
| Progression.ShiftLeading | nextplot/progression.py:228 | shifted by its length, a digit string puts its leading digit in the first decimal place |
| Progression.PointExamples | nextplot/progression.py:228 | "1.5" reads as 1.5 and ".5" as 0.5 |
| Progression.PointEdgeExamples | nextplot/progression.py:228 | "1." reads as 1, and "1.2.3" does not read |
| Progression.DigitsRoundTrip | nextplot/progression.py:228 | reading back the decimal digits of n gives n |
| Progression.TokenValue | nextplot/progression.py:224-230 | a token has a value exactly when its unit is known and its number parses |
| Progression.TokensTotal | nextplot/progression.py:221-230 | the total exists exactly when every token is readable, and is non-negative |
| Progression.TokensTotalAppend | nextplot/progression.py:224-228 | totals of concatenated token lists add up |
| Progression.DurationFromStr | nextplot/progression.py:208-233 | "0", "+0" and "-0" give 0; any other string succeeds exactly when it has a token and every token is readable, and then gives ±total/1000 microseconds |
| Progression.UnknownUnitFails | nextplot/progression.py:224-226 | one unknown unit makes the whole string fail |
| Progression.SignOfDuration | nextplot/progression.py:222 | a negative duration starts with '-', and a positive one does not |
| Progression.Negated | nextplot/progression.py:222-233 | a leading '-' negates the duration and changes nothing else |
| Progression.DurationsAdd | nextplot/progression.py:216-233 | durations joined at a separator add up |
| Progression.HourAndAHalf | nextplot/progression.py:208-233 | "1h30m" is 5 400 000 000 microseconds |
| Progression.RenderedDuration | nextplot/progression.py:208-233 | any tokens written back to back form a duration exactly when every token is readable, and then it is their total in microseconds |
| Progression.MinuteAndAHalfSecond | nextplot/progression.py:208-233 | "1m30.5s" is 90 500 000 microseconds |
| Progression.LexTotal | nextplot/progression.py:274-275 | any two strings compare one way or the other |
| Progression.LexTransitive | nextplot/progression.py:274-275 | string order is transitive |
| Progression.LexAntisymmetric | nextplot/progression.py:274-275 | strings ordered both ways are equal |
| Progression.MinString | nextplot/progression.py:274 | `min(m)` is an element below every element |
| Progression.MaxString | nextplot/progression.py:275 | `max(m)` is an element above every element |
| Progression.PairPrefix | nextplot/progression.py:276-279 | the loop returns a prefix of both strings that ends at s1's end or at their first difference |
| Progression.Sandwich | nextplot/progression.py:274-279 | a string between two others shares every prefix they share |
| Progression.CommonPrefix | nextplot/progression.py:272-273 | the empty list gives "" |
| Progression.CommonPrefixIsLongest | nextplot/progression.py:267-279 | the result is a prefix of every element, and every common prefix is a prefix of it |
| GeoJson.Include | nextplot/geojson.py:214-215 | a position widens the box to contain it and everything it contained before |
| GeoJson.Traverse | nextplot/geojson.py:212-222 | traversal only widens: sw never grows and ne never shrinks |
| GeoJson.TraverseAll | nextplot/geojson.py:220-222 | list elements are traversed in order, and the box only widens |
| GeoJson.TraverseMembers | nextplot/geojson.py:217-219 | object values are traversed in order, and the box only widens |
| GeoJson.DetermineBox | nextplot/geojson.py:206-225 | the box of an object reaches at least as far as the starting box |
| GeoJson.IncludeAll | nextplot/geojson.py:213-216 | a box widened by positions contains them all |
| GeoJson.IncludeAllTight | nextplot/geojson.py:214-215 | each side of the widened box is its start or some position: no larger than needed |
| GeoJson.IncludeAllAppend | nextplot/geojson.py:212-222 | widening by a + c is widening by a and then by c |
| GeoJson.TraverseIsIncludeAll | nextplot/geojson.py:212-224 | traversal fails exactly when a position's latitude is not a number; otherwise it widens by the visited positions in order |
| GeoJson.TraverseAllIsIncludeAll | nextplot/geojson.py:220-222 | the same for the elements of a list |
| GeoJson.TraverseMembersIsIncludeAll | nextplot/geojson.py:217-219 | the same for the values of an object |
| GeoJson.BoxContainsPositions | nextplot/geojson.py:210-225 | every visited position lies in the box; an object without positions gives sw (90, 180) and ne (-90, -180) |
| GeoJson.MergeCommutesAssociates | nextplot/geojson.py:150-151 | merging boxes is commutative and associative |
| GeoJson.MergeAll | nextplot/geojson.py:147-151 | the merged box contains every object's box and the starting box |
| GeoJson.MergeAllAppend | nextplot/geojson.py:147-151 | merging a + c is merging the merges of a and c |
| GeoJson.MergeAllSwap | nextplot/geojson.py:147-151 | the merged box does not depend on the order of the objects |
| GeoJson.IncludeAllIsMerge | nextplot/geojson.py:147-151 | widening a box by positions is merging it with the positions' own box |
| GeoJson.MergedBoxOfAll | nextplot/geojson.py:147-151 | merging the per-object boxes gives the box of all positions of all objects |
| GeoJson.ObjectBoxes | nextplot/geojson.py:148-149 | defined exactly when every object's box is; one box per object |
| GeoJson.MergedBox | nextplot/geojson.py:147-151 | defined exactly when every object has a box, and then contains every object's box |
| GeoJson.PlotAsWritten | nextplot/geojson.py:141-200 | as written: succeeds exactly when there are objects and each has a box; centred on the merged box of all objects, but fitted to the last object's box |
| GeoJson.Plot | nextplot/geojson.py:141-200 | fails without objects or when an object has no box; the view is fitted to the merged box of all objects, contains every object's box and is centred on its midpoint |
| GeoJson.PlotsShareCentre | nextplot/geojson.py:147-200 | both readings succeed on the same objects and give the same centre; they differ only in the fitted box |
| GeoJson.FitBoundsMissesEarlierObjects | nextplot/geojson.py:200 | for points (0, 0) and (10, 10), the view as written leaves out the first point, and the corrected one holds both |

## Left out

- Rendering with plotly and folium, popups and file writes are not modelled. Neither are `create_plot`, `create_map`, the `plot_map_*` helpers and `common.create_map`. Of the GeoJSON `plot`, the map centre and the box passed to `fit_bounds` (geojson.py:200) are modelled; the map and its layers are not.
- JSON and JSON-path evaluation (`json.loads`, `jsonpath_ng`) are not modelled; path matches are an input sequence of `Json` values.
- `extract_position` reading x/y through relative JSON paths and `float()` is a parameter. The error text printed before re-raising is not modelled.
- File, stdin and gzip loading (`load_data`, `read_content`), argparse wiring and the mode argument definitions are not modelled.
- The golden-file CLI tests are not modelled.
- haversine, euclidean, `cw_angle_distance` and `km_to_miles` are trigonometry on floats. The measure and the clockwise key are parameters, with only the measure's three properties assumed.
- All arithmetic is on exact reals; floating-point rounding is not modelled.
- The OSRM fallback and snapping (osrm.py:55-56, 92-93) and the RoutingKit reconciliation (routingkit.py:101-113) always call `common.haversine`, whatever the coordinate mode. The model gives these members the measure as a parameter; callers that follow the source pass haversine.
- The OSRM leg processing (`QueryRoute`, `ProcessLegs`) takes a `Snapping` argument. `AsWritten` follows osrm.py:92-95 and `Corrected` measures from the decoded path; the leg distances and durations of osrm.py:128-129 are the `distances` and `durations` of each response.
- The scipy convex hull of three or more points is a vertex list given as a parameter. `np.var` of the cluster sizes is not computed.
- colorutils HSV, RGB and hex conversion is not modelled: colours are opaque values, and hex decoding is a parameter.
- Colors.Gradient: a count of 1 returns a list with the start colour, whereas the source returns the bare colour object. That object then enters a `list(...)` call whose outcome depends on colorutils.
- Colors.GetColors: a gradient with fewer than two stops is a failure; the source raises a string, which Python turns into a TypeError. Both stop the program.
- HTTP requests, polyline encoding and decoding in `osrm.query_route`, and the subprocess in `routingkit.query` are not modelled. Replies and trips are input sequences, and decoded polylines are given as vertex lists.
- The printing of warnings (out-of-bounds indices, null matches, the OSRM leg-count mismatch at osrm.py:102-103, zero-distance and no-route counts) is not modelled; the counts themselves are.
- Process exits (`sys.exit`, `quit`) are not modelled; each becomes a `Failure` or is left to the caller.
- Progression.DurationFromStr: the result is in exact microseconds; `timedelta`'s rounding to whole microseconds and its range limits are not modelled.
- Progression.ParseNumber: only ASCII digits count as `\d`, and the number text is limited to what the pattern admits (digits and points); other Unicode digits are not modelled.
- The progression `parse` loop that tries `float()` before the duration parser is not modelled: it is JSON-path evaluation plus Python's float syntax.

## Findings

| source | as written | input that shows it | evidently intended | confidence | as-written member | corrected member |
|---|---|---|---|---|---|---|
| nextplot/osrm.py:92-95 | the snapping distances are measured from `path[0]` and `path[-1]` after the stops were prepended and appended, so they are always d(p, p) = 0 | a stop at (0, 0) whose road path starts at (1, 0): nothing is added for the gap | measure from each stop to the first and last decoded vertex, as routingkit.py:110-116 does | not executed | Osrm.SnapAsWrittenVanishes | Osrm.AnsweredFigures |
| nextplot/geojson.py:200 | `fit_bounds([sw, ne])` uses the loop variables, the box of the last object only | two point objects at (0, 0) and (10, 10): the view holds only (10, 10) | fit the map to the merged `bbox_sw`, `bbox_ne` | not executed | GeoJson.FitBoundsMissesEarlierObjects | GeoJson.Plot |
| nextplot/point.py:307-311 | the pair loop skips only `i2 < i1`, so every point is paired with itself and `distance_min` is 0 for any non-empty input | any single point group, or points 1 apart: the minimum is 0 | skip `i2 <= i1`, so the minimum is the smallest distance between different points | not executed | PointMode.StatisticsAsWritten | PointMode.Statistics |
| nextplot/route.py:569-577 | checking the unassigned stops overwrites `world_coords` of the routes | route stop (500, 0) and unassigned stop (1, 1) with coords "auto": haversine is used on planar data | world coordinates only when both the routes and the unassigned stops are | not executed | RouteMode.WorldFlagOverwritten | RouteMode.Prepare |

=== FILE: clustermode.dfy ===
/** The cluster mode of nextplot (nextplot/cluster.py) below its rendering:
    the hull outline of a cluster, the per-cluster figures computed in
    `plot` and the aggregate `statistics`, including the count of points
    that lie strictly closer to another cluster's centroid. */
module ClusterMode {
  import opened Results
  import opened Geometry
  import opened Reals
  import opened Seqs
  import opened Distances

  /** `convex_hull`: up to two points are their own outline, in input
      order; for more, the hull vertex indices come from the geometry
      library and are looked up in order. */
  function ConvexHull(points: seq<Position>, vertices: seq<nat>): (r: seq<Coord>)
    requires |points| > 2 ==> forall k :: 0 <= k < |vertices| ==> vertices[k] < |points|
    ensures |points| <= 2 ==> |r| == |points| && forall k :: 0 <= k < |points| ==> r[k] == points[k].At()
    ensures |points| > 2 ==> |r| == |vertices| && forall k :: 0 <= k < |vertices| ==> r[k] == points[vertices[k]].At()
  {
    if |points| <= 2 then seq(|points|, k requires 0 <= k < |points| => points[k].At())
    else seq(|vertices|, k requires 0 <= k < |vertices| => points[vertices[k]].At())
  }

  /** A cluster with the figures `plot` attaches to it. */
  datatype Cluster = Cluster(
    points: seq<Position>,
    size: nat,
    centroid: Option<Coord>,
    sumFromCentroid: real,
    maxFromCentroid: real,
    wcss: real,
    diameter: real)

  /** Distances of the points to a centre, measured from the point. */
  function FromCentre(d: Measure, ps: seq<Position>, c: Coord): (r: seq<real>)
    ensures |r| == |ps| && forall k :: 0 <= k < |ps| ==> r[k] == d(ps[k].At(), c)
  {
    seq(|ps|, k requires 0 <= k < |ps| => d(ps[k].At(), c))
  }

  function Squares(s: seq<real>): (r: seq<real>)
    ensures |r| == |s| && forall k :: 0 <= k < |s| ==> r[k] == s[k] * s[k]
  {
    seq(|s|, k requires 0 <= k < |s| => s[k] * s[k])
  }

  /** Python's `max(values, default=0)`. */
  function MaxDefaultZero(values: seq<real>): (m: real)
    ensures |values| == 0 ==> m == 0.0
    ensures forall k :: 0 <= k < |values| ==> values[k] <= m
    ensures |values| > 0 ==> exists k :: 0 <= k < |values| && values[k] == m
  {
    if |values| == 0 then 0.0 else Max(values)
  }

  /** The figures of one cluster: its size, its centroid when it has points,
      the sum, maximum and sum of squares of the point-to-centroid
      distances, and its diameter over pairs of distinct points. */
  ghost predicate Describes(d: Measure, ps: seq<Position>, c: Cluster) {
    && c.points == ps && c.size == |ps|
    && (c.centroid.Some? <==> |ps| > 0)
    && (c.centroid.Some? ==> c.centroid.value == Centroid(ps))
    && (|ps| == 0 ==> c.sumFromCentroid == 0.0 && c.maxFromCentroid == 0.0 && c.wcss == 0.0)
    && (|ps| > 0 ==> (c.sumFromCentroid == Sum(FromCentre(d, ps, c.centroid.value))
      && c.wcss == Sum(Squares(FromCentre(d, ps, c.centroid.value)))
      && c.maxFromCentroid == MaxDefaultZero(FromCentre(d, ps, c.centroid.value))))
    && c.diameter >= 0.0
    && (forall i, j :: 0 <= i < |ps| && 0 <= j < |ps| && i != j ==> Dist(d, ps[i], ps[j]) <= c.diameter)
    && (c.diameter == 0.0 || exists i, j :: 0 <= i < |ps| && 0 <= j < |ps| && i != j && c.diameter == Dist(d, ps[i], ps[j]))
  }

  method Describe(d: Measure, ps: seq<Position>) returns (c: Cluster)
    ensures Describes(d, ps, c)
    ensures IsMeasure(d) && |ps| == 1 ==> c.sumFromCentroid == 0.0 && c.maxFromCentroid == 0.0 && c.wcss == 0.0 && c.diameter == 0.0
  {
    var diameter := Diameter(d, ps, true);
    assert forall i, j :: 0 <= i < |ps| && 0 <= j < |ps| && i != j ==> Dist(d, ps[i], ps[j]) <= diameter by {
      forall i, j | 0 <= i < |ps| && 0 <= j < |ps| && i != j
        ensures Dist(d, ps[i], ps[j]) <= diameter
      {
        assert Counted(true, i, j);
      }
    }
    assert diameter == 0.0 || exists i, j :: 0 <= i < |ps| && 0 <= j < |ps| && i != j && diameter == Dist(d, ps[i], ps[j]);
    if |ps| == 0 {
      return Cluster(ps, 0, None, 0.0, 0.0, 0.0, diameter);
    }
    var centre := Centroid(ps);
    var distances := FromCentre(d, ps, centre);
    c := Cluster(ps, |ps|, Some(centre), Sum(distances), MaxDefaultZero(distances), Sum(Squares(distances)), diameter);
    SinglePointCluster(d, ps, c);
  }

  /** A one-point cluster sits on its centroid, so all its figures are 0. */
  lemma SinglePointCluster(d: Measure, ps: seq<Position>, c: Cluster)
    requires Describes(d, ps, c)
    ensures IsMeasure(d) && |ps| == 1 ==> c.sumFromCentroid == 0.0 && c.maxFromCentroid == 0.0 && c.wcss == 0.0 && c.diameter == 0.0
  {
    if IsMeasure(d) && |ps| == 1 {
      var distances := FromCentre(d, ps, c.centroid.value);
      assert distances == [0.0];
      assert Squares(distances) == [0.0];
    }
  }

  /** The cluster loop of `plot`. */
  method DescribeAll(d: Measure, groups: seq<seq<Position>>) returns (clusters: seq<Cluster>)
    ensures |clusters| == |groups|
    ensures forall g :: 0 <= g < |groups| ==> Describes(d, groups[g], clusters[g])
    ensures Described(clusters)
  {
    clusters := [];
    var g := 0;
    while g < |groups|
      invariant 0 <= g <= |groups| && |clusters| == g
      invariant forall q :: 0 <= q < g ==> Describes(d, groups[q], clusters[q])
    {
      var c := Describe(d, groups[g]);
      clusters := clusters + [c];
      g := g + 1;
    }
  }

  /** A point of cluster c lies strictly closer to the centroid of some
      cluster than to its own; distances are measured from the centroid. */
  predicate Misassigned(d: Measure, clusters: seq<Cluster>, c: nat, p: Position)
    requires c < |clusters| && clusters[c].centroid.Some?
  {
    exists o :: 0 <= o < |clusters| && clusters[o].centroid.Some?
      && d(clusters[c].centroid.value, p.At()) > d(clusters[o].centroid.value, p.At())
  }

  /** A cluster's own centroid never makes a point misassigned: only the
      other clusters count. */
  lemma OwnCentroidIrrelevant(d: Measure, clusters: seq<Cluster>, c: nat, p: Position)
    requires c < |clusters| && clusters[c].centroid.Some?
    ensures Misassigned(d, clusters, c, p) <==>
      exists o :: 0 <= o < |clusters| && o != c && clusters[o].centroid.Some? && d(clusters[c].centroid.value, p.At()) > d(clusters[o].centroid.value, p.At())
  {
  }

  /** Whether every cluster with points has a centroid, as `plot` arranges. */
  predicate Described(clusters: seq<Cluster>) {
    forall c :: 0 <= c < |clusters| ==> (clusters[c].centroid.Some? <==> |clusters[c].points| > 0)
  }

  function MisassignedIn(d: Measure, clusters: seq<Cluster>, c: nat): (n: nat)
    requires c < |clusters| && Described(clusters)
    ensures n <= |clusters[c].points|
  {
    if |clusters[c].points| == 0 then 0
    else Count(clusters[c].points, (p: Position) => Misassigned(d, clusters, c, p))
  }

  /** The bad-assignment count of `statistics`, summed over clusters. */
  function BadAssignments(d: Measure, clusters: seq<Cluster>, upto: nat): (n: nat)
    requires upto <= |clusters| && Described(clusters)
    ensures n <= TotalPoints(clusters[..upto])
    decreases upto
  {
    if upto == 0 then 0
    else
      assert clusters[..upto][..upto - 1] == clusters[..upto - 1];
      BadAssignments(d, clusters, upto - 1) + MisassignedIn(d, clusters, upto - 1)
  }

  function TotalPoints(clusters: seq<Cluster>): nat {
    if |clusters| == 0 then 0 else TotalPoints(clusters[..|clusters| - 1]) + |clusters[|clusters| - 1].points|
  }

  /** With a single cluster no point can be closer to another centroid. */
  lemma {:induction false} SingleClusterNoBadAssignments(d: Measure, clusters: seq<Cluster>)
    requires Described(clusters)
    ensures |clusters| == 1 ==> BadAssignments(d, clusters, 1) == 0
  {
    if |clusters| == 1 && |clusters[0].points| > 0 {
      FilterDropsAll(clusters[0].points, (p: Position) => Misassigned(d, clusters, 0, p));
    }
  }

  datatype ClusterStats = ClusterStats(
    npoints: nat,
    nclusters: nat,
    sizes: Summary,
    diameters: Summary,
    sumMaxDistances: real,
    maxDistance: real,
    sumDistances: real,
    wcss: real,
    badAssignments: nat)

  /** The per-cluster lists `statistics` summarises, one entry per cluster. */
  function Sizes(clusters: seq<Cluster>): (r: seq<real>)
    ensures |r| == |clusters| && forall k :: 0 <= k < |clusters| ==> r[k] == |clusters[k].points| as real
  {
    Lengths(seq(|clusters|, k requires 0 <= k < |clusters| => clusters[k].points))
  }

  function Diameters(clusters: seq<Cluster>): (r: seq<real>)
    ensures |r| == |clusters| && forall k :: 0 <= k < |clusters| ==> r[k] == clusters[k].diameter
  {
    seq(|clusters|, k requires 0 <= k < |clusters| => clusters[k].diameter)
  }

  function MaxDistances(clusters: seq<Cluster>): (r: seq<real>)
    ensures |r| == |clusters| && forall k :: 0 <= k < |clusters| ==> r[k] == clusters[k].maxFromCentroid
  {
    seq(|clusters|, k requires 0 <= k < |clusters| => clusters[k].maxFromCentroid)
  }

  function DistanceSums(clusters: seq<Cluster>): (r: seq<real>)
    ensures |r| == |clusters| && forall k :: 0 <= k < |clusters| ==> r[k] == clusters[k].sumFromCentroid
  {
    seq(|clusters|, k requires 0 <= k < |clusters| => clusters[k].sumFromCentroid)
  }

  function Wcsses(clusters: seq<Cluster>): (r: seq<real>)
    ensures |r| == |clusters| && forall k :: 0 <= k < |clusters| ==> r[k] == clusters[k].wcss
  {
    seq(|clusters|, k requires 0 <= k < |clusters| => clusters[k].wcss)
  }

  /** The cluster sizes add up to the number of points. */
  lemma {:induction false} SizesTotal(clusters: seq<Cluster>)
    ensures Sum(Sizes(clusters)) == TotalPoints(clusters) as real
    decreases |clusters|
  {
    if |clusters| > 0 {
      var init := clusters[..|clusters| - 1];
      SizesTotal(init);
      assert Sizes(clusters)[..|clusters| - 1] == Sizes(init);
    }
  }

  /** `statistics` of the cluster mode (without the size variance): the
      size and diameter summaries, the sum and maximum of the largest
      point-to-centroid distances, the sums of the distances and of their
      squares, and the bad-assignment count, all over the clusters; the
      average size is the number of points per cluster. */
  function ClusterStatistics(d: Measure, clusters: seq<Cluster>): (r: Result<ClusterStats>)
    requires Described(clusters)
    ensures r.Success? <==> |clusters| > 0
    ensures r.Success? ==> r.value.nclusters == |clusters| && r.value.npoints == TotalPoints(clusters)
    ensures r.Success? ==> (r.value.sizes == Summarize(Sizes(clusters))
      && r.value.sizes.avg == r.value.npoints as real / r.value.nclusters as real)
    ensures r.Success? ==> r.value.diameters == Summarize(Diameters(clusters))
    ensures r.Success? ==> (r.value.sumMaxDistances == Sum(MaxDistances(clusters))
      && r.value.maxDistance == Max(MaxDistances(clusters)))
    ensures r.Success? ==> r.value.sumDistances == Sum(DistanceSums(clusters)) && r.value.wcss == Sum(Wcsses(clusters))
    ensures r.Success? ==> (r.value.badAssignments == BadAssignments(d, clusters, |clusters|)
      && r.value.badAssignments <= r.value.npoints)
    ensures r.Success? && |clusters| == 1 ==> r.value.badAssignments == 0
  {
    if |clusters| == 0 then Failure("max() arg is an empty sequence")
    else
      assert clusters[..|clusters|] == clusters;
      SingleClusterNoBadAssignments(d, clusters);
      SizesTotal(clusters);
      Success(ClusterStats(
        TotalPoints(clusters),
        |clusters|,
        Summarize(Sizes(clusters)),
        Summarize(Diameters(clusters)),
        Sum(MaxDistances(clusters)),
        Max(MaxDistances(clusters)),
        Sum(DistanceSums(clusters)),
        Sum(Wcsses(clusters)),
        BadAssignments(d, clusters, |clusters|)))
  }
}

=== FILE: colors.dfy ===
/** Colour handling of nextplot/common.py: the palette a colour profile
    yields (`get_colors`, `gradient`, `multi_gradient`) and the assignment of
    palette entries to groups (`prepare_colors`). Colours are opaque values;
    only their number and order, and the interpolation parameters of
    gradients, are modelled. Converting hex codes to RGB and the text of the
    numeric profile fields to floats are parameters. */
module Colors {
  import opened Results
  import opened Geometry
  import opened Reals
  import opened Seqs
  import opened IndexSort

  datatype Rgb = Rgb(r: real, g: real, b: real)

  datatype Color = Hex(code: string) | Hsv(h: real, s: real, v: real) | FromRgb(rgb: Rgb)

  /** The fixed 20-colour palette of the cloud console. */
  const CloudColors: seq<Color> := [
    Hex("#4e79a7"), Hex("#f28e2c"), Hex("#e15759"), Hex("#76b7b2"), Hex("#59a14f"),
    Hex("#edc949"), Hex("#af7aa1"), Hex("#ff9da7"), Hex("#7b47b2"), Hex("#c5a493"),
    Hex("#a0d86f"), Hex("#9c755f"), Hex("#1f78b4"), Hex("#cab2d6"), Hex("#cd672e"),
    Hex("#fdbf6f"), Hex("#33bb85"), Hex("#bb9b00"), Hex("#fb9a99"), Hex("#a6cee3")
  ]

  function NonNegative(n: int): nat {
    if n < 0 then 0 else n
  }

  /** `range_step`: puts a fraction of [0, 1] between start and end, so 0
      gives start, 1 gives end and every fraction in between stays between them. */
  function RangeStep(start: real, end: real, value: real): (r: real)
    ensures value == 0.0 ==> r == start
    ensures value == 1.0 ==> r == end
    ensures 0.0 <= value <= 1.0 ==> (start <= r <= end || end <= r <= start)
  {
    var width := if start < end then end - start else start - end;
    var offset := Scale(width, value);
    if start < end then start + offset else start - offset
  }

  /** A fraction of a non-negative width. */
  function Scale(width: real, fraction: real): (r: real)
    requires width >= 0.0
    ensures fraction == 0.0 ==> r == 0.0
    ensures fraction == 1.0 ==> r == width
    ensures 0.0 <= fraction <= 1.0 ==> 0.0 <= r <= width
  {
    ScaleWithin(width, fraction);
    width * fraction
  }

  lemma ScaleWithin(width: real, fraction: real)
    requires width >= 0.0
    ensures 0.0 <= fraction <= 1.0 ==> 0.0 <= width * fraction <= width
  {
    if 0.0 <= fraction <= 1.0 {
      assert width * fraction <= width * 1.0;
      assert 0.0 <= width * fraction;
    }
  }

  /** i / n as a float, for the evenly spaced steps of a gradient. */
  function Fraction(i: nat, n: nat): (f: real)
    requires n > 0
    ensures i == 0 ==> f == 0.0
    ensures i == n ==> f == 1.0
    ensures i <= n ==> 0.0 <= f <= 1.0
  {
    i as real / n as real
  }

  function Mix(start: Rgb, end: Rgb, t: real): Rgb {
    Rgb(RangeStep(start.r, end.r, t), RangeStep(start.g, end.g, t), RangeStep(start.b, end.b, t))
  }

  /** `gradient`: `count` colours evenly spaced from start to end, both
      ends included. For count 1 the source returns the bare start colour
      rather than a list; the model returns it as a one-element list. */
  function Gradient(start: Rgb, end: Rgb, count: int): (r: seq<Rgb>)
    ensures |r| == NonNegative(count)
    ensures count >= 1 ==> r[0] == start
    ensures count >= 2 ==> r[count - 1] == end
  {
    if count <= 0 then []
    else if count == 1 then [start]
    else
      var r := seq(count, i requires 0 <= i < count => Mix(start, end, Fraction(i, count - 1)));
      assert r[count - 1] == Mix(start, end, 1.0);
      r
  }

  /** The rounding fill-up loop of `multi_gradient`: walking the sections
      from i on, add one while the running total is below count. */
  function FillUp(counts: seq<int>, i: nat, overall: int, count: int, target: int): (r: seq<int>)
    requires i <= |counts|
    requires forall j :: 0 <= j < i ==> counts[j] == target + 1
    requires forall j :: i <= j < |counts| ==> counts[j] == target
    requires overall == SumInt(counts)
    requires overall <= count <= overall + (|counts| - i)
    ensures |r| == |counts| && SumInt(r) == count
    ensures forall j :: 0 <= j < |r| ==> r[j] == target || r[j] == target + 1
    ensures forall a, b :: 0 <= a < b < |r| ==> r[a] >= r[b]
    decreases |counts| - i
  {
    if i == |counts| then counts
    else if overall < count then
      SumIntUpdate(counts, i, target + 1);
      FillUp(counts[i := target + 1], i + 1, overall + 1, count, target)
    else counts
  }

  lemma {:induction false} SumIntUpdate(s: seq<int>, i: nat, v: int)
    requires i < |s|
    ensures SumInt(s[i := v]) == SumInt(s) - s[i] + v
    decreases |s|
  {
    var n := |s| - 1;
    if i < n {
      SumIntUpdate(s[..n], i, v);
      assert s[i := v][..n] == s[..n][i := v];
    } else {
      assert s[i := v][..n] == s[..n];
    }
  }

  lemma {:induction false} SumIntConstant(n: nat, t: int)
    ensures SumInt(seq(n, _ => t)) == n * t
    decreases n
  {
    if n > 0 {
      SumIntConstant(n - 1, t);
      assert seq(n, _ => t)[..n - 1] == seq(n - 1, _ => t);
    }
  }

  /** The per-section colour counts of `multi_gradient`: `count` split over
      the sections so that counts differ by at most one, larger ones first. */
  function SectionCounts(count: int, sections: nat): (counts: seq<int>)
    requires sections >= 1 && count >= sections + 1
    ensures |counts| == sections && SumInt(counts) == count
    ensures forall j :: 0 <= j < sections ==> counts[j] == count / sections || counts[j] == count / sections + 1
    ensures forall a, b :: 0 <= a < b < sections ==> counts[a] >= counts[b]
    ensures counts[0] >= 2
  {
    var target := count / sections;
    var initial := seq(sections, _ => target);
    SumIntConstant(sections, target);
    assert count == sections * target + count % sections;
    var counts := FillUp(initial, 0, sections * target, count, target);
    FirstSectionAtLeastTwo(count, sections, counts);
    counts
  }

  lemma FirstSectionAtLeastTwo(count: int, sections: nat, counts: seq<int>)
    requires sections >= 1 && count >= sections + 1
    requires |counts| == sections && SumInt(counts) == count
    requires forall j :: 0 <= j < sections ==> counts[j] == count / sections || counts[j] == count / sections + 1
    requires forall a, b :: 0 <= a < b < sections ==> counts[a] >= counts[b]
    ensures counts[0] >= 2
  {
    QuotientAtLeastOne(count, sections);
    if counts[0] < 2 {
      assert forall j :: 0 <= j < sections ==> counts[j] <= 1;
      SumIntBounds(counts, 0, 1);
    }
  }

  lemma QuotientAtLeastOne(count: int, divisor: int)
    requires divisor >= 1 && count >= divisor
    ensures count / divisor >= 1
  {
  }

  /** The first n gradient sections joined; every section after the first
      drops its start colour, which the previous section already ends with. */
  function Sections(stops: seq<Rgb>, counts: seq<int>, n: nat): (r: seq<Rgb>)
    requires |counts| == |stops| - 1 && 1 <= n <= |counts|
    requires counts[0] >= 2 && forall c :: 0 <= c < |counts| ==> counts[c] >= 1
    ensures |r| == SumInt(counts[..n]) && |r| >= 2
    ensures r[0] == stops[0] && r[|r| - 1] == stops[n]
  {
    if n == 1 then
      assert counts[..1][..0] == [];
      Gradient(stops[0], stops[1], counts[0])
    else
      assert counts[..n][..n - 1] == counts[..n - 1];
      var g := Gradient(stops[n - 1], stops[n], counts[n - 1] + 1);
      Sections(stops, counts, n - 1) + g[1..]
  }

  /** `multi_gradient` (the caller guarantees at least two stops): fewer
      colours than stops gives the first stops; otherwise exactly `count`
      colours running from the first stop to the last. */
  function MultiGradient(stops: seq<Rgb>, count: int): (r: seq<Rgb>)
    requires |stops| >= 2
    ensures |r| == NonNegative(count)
    ensures count < |stops| ==> r == stops[..NonNegative(count)]
    ensures count >= |stops| ==> r[0] == stops[0] && r[count - 1] == stops[|stops| - 1]
  {
    if count < |stops| then stops[..NonNegative(count)]
    else
      var counts := SectionCounts(count, |stops| - 1);
      assert counts[..|counts|] == counts;
      Sections(stops, counts, |counts|)
  }

  lemma FractionInUnit(i: nat, n: nat)
    requires i < n
    ensures 0.0 <= i as real / n as real < 1.0
  {
  }

  lemma FractionIncreasing(i: nat, j: nat, n: nat)
    requires i < j && n > 0
    ensures i as real / n as real < j as real / n as real
  {
  }

  /** The `rainbow` profile: `count` hues evenly spaced in [0, 360) in
      increasing order, at saturation and value 0.8. */
  function RainbowColors(count: int): (r: seq<Color>)
    ensures |r| == NonNegative(count)
    ensures forall i :: 0 <= i < |r| ==> r[i].Hsv? && 0.0 <= r[i].h < 360.0 && r[i].s == 0.8 && r[i].v == 0.8
    ensures forall i, j :: 0 <= i < j < |r| ==> r[i].h < r[j].h
  {
    if count <= 0 then []
    else
      var r := seq(count, i requires 0 <= i < count => Hsv(i as real / count as real * 360.0, 0.8, 0.8));
      forall i | 0 <= i < count
        ensures 0.0 <= r[i].h < 360.0
      {
        FractionInUnit(i, count);
      }
      forall i, j | 0 <= i < j < count
        ensures r[i].h < r[j].h
      {
        FractionIncreasing(i, j, count);
      }
      r
  }

  /** Python's `x % 360.0` on floats: the remainder in [0, 360). */
  function HueMod(x: real): (r: real)
    ensures 0.0 <= r < 360.0
  {
    x - 360.0 * (x / 360.0).Floor as real
  }

  /** Hue i of a custom rainbow: the offset wraps at 360, the start does not. */
  function CustomHue(start: real, step: real, i: nat): (h: real)
    ensures start <= h < start + 360.0
  {
    start + HueMod(i as real * step)
  }

  /** The `rainbow,<start>,<end>,<sat>,<val>` profile: `count` hues from
      start, stepping by the range width over count. The source writes the
      hue as `start + i * step % 360.0`, so only the offset wraps at 360.
      A count of 0 divides by zero. */
  function CustomRainbow(start: real, end: real, sat: real, val: real, count: int): (r: Result<seq<Color>>)
    ensures r.Success? <==> count != 0
    ensures r.Success? ==> |r.value| == NonNegative(count)
    ensures r.Success? ==> forall i :: 0 <= i < |r.value| ==>
      r.value[i].Hsv? && start <= r.value[i].h < start + 360.0 && r.value[i].s == sat && r.value[i].v == val
  {
    if count == 0 then Failure("float division by zero")
    else
      var range := if start < end then end - start else start - end;
      var step := range / count as real;
      Success(seq(NonNegative(count), i requires 0 <= i < NonNegative(count) => Hsv(CustomHue(start, step, i), sat, val)))
  }

  /** The index of the first `c` in `s`. */
  function FirstIndex(s: string, c: char): (i: nat)
    requires c in s
    ensures i < |s| && s[i] == c && c !in s[..i]
  {
    if s[0] == c then 0
    else
      assert c in s[1..];
      1 + FirstIndex(s[1..], c)
  }

  /** Python's `s.split(sep)`: always at least one part, none containing sep. */
  function Split(s: string, sep: char): (parts: seq<string>)
    ensures |parts| >= 1
    ensures forall k :: 0 <= k < |parts| ==> sep !in parts[k]
    decreases |s|
  {
    if sep !in s then [s]
    else
      var i := FirstIndex(s, sep);
      [s[..i]] + Split(s[i + 1..], sep)
  }

  /** `sep.join(parts)`. */
  function Join(parts: seq<string>, sep: char): string
    requires |parts| >= 1
  {
    if |parts| == 1 then parts[0] else parts[0] + [sep] + Join(parts[1..], sep)
  }

  /** Joining the parts of a split restores the text. */
  lemma {:induction false} JoinSplit(s: string, sep: char)
    ensures Join(Split(s, sep), sep) == s
    decreases |s|
  {
    if sep in s {
      var i := FirstIndex(s, sep);
      var parts := Split(s, sep);
      var rest := Split(s[i + 1..], sep);
      assert parts == [s[..i]] + rest;
      assert parts[1..] == rest;
      JoinSplit(s[i + 1..], sep);
      assert Join(parts, sep) == s[..i] + [sep] + Join(rest, sep);
      assert s == s[..i] + [sep] + s[i + 1..];
    }
  }

  /** Splitting a join of separator-free parts gives the parts back. */
  lemma {:induction false} SplitJoin(parts: seq<string>, sep: char)
    requires |parts| >= 1
    requires forall k :: 0 <= k < |parts| ==> sep !in parts[k]
    ensures Split(Join(parts, sep), sep) == parts
    decreases |parts|
  {
    if |parts| > 1 {
      SplitJoin(parts[1..], sep);
      JoinFirst(parts, sep);
      SplitAt(Join(parts, sep), sep, |parts[0]|);
      assert parts == [parts[0]] + parts[1..];
    }
  }

  /** A join of several parts starts with the first part and a separator. */
  lemma JoinFirst(parts: seq<string>, sep: char)
    requires |parts| > 1
    ensures var s, n := Join(parts, sep), |parts[0]|;
      && n < |s| && s[n] == sep && s[..n] == parts[0] && s[n + 1..] == Join(parts[1..], sep)
  {
    var s := Join(parts, sep);
    assert s == parts[0] + [sep] + Join(parts[1..], sep);
  }

  /** Split at the first separator: the text before it, then the split of the rest. */
  lemma SplitAt(s: string, sep: char, i: nat)
    requires i < |s| && s[i] == sep && sep !in s[..i]
    ensures Split(s, sep) == [s[..i]] + Split(s[i + 1..], sep)
  {
    FirstIndexOf(s, sep, i);
  }

  lemma FirstIndexOf(s: string, c: char, i: nat)
    requires i < |s| && s[i] == c && c !in s[..i]
    ensures FirstIndex(s, c) == i
  {
    if s[0] != c {
      assert s[1..][..i - 1] == s[..i][1..];
      FirstIndexOf(s[1..], c, i - 1);
    }
  }

  predicate StartsWith(s: string, prefix: string) {
    |prefix| <= |s| && s[..|prefix|] == prefix
  }

  /** Conversions the colour library performs: float parsing of profile
      fields and hex-code decoding of gradient stops; both may fail. */
  datatype Parsers = Parsers(float: string -> Option<real>, hex: string -> Option<Rgb>)

  /** Decodes every gradient stop, failing on the first that does not decode. */
  function DecodeStops(codes: seq<string>, hex: string -> Option<Rgb>): (r: Result<seq<Rgb>>)
    ensures r.Success? <==> forall k :: 0 <= k < |codes| ==> hex(codes[k]).Some?
    ensures r.Success? ==> |r.value| == |codes|
  {
    if |codes| == 0 then Success([])
    else
      var init :- DecodeStops(codes[..|codes| - 1], hex);
      assert forall k :: 0 <= k < |codes| - 1 ==> codes[..|codes| - 1][k] == codes[k];
      match hex(codes[|codes| - 1])
      case None => Failure("invalid hex colour")
      case Some(c) => Success(init + [c])
  }

  /** The profile after `auto` has been resolved by the number of colours needed. */
  function ResolveProfile(profile: string, count: int): string {
    if profile == "auto" then (if count > |CloudColors| then "rainbow" else "cloud") else profile
  }

  predicate IsCustomRainbow(profile: string) {
    profile != "cloud" && profile != "rainbow" && StartsWith(Split(profile, ',')[0], "rainbow")
  }

  predicate IsGradient(profile: string) {
    profile != "cloud" && profile != "rainbow" && !StartsWith(Split(profile, ',')[0], "rainbow")
    && StartsWith(Split(profile, ',')[0], "gradient")
  }

  function ParseField(text: string, parsers: Parsers): Result<real> {
    match parsers.float(text)
    case None => Failure("could not convert string to float")
    case Some(x) => Success(x)
  }

  /** `get_colors`: the palette for a profile and a number of groups. */
  function GetColors(profile: string, count: int, parsers: Parsers): (r: Result<seq<Color>>)
    ensures profile == "cloud" || (profile == "auto" && count <= 20) ==> r == Success(CloudColors)
    ensures profile == "rainbow" || (profile == "auto" && count > 20) ==> r == Success(RainbowColors(count))
    ensures IsGradient(profile) && |Split(profile, ',')| < 3 ==> r.Failure?
    ensures IsGradient(profile) && r.Success? ==> |r.value| == NonNegative(count)
    ensures IsCustomRainbow(profile) && r.Success? ==> |r.value| == NonNegative(count)
    ensures IsCustomRainbow(profile) && |Split(profile, ',')| >= 5 ==>
      (r.Success? <==> count != 0 && FieldsParse(Split(profile, ','), parsers))
    ensures profile != "auto" && !IsCustomRainbow(profile) && !IsGradient(profile) && profile != "cloud" && profile != "rainbow" ==> r.Failure?
    ensures r.Success? && count >= 1 ==> |r.value| >= 1
  {
    var resolved := ResolveProfile(profile, count);
    if resolved == "cloud" then Success(CloudColors)
    else if resolved == "rainbow" then Success(RainbowColors(count))
    else
      var elements := Split(resolved, ',');
      if StartsWith(elements[0], "rainbow") then RainbowProfile(elements, count, parsers)
      else if StartsWith(elements[0], "gradient") then GradientProfile(elements, count, parsers)
      else Failure("Invalid color profile")
  }

  /** The four numbers after the name of a custom rainbow all parse. */
  predicate FieldsParse(elements: seq<string>, parsers: Parsers)
    requires |elements| >= 5
  {
    forall k :: 1 <= k <= 4 ==> parsers.float(elements[k]).Some?
  }

  /** A `rainbow,start,end,saturation,value` profile split at its commas. */
  function RainbowProfile(elements: seq<string>, count: int, parsers: Parsers): (r: Result<seq<Color>>)
    ensures |elements| < 5 ==> r.Failure?
    ensures |elements| >= 5 ==> (r.Success? <==> count != 0 && FieldsParse(elements, parsers))
    ensures r.Success? ==> |r.value| == NonNegative(count)
    ensures r.Success? && count >= 1 ==> |r.value| >= 1
  {
    if |elements| < 5 then Failure("not enough values to unpack")
    else
      var start :- ParseField(elements[1], parsers);
      var end :- ParseField(elements[2], parsers);
      var sat :- ParseField(elements[3], parsers);
      var val :- ParseField(elements[4], parsers);
      CustomRainbow(start, end, sat, val, count)
  }

  /** A `gradient,hex,hex,...` profile split at its commas. */
  function GradientProfile(elements: seq<string>, count: int, parsers: Parsers): (r: Result<seq<Color>>)
    requires |elements| >= 1
    ensures |elements| < 3 ==> r.Failure?
    ensures r.Success? ==> |r.value| == NonNegative(count)
  {
    var codes := elements[1..];
    if |codes| < 2 then Failure("at least 2 colors are required for gradient mode")
    else
      var stops :- DecodeStops(codes, parsers.hex);
      var multi := MultiGradient(stops, count);
      Success(seq(|multi|, k requires 0 <= k < |multi| => FromRgb(multi[k])))
  }

  /** The clockwise `(angle, distance)` sort key of a point around an
      origin (`cw_angle_distance`); the trigonometry is a parameter. */
  type AngleKey = (Coord, Coord) -> SortKey

  /** What `prepare_colors` attaches to the groups: the colouring order,
      the colour of each group and, when colours are sorted, each group's
      centroid. */
  datatype Coloring = Coloring(order: seq<nat>, colors: seq<Color>, centroids: Option<seq<Coord>>)

  /** The centroid of every non-empty group. */
  function GroupCentroids(groups: seq<seq<Position>>): (r: seq<Option<Coord>>)
    ensures |r| == |groups|
    ensures forall g :: 0 <= g < |groups| ==> (r[g].Some? <==> |groups[g]| > 0)
    ensures forall g :: 0 <= g < |groups| && r[g].Some? ==> r[g].value == Centroid(groups[g])
  {
    seq(|groups|, g requires 0 <= g < |groups| => if |groups[g]| > 0 then Some(Centroid(groups[g])) else None)
  }

  /** The defined entries, in order. */
  function Present(cs: seq<Option<Coord>>): (r: seq<Coord>)
    ensures |r| <= |cs|
    ensures |r| == 0 <==> forall g :: 0 <= g < |cs| ==> cs[g].None?
    ensures forall g :: 0 <= g < |cs| && cs[g].Some? ==> cs[g].value in r
  {
    if |cs| == 0 then []
    else
      var init := Present(cs[..|cs| - 1]);
      assert forall g :: 0 <= g < |cs| - 1 ==> cs[..|cs| - 1][g] == cs[g];
      match cs[|cs| - 1]
      case None => init
      case Some(c) => init + [c]
  }

  function AsPositions(cs: seq<Coord>): (r: seq<Position>)
    ensures |r| == |cs| && forall k :: 0 <= k < |cs| ==> r[k].At() == cs[k]
  {
    seq(|cs|, k requires 0 <= k < |cs| => Position(cs[k].x, cs[k].y, None, 0.0))
  }

  /** Every group's centroid, where an empty group takes the centroid of
      all group centroids; that overall centroid is returned too. Without
      any non-empty group the mean divides by zero. */
  function SortingCentroids(groups: seq<seq<Position>>): (r: Result<(Coord, seq<Coord>)>)
    ensures r.Success? <==> exists g :: 0 <= g < |groups| && |groups[g]| > 0
    ensures r.Success? ==> |r.value.1| == |groups|
    ensures r.Success? ==> forall g :: 0 <= g < |groups| ==>
      r.value.1[g] == if |groups[g]| > 0 then Centroid(groups[g]) else r.value.0
  {
    var own := GroupCentroids(groups);
    var present := Present(own);
    if |present| == 0 then Failure("division by zero")
    else
      var overall := Centroid(AsPositions(present));
      Success((overall, FillEmpty(own, overall)))
  }

  /** Each defined entry, with `fill` where there is none. */
  function FillEmpty(own: seq<Option<Coord>>, fill: Coord): (r: seq<Coord>)
    ensures |r| == |own|
    ensures forall g :: 0 <= g < |own| ==> r[g] == if own[g].Some? then own[g].value else fill
  {
    seq(|own|, g requires 0 <= g < |own| => if own[g].Some? then own[g].value else fill)
  }

  function ClockwiseKeys(angle: AngleKey, origin: Coord, centroids: seq<Coord>): (keys: seq<SortKey>)
    ensures |keys| == |centroids|
  {
    seq(|centroids|, g requires 0 <= g < |centroids| => angle(origin, centroids[g]))
  }

  /** Keys never decrease along the order, ties keeping index order. */
  predicate ClockwiseOrder(keys: seq<SortKey>, order: seq<nat>)
    requires forall k :: 0 <= k < |order| ==> order[k] < |keys|
  {
    forall a, b :: 0 <= a < b < |order| ==>
      KeyLess(keys[order[a]], keys[order[b]]) || (keys[order[a]] == keys[order[b]] && order[a] < order[b])
  }

  /** The colouring loop: the k-th group in colouring order gets palette
      entry k, cycling through the palette. */
  method AssignColors(order: seq<nat>, palette: seq<Color>) returns (colors: seq<Color>)
    requires IsPermutation(order, |order|)
    requires |order| > 0 ==> |palette| > 0
    ensures |colors| == |order|
    ensures forall k :: 0 <= k < |order| ==> colors[order[k]] == palette[k % |palette|]
  {
    var n := |order|;
    var given: seq<Option<Color>> := seq(n, _ => None);
    var i := 0;
    while i < n
      invariant 0 <= i <= n && |given| == n
      invariant forall k :: 0 <= k < i ==> given[order[k]] == Some(palette[k % |palette|])
    {
      given := given[order[i] := Some(palette[i % |palette|])];
      i := i + 1;
    }
    forall g | 0 <= g < n
      ensures given[g].Some?
    {
      PermutationCovers(order, n, g);
    }
    colors := seq(n, g requires 0 <= g < n => given[g].value);
  }

  /** `prepare_colors`: orders the groups (by index, or clockwise around the
      centroid of their centroids), fetches a palette with one colour per
      group and hands out the colours cyclically in that order. */
  method PrepareColors(groups: seq<seq<Position>>, profile: string, sortColors: bool, angle: AngleKey, parsers: Parsers)
    returns (r: Result<Coloring>)
    ensures r.Success? <==> (GetColors(profile, |groups|, parsers).Success?
      && (sortColors ==> exists g :: 0 <= g < |groups| && |groups[g]| > 0))
    ensures r.Success? ==> IsPermutation(r.value.order, |groups|) && |r.value.colors| == |groups|
    ensures r.Success? ==> var palette := GetColors(profile, |groups|, parsers).value;
      forall k :: 0 <= k < |groups| ==> r.value.colors[r.value.order[k]] == palette[k % |palette|]
    ensures r.Success? && !sortColors ==> r.value.order == Iota(|groups|) && r.value.centroids == None
    ensures r.Success? && sortColors ==> (r.value.centroids == Some(SortingCentroids(groups).value.1)
      && ClockwiseOrder(ClockwiseKeys(angle, SortingCentroids(groups).value.0, r.value.centroids.value), r.value.order))
  {
    var order := Iota(|groups|);
    var centroids := None;
    if sortColors {
      var sorting := SortingCentroids(groups);
      if sorting.Failure? {
        return Failure(sorting.error);
      }
      var (overall, cs) := sorting.value;
      order := StableOrder(ClockwiseKeys(angle, overall, cs));
      centroids := Some(cs);
    }
    var palette := GetColors(profile, |groups|, parsers);
    if palette.Failure? {
      return Failure(palette.error);
    }
    var colors := AssignColors(order, palette.value);
    return Success(Coloring(order, colors, centroids));
  }
}

=== FILE: common.dfy ===
/** Group extraction and the shared geometry of nextplot/common.py: turning
    JSON matches into position groups (embedded coordinates or indices into
    a separate position list), the world-coordinate check, and the bounding
    box over all groups. JSON-path evaluation is not modelled: the matches a
    path expression yields are an input, and converting one JSON value into
    a position through the x/y paths is a parameter. */
module Common {
  import opened Results
  import opened JsonValue
  import opened Geometry
  import opened Seqs

  /** `is_two_tuple(value, type)`: a two-element list whose items are both of `type`. */
  predicate IsTwoTuple(v: Json, t: PyType) {
    v.JList? && |v.items| == 2 && IsInstance(v.items[0], t) && IsInstance(v.items[1], t)
  }

  /** `range(a, b + 1)`: the inclusive index range a..b, empty when b < a. */
  function InclusiveRange(a: int, b: int): (r: seq<int>)
    ensures |r| == if b < a then 0 else b - a + 1
    ensures forall k :: 0 <= k < |r| ==> r[k] == a + k
    decreases b - a
  {
    if b < a then [] else [a] + InclusiveRange(a + 1, b)
  }

  /** The indices one element of a list match stands for: an int gives
      itself, a two-int list `[a, b]` the inclusive range a..b, anything else
      is refused. */
  function ItemIndices(v: Json): (r: Result<seq<int>>)
    ensures r.Success? <==> IsInt(v) || IsTwoTuple(v, IntType)
    ensures IsInt(v) ==> r == Success([IntValue(v)])
    ensures !IsInt(v) && IsTwoTuple(v, IntType) ==>
      var a, b := IntValue(v.items[0]), IntValue(v.items[1]);
      && |r.value| == (if b < a then 0 else b - a + 1)
      && forall k :: 0 <= k < |r.value| ==> r.value[k] == a + k
  {
    if IsInt(v) then Success([IntValue(v)])
    else if IsTwoTuple(v, IntType) then Success(InclusiveRange(IntValue(v.items[0]), IntValue(v.items[1])))
    else Failure("not processable value format")
  }

  /** The indices of a list match: the expansions of its elements, in order. */
  function ListIndices(items: seq<Json>): (r: Result<seq<int>>)
    ensures r.Success? <==> forall k :: 0 <= k < |items| ==> ItemIndices(items[k]).Success?
  {
    if |items| == 0 then Success([])
    else
      var init :- ListIndices(items[..|items| - 1]);
      var last :- ItemIndices(items[|items| - 1]);
      assert forall k :: 0 <= k < |items| - 1 ==> items[..|items| - 1][k] == items[k];
      Success(init + last)
  }

  /** The full index list of one (non-null) match: an int match is a single
      index, a list match is expanded element by element, and any other
      value contributes no index. */
  function MatchIndices(v: Json): (r: Result<seq<int>>)
    ensures r.Success? <==> !v.JList? || forall k :: 0 <= k < |v.items| ==> ItemIndices(v.items[k]).Success?
    ensures IsInt(v) ==> r == Success([IntValue(v)])
    ensures !IsInt(v) && !v.JList? ==> r == Success([])
  {
    if IsInt(v) then Success([IntValue(v)])
    else if v.JList? then ListIndices(v.items)
    else Success([])
  }

  /** A list of plain integers stands for exactly those indices, in order. */
  lemma {:induction false} PlainIntListIndices(items: seq<Json>)
    requires forall k :: 0 <= k < |items| ==> IsInt(items[k])
    ensures ListIndices(items).Success?
    ensures ListIndices(items).value == seq(|items|, k requires 0 <= k < |items| => IntValue(items[k]))
    decreases |items|
  {
    if |items| > 0 {
      var init := items[..|items| - 1];
      PlainIntListIndices(init);
    }
  }

  function InBounds(n: nat): int -> bool {
    i => 0 <= i < n
  }

  function OutOfBounds(n: nat): int -> bool {
    i => !(0 <= i < n)
  }

  /** Converting indices to positions: in-bounds indices give clones of
      their positions, in order; the others are collected for the warning. */
  function ResolveIndices(indices: seq<int>, positions: seq<Position>): (r: (seq<Position>, seq<int>))
    ensures |r.0| + |r.1| == |indices|
    ensures r.1 == Filter(indices, OutOfBounds(|positions|))
    ensures var kept := Filter(indices, InBounds(|positions|));
      |r.0| == |kept| && forall k :: 0 <= k < |kept| ==> r.0[k] == positions[kept[k]]
    decreases |indices|
  {
    if |indices| == 0 then ([], [])
    else
      var rest := ResolveIndices(indices[..|indices| - 1], positions);
      var i := indices[|indices| - 1];
      if 0 <= i < |positions| then (rest.0 + [Clone(positions[i])], rest.1)
      else (rest.0, rest.1 + [i])
  }

  /** When every index is in bounds, the group is exactly the indexed positions and nothing is reported. */
  lemma AllInBounds(indices: seq<int>, positions: seq<Position>)
    requires forall k :: 0 <= k < |indices| ==> 0 <= indices[k] < |positions|
    ensures ResolveIndices(indices, positions).1 == []
    ensures ResolveIndices(indices, positions).0 == seq(|indices|, k requires 0 <= k < |indices| => positions[indices[k]])
  {
    FilterKeepsAll(indices, InBounds(|positions|));
    FilterDropsAll(indices, OutOfBounds(|positions|));
  }

  /** The position conversions `extract_position` performs: `raw` reads a
      value as `[x, y]`, `byPath` applies the relative x/y paths (itself
      falling back to `[x, y]` when no paths are given). Both may fail. */
  datatype Extractors = Extractors(raw: Json -> Result<Position>, byPath: Json -> Result<Position>)

  /** `extract_position` over every element of a list, stopping at the first failure. */
  function ExtractAll(items: seq<Json>, f: Json -> Result<Position>): (r: Result<seq<Position>>)
    ensures r.Success? <==> forall k :: 0 <= k < |items| ==> f(items[k]).Success?
    ensures r.Success? ==> |r.value| == |items| && forall k :: 0 <= k < |items| ==> r.value[k] == f(items[k]).value
  {
    if |items| == 0 then Success([])
    else
      var init :- ExtractAll(items[..|items| - 1], f);
      var last :- f(items[|items| - 1]);
      assert forall k :: 0 <= k < |items| - 1 ==> items[..|items| - 1][k] == items[k];
      Success(init + [last])
  }

  /** How many positions one match of the position path contributes. */
  function PositionSlots(m: Json): nat {
    if IsTwoTuple(m, NumberType) then 1 else if m.JList? then |m.items| else 0
  }

  function TotalSlots(matches: seq<Json>): nat {
    if |matches| == 0 then 0 else TotalSlots(matches[..|matches| - 1]) + PositionSlots(matches[|matches| - 1])
  }

  /** The separate position list (`jpath_pos` given): a numeric pair is one
      position, a list holds one position per element, anything else is refused. */
  function ExtractPositions(matches: seq<Json>, ex: Extractors): (r: Result<seq<Position>>)
    ensures r.Success? ==> |r.value| == TotalSlots(matches)
    ensures (exists k :: 0 <= k < |matches| && !IsTwoTuple(matches[k], NumberType) && !matches[k].JList?) ==> r.Failure?
  {
    if |matches| == 0 then Success([])
    else
      var init := matches[..|matches| - 1];
      assert forall k :: 0 <= k < |matches| - 1 ==> init[k] == matches[k];
      var rest :- ExtractPositions(init, ex);
      var m := matches[|matches| - 1];
      if IsTwoTuple(m, NumberType) then
        var p :- ex.byPath(m);
        Success(rest + [p])
      else if m.JList? then
        var ps :- ExtractAll(m.items, ex.byPath);
        Success(rest + ps)
      else Failure("not processable value format for a point")
  }

  /** A raw pair: `is_two_tuple(v, float) or is_two_tuple(v, int)`. */
  predicate IsRawPair(v: Json) {
    IsTwoTuple(v, FloatType) || IsTwoTuple(v, IntType)
  }

  /** One group when no position list is given: a raw pair is a one-point
      group, a list gives one position per element, any other value is
      converted through the x/y paths. */
  function EmbeddedGroup(v: Json, ex: Extractors): (r: Result<seq<Position>>)
    ensures r.Success? && IsRawPair(v) ==> |r.value| == 1
    ensures r.Success? && !IsRawPair(v) && v.JList? ==> |r.value| == |v.items|
    ensures r.Success? && !IsRawPair(v) && !v.JList? ==> |r.value| == 1
  {
    if IsRawPair(v) then
      var p :- ex.raw(v);
      Success([p])
    else if v.JList? then
      ExtractAll(v.items, x => if IsRawPair(x) then ex.raw(x) else ex.byPath(x))
    else
      var p :- ex.byPath(v);
      Success([p])
  }

  /** One group when a position list is given: the match's indices resolved against it. */
  function IndexedGroup(v: Json, positions: seq<Position>): (r: Result<(seq<Position>, seq<int>)>)
    ensures r.Success? <==> MatchIndices(v).Success?
    ensures r.Success? ==> r.value == ResolveIndices(MatchIndices(v).value, positions)
  {
    var indices :- MatchIndices(v);
    Success(ResolveIndices(indices, positions))
  }

  datatype Extraction = Extraction(groups: seq<seq<Position>>, outOfBounds: seq<int>, nullsSkipped: nat)

  predicate IsNull(v: Json) {
    v.JNull?
  }

  /** `extract_position_groups` after the path expressions have been
      evaluated: every null match is skipped with a warning, every other
      match appends exactly one (possibly empty) group, and out-of-bounds
      indices are reported together. */
  function ExtractPositionGroups(matches: seq<Json>, positions: seq<Position>, ex: Extractors): (r: Result<Extraction>)
    ensures r.Success? ==> |r.value.groups| == Count(matches, (v: Json) => !IsNull(v))
    ensures r.Success? ==> r.value.nullsSkipped == Count(matches, IsNull)
  {
    if |matches| == 0 then Success(Extraction([], [], 0))
    else
      var init := matches[..|matches| - 1];
      var rest :- ExtractPositionGroups(init, positions, ex);
      var m := matches[|matches| - 1];
      if IsNull(m) then Success(rest.(nullsSkipped := rest.nullsSkipped + 1))
      else if |positions| == 0 then
        var g :- EmbeddedGroup(m, ex);
        Success(rest.(groups := rest.groups + [g]))
      else
        var g :- IndexedGroup(m, positions);
        Success(Extraction(rest.groups + [g.0], rest.outOfBounds + g.1, rest.nullsSkipped))
  }

  /** With a position list, extraction fails exactly when some non-null
      match is not a list of integer indices. */
  lemma {:induction false} ExtractSucceeds(matches: seq<Json>, positions: seq<Position>, ex: Extractors)
    requires |positions| > 0
    ensures ExtractPositionGroups(matches, positions, ex).Success? <==>
      forall k :: 0 <= k < |matches| && !IsNull(matches[k]) ==> MatchIndices(matches[k]).Success?
    decreases |matches|
  {
    if |matches| > 0 {
      var init := matches[..|matches| - 1];
      assert forall k :: 0 <= k < |matches| - 1 ==> init[k] == matches[k];
      ExtractSucceedsLast(matches, positions, ex);
      ExtractSucceeds(init, positions, ex);
    }
  }

  lemma ExtractSucceedsLast(matches: seq<Json>, positions: seq<Position>, ex: Extractors)
    requires |matches| > 0 && |positions| > 0
    ensures var init, m := matches[..|matches| - 1], matches[|matches| - 1];
      ExtractPositionGroups(matches, positions, ex).Success? <==>
        ExtractPositionGroups(init, positions, ex).Success? && (IsNull(m) || MatchIndices(m).Success?)
  {
  }

  /** With a position list, every extracted group member is one of the
      positions and every reported index lies outside them. */
  lemma {:induction false} ExtractResolves(matches: seq<Json>, positions: seq<Position>, ex: Extractors)
    requires |positions| > 0 && ExtractPositionGroups(matches, positions, ex).Success?
    ensures var e := ExtractPositionGroups(matches, positions, ex).value;
      forall g, k :: 0 <= g < |e.groups| && 0 <= k < |e.groups[g]| ==> e.groups[g][k] in positions
    ensures var e := ExtractPositionGroups(matches, positions, ex).value;
      forall k :: 0 <= k < |e.outOfBounds| ==> !(0 <= e.outOfBounds[k] < |positions|)
    decreases |matches|
  {
    if |matches| > 0 {
      var init := matches[..|matches| - 1];
      ExtractLast(matches, positions, ex);
      ExtractResolves(init, positions, ex);
      var m := matches[|matches| - 1];
      if !IsNull(m) {
        KeptArePositions(MatchIndices(m).value, positions);
        var before := ExtractPositionGroups(init, positions, ex).value;
        var g := ResolveIndices(MatchIndices(m).value, positions);
        ResolvedPair(before, g, positions);
      }
    }
  }

  /** How a successful extraction with a position list extends that of all
      but the last match. */
  lemma ExtractLast(matches: seq<Json>, positions: seq<Position>, ex: Extractors)
    requires |matches| > 0 && |positions| > 0 && ExtractPositionGroups(matches, positions, ex).Success?
    ensures var init, m := matches[..|matches| - 1], matches[|matches| - 1];
      && ExtractPositionGroups(init, positions, ex).Success?
      && var before := ExtractPositionGroups(init, positions, ex).value;
      && (IsNull(m) ==> ExtractPositionGroups(matches, positions, ex).value == before.(nullsSkipped := before.nullsSkipped + 1))
      && (!IsNull(m) ==>
            && MatchIndices(m).Success?
            && var g := ResolveIndices(MatchIndices(m).value, positions);
            ExtractPositionGroups(matches, positions, ex).value == Extraction(before.groups + [g.0], before.outOfBounds + g.1, before.nullsSkipped))
  {
  }

  /** Appending a resolved group keeps every member among the positions and
      every reported index outside them. */
  lemma ResolvedPair(before: Extraction, g: (seq<Position>, seq<int>), positions: seq<Position>)
    requires forall a, k :: 0 <= a < |before.groups| && 0 <= k < |before.groups[a]| ==> before.groups[a][k] in positions
    requires forall k :: 0 <= k < |before.outOfBounds| ==> !(0 <= before.outOfBounds[k] < |positions|)
    requires forall k :: 0 <= k < |g.0| ==> g.0[k] in positions
    requires forall k :: 0 <= k < |g.1| ==> !(0 <= g.1[k] < |positions|)
    ensures var groups := before.groups + [g.0];
      forall a, k :: 0 <= a < |groups| && 0 <= k < |groups[a]| ==> groups[a][k] in positions
    ensures var out := before.outOfBounds + g.1;
      forall k :: 0 <= k < |out| ==> !(0 <= out[k] < |positions|)
  {
    var groups := before.groups + [g.0];
    forall a, k | 0 <= a < |groups| && 0 <= k < |groups[a]|
      ensures groups[a][k] in positions
    {
      if a < |before.groups| {
        assert groups[a] == before.groups[a];
      }
    }
    var out := before.outOfBounds + g.1;
    forall k | 0 <= k < |out|
      ensures !(0 <= out[k] < |positions|)
    {
      if k >= |before.outOfBounds| {
        assert out[k] == g.1[k - |before.outOfBounds|];
      }
    }
  }

  lemma KeptArePositions(indices: seq<int>, positions: seq<Position>)
    ensures forall k :: 0 <= k < |ResolveIndices(indices, positions).0| ==> ResolveIndices(indices, positions).0[k] in positions
  {
    var r := ResolveIndices(indices, positions);
    var kept := Filter(indices, InBounds(|positions|));
    forall k | 0 <= k < |r.0|
      ensures r.0[k] in positions
    {
      assert InBounds(|positions|)(kept[k]);
    }
  }

  /** The `--coords` choice. */
  datatype CoordinateChoice = Auto | Euclidean | Haversine

  function SwapPosition(p: Position): Position {
    p.(lon := p.lat, lat := p.lon)
  }

  /** `--swap`: exchange longitude and latitude of every position. */
  function SwapAll(groups: seq<seq<Position>>, swap: bool): (r: seq<seq<Position>>)
    ensures |r| == |groups|
    ensures forall g :: 0 <= g < |groups| ==> |r[g]| == |groups[g]|
    ensures forall g, k :: 0 <= g < |groups| && 0 <= k < |groups[g]| ==>
      r[g][k] == if swap then SwapPosition(groups[g][k]) else groups[g][k]
  {
    if !swap then groups
    else seq(|groups|, g requires 0 <= g < |groups| => seq(|groups[g]|, k requires 0 <= k < |groups[g]| => SwapPosition(groups[g][k])))
  }

  /** Swapping twice restores the input. */
  lemma SwapTwice(groups: seq<seq<Position>>)
    ensures SwapAll(SwapAll(groups, true), true) == groups
  {
    var r := SwapAll(SwapAll(groups, true), true);
    assert forall g :: 0 <= g < |groups| ==> r[g] == groups[g];
  }

  predicate InWorldRange(p: Position) {
    -180.0 <= p.lon <= 180.0 && -90.0 <= p.lat <= 90.0
  }

  /** `all(-180 <= p[0] <= 180 ...) and all(-90 <= p[1] <= 90 ...)`, group by group. */
  function AllWorld(groups: seq<seq<Position>>): (r: bool)
    ensures r <==> forall g, k :: 0 <= g < |groups| && 0 <= k < |groups[g]| ==> InWorldRange(groups[g][k])
  {
    if |groups| == 0 then true
    else
      var last := groups[|groups| - 1];
      assert forall g :: 0 <= g < |groups| - 1 ==> groups[..|groups| - 1][g] == groups[g];
      AllWorld(groups[..|groups| - 1]) && forall k :: 0 <= k < |last| ==> InWorldRange(last[k])
  }

  /** `preprocess_coordinates`: swaps if asked, then decides whether the
      data are world coordinates. Forcing euclidean yields planar; forcing
      haversine on data outside the lon/lat ranges is a data error. */
  function PreprocessCoordinates(groups: seq<seq<Position>>, swap: bool, desired: CoordinateChoice): (r: Result<(seq<seq<Position>>, bool)>)
    ensures r.Success? ==> r.value.0 == SwapAll(groups, swap)
    ensures r.Failure? <==> desired == Haversine && exists g, k :: 0 <= g < |groups| && 0 <= k < |groups[g]| && !InWorldRange(SwapAll(groups, swap)[g][k])
    ensures r.Success? ==> (r.value.1 <==> desired != Euclidean && forall g, k :: 0 <= g < |r.value.0| && 0 <= k < |r.value.0[g]| ==> InWorldRange(r.value.0[g][k]))
  {
    var points := SwapAll(groups, swap);
    var world := AllWorld(points);
    if desired == Euclidean then Success((points, false))
    else if desired == Haversine && !world then Failure("positions do not satisfy lon/lat ranges")
    else Success((points, world))
  }

  /** A box around a non-empty list of positions whose four bounds are attained. */
  function BoxOf(ps: seq<Position>): (b: BoundingBox)
    requires |ps| > 0
    ensures forall k :: 0 <= k < |ps| ==> b.Contains(ps[k].At())
    ensures exists k :: 0 <= k < |ps| && ps[k].lon == b.minX
    ensures exists k :: 0 <= k < |ps| && ps[k].lon == b.maxX
    ensures exists k :: 0 <= k < |ps| && ps[k].lat == b.minY
    ensures exists k :: 0 <= k < |ps| && ps[k].lat == b.maxY
  {
    var xs, ys := Lons(ps), Lats(ps);
    BoundingBox(Reals.Min(xs), Reals.Max(xs), Reals.Min(ys), Reals.Max(ys))
  }

  /** `bounding_box`: min and max of x and y over every position of every
      group; Python's `min` raises on an empty list, so a data set without
      any position is an error. */
  function BoundingBoxOf(groups: seq<seq<Position>>): (r: Result<BoundingBox>)
    ensures r.Success? <==> exists g :: 0 <= g < |groups| && |groups[g]| > 0
    ensures r.Success? ==> forall g, k :: 0 <= g < |groups| && 0 <= k < |groups[g]| ==> r.value.Contains(groups[g][k].At())
    ensures r.Success? ==> r.value.Width() >= 0.0 && r.value.Height() >= 0.0
    ensures r.Success? ==> AttainedInGroups(groups, r.value)
  {
    var ps := Flatten(groups);
    FlattenContains(groups);
    if |ps| == 0 then Failure("min() arg is an empty sequence")
    else
      BoxAttainedInGroups(groups);
      Success(BoxOf(ps))
  }

  /** Each bound of the box is the coordinate of some position of some group. */
  predicate AttainedInGroups(groups: seq<seq<Position>>, b: BoundingBox) {
    && (exists g, k :: 0 <= g < |groups| && 0 <= k < |groups[g]| && groups[g][k].lon == b.minX)
    && (exists g, k :: 0 <= g < |groups| && 0 <= k < |groups[g]| && groups[g][k].lon == b.maxX)
    && (exists g, k :: 0 <= g < |groups| && 0 <= k < |groups[g]| && groups[g][k].lat == b.minY)
    && (exists g, k :: 0 <= g < |groups| && 0 <= k < |groups[g]| && groups[g][k].lat == b.maxY)
  }

  lemma BoxAttainedInGroups(groups: seq<seq<Position>>)
    requires |Flatten(groups)| > 0
    ensures AttainedInGroups(groups, BoxOf(Flatten(groups)))
  {
    var ps := Flatten(groups);
    var b := BoxOf(ps);
    var i0 :| 0 <= i0 < |ps| && ps[i0].lon == b.minX;
    var i1 :| 0 <= i1 < |ps| && ps[i1].lon == b.maxX;
    var i2 :| 0 <= i2 < |ps| && ps[i2].lat == b.minY;
    var i3 :| 0 <= i3 < |ps| && ps[i3].lat == b.maxY;
    FlattenFrom(groups, i0);
    FlattenFrom(groups, i1);
    FlattenFrom(groups, i2);
    FlattenFrom(groups, i3);
  }

  /** Every element of the flattened list is a member of some group. */
  lemma {:induction false} FlattenFrom(groups: seq<seq<Position>>, i: nat)
    requires i < |Flatten(groups)|
    ensures exists g, k :: 0 <= g < |groups| && 0 <= k < |groups[g]| && groups[g][k] == Flatten(groups)[i]
    decreases |groups|
  {
    var n := |groups| - 1;
    var init := groups[..n];
    if i < |Flatten(init)| {
      FlattenFrom(init, i);
      var g, k :| 0 <= g < |init| && 0 <= k < |init[g]| && init[g][k] == Flatten(init)[i];
      assert groups[g][k] == Flatten(groups)[i];
    } else {
      assert groups[n][i - |Flatten(init)|] == Flatten(groups)[i];
    }
  }

  lemma {:induction false} FlattenContains(groups: seq<seq<Position>>)
    ensures forall g, k :: 0 <= g < |groups| && 0 <= k < |groups[g]| ==> groups[g][k] in Flatten(groups)
    ensures |Flatten(groups)| > 0 <==> exists g :: 0 <= g < |groups| && |groups[g]| > 0
    decreases |groups|
  {
    if |groups| > 0 {
      var init := groups[..|groups| - 1];
      FlattenContains(init);
      assert forall g :: 0 <= g < |groups| - 1 ==> init[g] == groups[g];
    }
  }
}

=== FILE: distances.dfy ===
/** Distance aggregates shared by the plotting modes: the length of a path
    through a sequence of stops and the largest pairwise distance within a
    group. The distance itself (haversine or euclidean) is a parameter. */
module Distances {
  import opened Geometry

  /** Sum of the distances between consecutive stops, each measured from
      the later stop back to the earlier one as the route loop does. */
  function PathLength(d: Measure, ps: seq<Position>): (len: real)
    ensures |ps| <= 1 ==> len == 0.0
    ensures IsMeasure(d) ==> len >= 0.0
    decreases |ps|
  {
    if |ps| <= 1 then 0.0
    else PathLength(d, ps[..|ps| - 1]) + Dist(d, ps[|ps| - 1], ps[|ps| - 2])
  }

  /** Extending a path by one stop adds the distance of that last hop. */
  lemma PathLengthStep(d: Measure, ps: seq<Position>, i: nat)
    requires 1 <= i < |ps|
    ensures PathLength(d, ps[..i + 1]) == PathLength(d, ps[..i]) + Dist(d, ps[i], ps[i - 1])
  {
    assert ps[..i + 1][..i] == ps[..i];
  }

  /** Path length only grows as the path is extended. */
  lemma {:induction false} PathLengthMonotone(d: Measure, ps: seq<Position>, i: nat, j: nat)
    requires IsMeasure(d) && i <= j <= |ps|
    ensures PathLength(d, ps[..i]) <= PathLength(d, ps[..j])
    decreases j
  {
    if i < j {
      PathLengthMonotone(d, ps, i, j - 1);
      if j >= 2 {
        assert ps[..j][..j - 1] == ps[..j - 1];
      }
    }
  }

  /** Path length depends only on where the stops are. */
  lemma {:induction false} PathLengthIgnoresAttributes(d: Measure, ps: seq<Position>, qs: seq<Position>)
    requires |ps| == |qs| && forall k :: 0 <= k < |ps| ==> ps[k].At() == qs[k].At()
    ensures PathLength(d, ps) == PathLength(d, qs)
    decreases |ps|
  {
    if |ps| > 1 {
      PathLengthIgnoresAttributes(d, ps[..|ps| - 1], qs[..|qs| - 1]);
    }
  }

  predicate Counted(skipSelf: bool, i: int, j: int) {
    !(skipSelf && i == j)
  }

  /** `m` is 0 or the distance of some counted pair. */
  predicate Reached(d: Measure, ps: seq<Position>, skipSelf: bool, m: real) {
    m == 0.0 || exists a, b :: 0 <= a < |ps| && 0 <= b < |ps| && Counted(skipSelf, a, b) && m == Dist(d, ps[a], ps[b])
  }

  /** `m` is the diameter of the group: never negative, at least every
      counted pair's distance, and 0 or the distance of one of them. */
  predicate IsDiameter(d: Measure, ps: seq<Position>, skipSelf: bool, m: real) {
    && m >= 0.0
    && (forall i, j :: 0 <= i < |ps| && 0 <= j < |ps| && Counted(skipSelf, i, j) ==> Dist(d, ps[i], ps[j]) <= m)
    && Reached(d, ps, skipSelf, m)
  }

  /** The diameter is determined by the group: two values that both
      qualify are equal. */
  lemma DiameterUnique(d: Measure, ps: seq<Position>, skipSelf: bool, m1: real, m2: real)
    requires IsDiameter(d, ps, skipSelf, m1) && IsDiameter(d, ps, skipSelf, m2)
    ensures m1 == m2
  {
  }

  /** The inner loop for stop i: the running maximum over its counted pairs. */
  method RowMax(d: Measure, ps: seq<Position>, skipSelf: bool, i: nat, m0: real) returns (m: real)
    requires i < |ps| && Reached(d, ps, skipSelf, m0)
    ensures m0 <= m && Reached(d, ps, skipSelf, m)
    ensures forall b :: 0 <= b < |ps| && Counted(skipSelf, i, b) ==> Dist(d, ps[i], ps[b]) <= m
  {
    m := m0;
    var j := 0;
    while j < |ps|
      invariant 0 <= j <= |ps| && m0 <= m && Reached(d, ps, skipSelf, m)
      invariant forall b :: 0 <= b < j && Counted(skipSelf, i, b) ==> Dist(d, ps[i], ps[b]) <= m
    {
      if Counted(skipSelf, i, j) {
        var distance := Dist(d, ps[i], ps[j]);
        if distance > m {
          m := distance;
        }
      }
      j := j + 1;
    }
  }

  /** The largest distance over ordered pairs of the group, starting from 0;
      with skipSelf the pairs of a stop with itself are not visited. */
  method Diameter(d: Measure, ps: seq<Position>, skipSelf: bool) returns (m: real)
    ensures m >= 0.0
    ensures forall i, j :: 0 <= i < |ps| && 0 <= j < |ps| && Counted(skipSelf, i, j) ==> Dist(d, ps[i], ps[j]) <= m
    ensures m == 0.0 || exists i, j :: 0 <= i < |ps| && 0 <= j < |ps| && Counted(skipSelf, i, j) && m == Dist(d, ps[i], ps[j])
    ensures |ps| <= 1 && (skipSelf || IsMeasure(d)) ==> m == 0.0
    ensures IsDiameter(d, ps, skipSelf, m)
  {
    m := 0.0;
    var i := 0;
    while i < |ps|
      invariant 0 <= i <= |ps| && m >= 0.0 && Reached(d, ps, skipSelf, m)
      invariant forall a, b :: 0 <= a < i && 0 <= b < |ps| && Counted(skipSelf, a, b) ==> Dist(d, ps[a], ps[b]) <= m
    {
      var next := RowMax(d, ps, skipSelf, i, m);
      forall a, b | 0 <= a <= i && 0 <= b < |ps| && Counted(skipSelf, a, b)
        ensures Dist(d, ps[a], ps[b]) <= next
      {
        if a < i {
          assert Dist(d, ps[a], ps[b]) <= m;
        }
      }
      m := next;
      i := i + 1;
    }
  }
}

=== FILE: geojson.dfy ===
/** The bounding box of GeoJSON objects (nextplot/geojson.py): every list
    of two items whose first item is a number is read as a position
    `[longitude, latitude]` (section 3.1.1 of RFC 7946), and the box grows
    to contain it. Boxes are kept as a south-west and a north-east corner,
    latitude first, as the map library expects them. */
module GeoJson {
  import opened Results
  import opened JsonValue
  import Seqs
  import opened Geometry

  datatype Bounds = Bounds(sw: LatLon, ne: LatLon)

  /** The starting box: south-west at (90, 180), north-east at (-90, -180),
      so the first position sets both corners. */
  const Initial: Bounds := Bounds(LatLon(90.0, 180.0), LatLon(-90.0, -180.0))

  function Lower(a: real, b: real): real { if b < a then b else a }
  function Upper(a: real, b: real): real { if b > a then b else a }

  predicate Covers(b: Bounds, p: LatLon) {
    b.sw.lat <= p.lat <= b.ne.lat && b.sw.lon <= p.lon <= b.ne.lon
  }

  /** r reaches at least as far as b in every direction. */
  predicate Grows(b: Bounds, r: Bounds) {
    r.sw.lat <= b.sw.lat && r.sw.lon <= b.sw.lon && r.ne.lat >= b.ne.lat && r.ne.lon >= b.ne.lon
  }

  /** The box widened to contain one position. */
  function Include(b: Bounds, p: LatLon): (r: Bounds)
    ensures Grows(b, r) && Covers(r, p)
    ensures forall q :: Covers(b, q) ==> Covers(r, q)
  {
    Bounds(LatLon(Lower(b.sw.lat, p.lat), Lower(b.sw.lon, p.lon)),
           LatLon(Upper(b.ne.lat, p.lat), Upper(b.ne.lon, p.lon)))
  }

  /** `isinstance(d, list) and len(d) == 2 and isinstance(d[0], int | float)`. */
  predicate IsPosition(v: Json) {
    v.JList? && |v.items| == 2 && IsNumber(v.items[0])
  }

  /** The recursive traversal: a position widens the box and is not
      descended into; object values and the items of other lists are
      visited in order; anything else is ignored. A position whose second
      item is not a number cannot be compared and fails. */
  function Traverse(b: Bounds, v: Json): (r: Result<Bounds>)
    ensures r.Success? ==> Grows(b, r.value)
    decreases v, 1
  {
    if IsPosition(v) then
      if IsNumber(v.items[1]) then Success(Include(b, LatLon(NumberValue(v.items[1]), NumberValue(v.items[0]))))
      else Failure("TypeError: '<' not supported")
    else if v.JObject? then TraverseMembers(b, v.members)
    else if v.JList? then TraverseAll(b, v.items)
    else Success(b)
  }

  function TraverseAll(b: Bounds, vs: seq<Json>): (r: Result<Bounds>)
    ensures r.Success? ==> Grows(b, r.value)
    decreases vs, 0
  {
    if |vs| == 0 then Success(b)
    else
      var before :- TraverseAll(b, vs[..|vs| - 1]);
      Traverse(before, vs[|vs| - 1])
  }

  function TraverseMembers(b: Bounds, ms: seq<Member>): (r: Result<Bounds>)
    ensures r.Success? ==> Grows(b, r.value)
    decreases ms, 0
  {
    if |ms| == 0 then Success(b)
    else
      var before :- TraverseMembers(b, ms[..|ms| - 1]);
      Traverse(before, ms[|ms| - 1].value)
  }

  /** `determine_geojson_bbox`. */
  function DetermineBox(v: Json): (r: Result<Bounds>)
    ensures r.Success? ==> Grows(Initial, r.value)
  {
    Traverse(Initial, v)
  }

  // Reference definition: the positions a traversal visits, in order.

  function Visit(v: Json): (r: Result<seq<LatLon>>)
    decreases v, 1
  {
    if IsPosition(v) then
      if IsNumber(v.items[1]) then Success([LatLon(NumberValue(v.items[1]), NumberValue(v.items[0]))])
      else Failure("TypeError: '<' not supported")
    else if v.JObject? then VisitMembers(v.members)
    else if v.JList? then VisitAll(v.items)
    else Success([])
  }

  function VisitAll(vs: seq<Json>): (r: Result<seq<LatLon>>)
    decreases vs, 0
  {
    if |vs| == 0 then Success([])
    else
      var before :- VisitAll(vs[..|vs| - 1]);
      var last :- Visit(vs[|vs| - 1]);
      Success(before + last)
  }

  function VisitMembers(ms: seq<Member>): (r: Result<seq<LatLon>>)
    decreases ms, 0
  {
    if |ms| == 0 then Success([])
    else
      var before :- VisitMembers(ms[..|ms| - 1]);
      var last :- Visit(ms[|ms| - 1].value);
      Success(before + last)
  }

  /** The box widened by each position in turn: it contains every position. */
  function IncludeAll(b: Bounds, ps: seq<LatLon>): (r: Bounds)
    ensures Grows(b, r)
    ensures forall k :: 0 <= k < |ps| ==> Covers(r, ps[k])
  {
    if |ps| == 0 then b
    else
      var n := |ps| - 1;
      var before := IncludeAll(b, ps[..n]);
      assert forall k :: 0 <= k < n ==> ps[..n][k] == ps[k];
      Include(before, ps[n])
  }

  /** Each side of the widened box either stayed where it started or lies
      on some position, so the box is no larger than it must be. */
  predicate Attained(b: Bounds, ps: seq<LatLon>, r: Bounds) {
    && (r.sw.lat == b.sw.lat || exists k :: 0 <= k < |ps| && r.sw.lat == ps[k].lat)
    && (r.sw.lon == b.sw.lon || exists k :: 0 <= k < |ps| && r.sw.lon == ps[k].lon)
    && (r.ne.lat == b.ne.lat || exists k :: 0 <= k < |ps| && r.ne.lat == ps[k].lat)
    && (r.ne.lon == b.ne.lon || exists k :: 0 <= k < |ps| && r.ne.lon == ps[k].lon)
  }

  lemma {:induction false} IncludeAllTight(b: Bounds, ps: seq<LatLon>)
    ensures Attained(b, ps, IncludeAll(b, ps))
    decreases |ps|
  {
    if |ps| > 0 {
      var n := |ps| - 1;
      IncludeAllTight(b, ps[..n]);
      var before := IncludeAll(b, ps[..n]);
      assert forall k :: 0 <= k < n ==> ps[..n][k] == ps[k];
      assert Attained(b, ps, before);
    }
  }

  lemma {:induction false} IncludeAllAppend(b: Bounds, a: seq<LatLon>, c: seq<LatLon>)
    ensures IncludeAll(b, a + c) == IncludeAll(IncludeAll(b, a), c)
    decreases |c|
  {
    if |c| == 0 {
      assert a + c == a;
    } else {
      var n := |c| - 1;
      assert (a + c)[..|a| + n] == a + c[..n];
      assert (a + c)[|a| + n] == c[n];
      IncludeAllAppend(b, a, c[..n]);
    }
  }

  /** The traversal is the box of the visited positions: it fails exactly
      when visiting does, and otherwise widens the box by each visited
      position in order. */
  lemma {:induction false} TraverseIsIncludeAll(b: Bounds, v: Json)
    ensures Traverse(b, v).Success? <==> Visit(v).Success?
    ensures Traverse(b, v).Success? ==> Traverse(b, v).value == IncludeAll(b, Visit(v).value)
    decreases v, 1
  {
    if IsPosition(v) {
      if IsNumber(v.items[1]) {
        var p := LatLon(NumberValue(v.items[1]), NumberValue(v.items[0]));
        assert [p][..0] == [];
      }
    } else if v.JObject? {
      TraverseMembersIsIncludeAll(b, v.members);
    } else if v.JList? {
      TraverseAllIsIncludeAll(b, v.items);
    }
  }

  lemma {:induction false} TraverseAllIsIncludeAll(b: Bounds, vs: seq<Json>)
    ensures TraverseAll(b, vs).Success? <==> VisitAll(vs).Success?
    ensures TraverseAll(b, vs).Success? ==> TraverseAll(b, vs).value == IncludeAll(b, VisitAll(vs).value)
    decreases vs, 0
  {
    if |vs| > 0 {
      var n := |vs| - 1;
      TraverseAllIsIncludeAll(b, vs[..n]);
      if TraverseAll(b, vs[..n]).Success? {
        var before := TraverseAll(b, vs[..n]).value;
        TraverseIsIncludeAll(before, vs[n]);
        if Visit(vs[n]).Success? {
          IncludeAllAppend(b, VisitAll(vs[..n]).value, Visit(vs[n]).value);
        }
      }
    }
  }

  lemma {:induction false} TraverseMembersIsIncludeAll(b: Bounds, ms: seq<Member>)
    ensures TraverseMembers(b, ms).Success? <==> VisitMembers(ms).Success?
    ensures TraverseMembers(b, ms).Success? ==> TraverseMembers(b, ms).value == IncludeAll(b, VisitMembers(ms).value)
    decreases ms, 0
  {
    if |ms| > 0 {
      var n := |ms| - 1;
      TraverseMembersIsIncludeAll(b, ms[..n]);
      if TraverseMembers(b, ms[..n]).Success? {
        var before := TraverseMembers(b, ms[..n]).value;
        TraverseIsIncludeAll(before, ms[n].value);
        if Visit(ms[n].value).Success? {
          IncludeAllAppend(b, VisitMembers(ms[..n]).value, Visit(ms[n].value).value);
        }
      }
    }
  }

  /** Every visited position ends inside the box; an object without
      positions gives the starting box back. */
  lemma BoxContainsPositions(v: Json)
    requires DetermineBox(v).Success?
    ensures Visit(v).Success?
    ensures forall k :: 0 <= k < |Visit(v).value| ==> Covers(DetermineBox(v).value, Visit(v).value[k])
    ensures |Visit(v).value| == 0 ==> DetermineBox(v).value == Initial
  {
    TraverseIsIncludeAll(Initial, v);
  }

  // Merging the boxes of several objects (the loop in `plot`).

  function Merge(a: Bounds, b: Bounds): Bounds {
    Bounds(LatLon(Lower(a.sw.lat, b.sw.lat), Lower(a.sw.lon, b.sw.lon)),
           LatLon(Upper(a.ne.lat, b.ne.lat), Upper(a.ne.lon, b.ne.lon)))
  }

  /** Merging is commutative and associative, so the merged box does not
      depend on the order of the objects. */
  lemma MergeCommutesAssociates(a: Bounds, b: Bounds, c: Bounds)
    ensures Merge(a, b) == Merge(b, a)
    ensures Merge(Merge(a, b), c) == Merge(a, Merge(b, c))
  {
  }

  /** The boxes merged in order, starting from the initial box. */
  function MergeAll(boxes: seq<Bounds>): (r: Bounds)
    ensures forall k :: 0 <= k < |boxes| ==> Grows(boxes[k], r)
    ensures Grows(Initial, r)
  {
    if |boxes| == 0 then Initial
    else
      var n := |boxes| - 1;
      var before := MergeAll(boxes[..n]);
      assert forall k :: 0 <= k < n ==> boxes[..n][k] == boxes[k];
      Merge(before, boxes[n])
  }

  lemma {:induction false} MergeAllAppend(a: seq<Bounds>, c: seq<Bounds>)
    ensures MergeAll(a + c) == Merge(MergeAll(a), MergeAll(c))
    decreases |c|
  {
    if |c| == 0 {
      assert a + c == a;
    } else {
      var n := |c| - 1;
      assert (a + c)[..|a| + n] == a + c[..n];
      MergeAllAppend(a, c[..n]);
    }
  }

  /** Merging two runs of boxes in either order gives the same box. */
  lemma MergeAllSwap(a: seq<Bounds>, c: seq<Bounds>)
    ensures MergeAll(a + c) == MergeAll(c + a)
  {
    MergeAllAppend(a, c);
    MergeAllAppend(c, a);
  }

  /** Widening a box that already reaches the initial corners by some
      positions is merging it with the initial box widened by them. */
  lemma {:induction false} IncludeAllIsMerge(b: Bounds, ps: seq<LatLon>)
    requires Grows(Initial, b)
    ensures IncludeAll(b, ps) == Merge(b, IncludeAll(Initial, ps))
    decreases |ps|
  {
    if |ps| > 0 {
      IncludeAllIsMerge(b, ps[..|ps| - 1]);
    }
  }

  /** Merging the per-object boxes gives the box of all their positions. */
  lemma {:induction false} MergedBoxOfAll(groups: seq<seq<LatLon>>)
    ensures MergeAll(seq(|groups|, i requires 0 <= i < |groups| => IncludeAll(Initial, groups[i])))
      == IncludeAll(Initial, Seqs.Flatten(groups))
    decreases |groups|
  {
    var boxes := seq(|groups|, i requires 0 <= i < |groups| => IncludeAll(Initial, groups[i]));
    if |groups| > 0 {
      var n := |groups| - 1;
      MergedBoxOfAll(groups[..n]);
      assert boxes[..n] == seq(n, i requires 0 <= i < n => IncludeAll(Initial, groups[..n][i]));
      var before := IncludeAll(Initial, Seqs.Flatten(groups[..n]));
      IncludeAllIsMerge(before, groups[n]);
      IncludeAllAppend(Initial, Seqs.Flatten(groups[..n]), groups[n]);
    }
  }

  /** The map's centre (longitude, latitude) and the bounds it is fitted to. */
  datatype MapView = MapView(centerLon: real, centerLat: real, fit: Bounds)

  function Center(b: Bounds): (real, real) {
    ((b.sw.lon + b.ne.lon) / 2.0, (b.sw.lat + b.ne.lat) / 2.0)
  }

  /** The per-object boxes, each object traversed from the initial box. */
  function ObjectBoxes(objects: seq<Json>): (r: Result<seq<Bounds>>)
    ensures r.Success? <==> forall k :: 0 <= k < |objects| ==> DetermineBox(objects[k]).Success?
    ensures r.Success? ==> |r.value| == |objects|
    ensures r.Success? ==> forall k :: 0 <= k < |objects| ==> DetermineBox(objects[k]) == Success(r.value[k])
  {
    if |objects| == 0 then Success([])
    else
      var n := |objects| - 1;
      var before :- ObjectBoxes(objects[..n]);
      var box :- DetermineBox(objects[n]);
      assert forall k :: 0 <= k < n ==> objects[..n][k] == objects[k];
      Success(before + [box])
  }

  /** The merged box of all objects, when every object has a box. */
  function MergedBox(objects: seq<Json>): (r: Result<Bounds>)
    ensures r.Success? <==> forall k :: 0 <= k < |objects| ==> DetermineBox(objects[k]).Success?
    ensures r.Success? ==> forall k :: 0 <= k < |objects| ==> Grows(DetermineBox(objects[k]).value, r.value)
  {
    var boxes :- ObjectBoxes(objects);
    Success(MergeAll(boxes))
  }

  /** `plot` as written: centred on the merged box, but fitted to the box
      of the last object, which the loop variable still holds. */
  function PlotAsWritten(objects: seq<Json>): (r: Result<MapView>)
    ensures r.Success? <==> |objects| > 0 && forall k :: 0 <= k < |objects| ==> DetermineBox(objects[k]).Success?
    ensures r.Success? ==> |objects| > 0 && DetermineBox(objects[|objects| - 1]) == Success(r.value.fit)
    ensures r.Success? ==> MergedBox(objects).Success?
    ensures r.Success? && MergedBox(objects).Success? ==> (r.value.centerLon, r.value.centerLat) == Center(MergedBox(objects).value)
  {
    if |objects| == 0 then Failure("no geojson found in given file")
    else
      var boxes :- ObjectBoxes(objects);
      var merged := MergeAll(boxes);
      var c := Center(merged);
      Success(MapView(c.0, c.1, boxes[|boxes| - 1]))
  }

  /** `plot` fitted to the merged box: the view contains every object's box. */
  function Plot(objects: seq<Json>): (r: Result<MapView>)
    ensures r.Success? <==> |objects| > 0 && forall k :: 0 <= k < |objects| ==> DetermineBox(objects[k]).Success?
    ensures r.Success? ==> forall k :: 0 <= k < |objects| ==> Grows(DetermineBox(objects[k]).value, r.value.fit)
    ensures r.Success? ==> (r.value.centerLon, r.value.centerLat) == Center(r.value.fit)
    ensures r.Success? ==> MergedBox(objects) == Success(r.value.fit)
  {
    if |objects| == 0 then Failure("no geojson found in given file")
    else
      var boxes :- ObjectBoxes(objects);
      var merged := MergeAll(boxes);
      var c := Center(merged);
      Success(MapView(c.0, c.1, merged))
  }

  /** The two readings of `plot` succeed on the same objects and centre the
      map on the same point; they differ only in the box the map is fitted to. */
  lemma PlotsShareCentre(objects: seq<Json>)
    ensures PlotAsWritten(objects).Success? <==> Plot(objects).Success?
    ensures Plot(objects).Success? ==>
      && PlotAsWritten(objects).value.centerLon == Plot(objects).value.centerLon
      && PlotAsWritten(objects).value.centerLat == Plot(objects).value.centerLat
  {
  }

  /** Two objects, a point at (0, 0) and a point at (10, 10): as written the
      map is fitted to the second point alone and leaves out the first; fitted
      to the merged box, both are in view. */
  lemma FitBoundsMissesEarlierObjects()
    ensures var first := JList([JInt(0), JInt(0)]);
      var second := JList([JInt(10), JInt(10)]);
      && PlotAsWritten([first, second]).Success?
      && !Covers(PlotAsWritten([first, second]).value.fit, LatLon(0.0, 0.0))
      && Plot([first, second]).Success?
      && Covers(Plot([first, second]).value.fit, LatLon(0.0, 0.0))
      && Covers(Plot([first, second]).value.fit, LatLon(10.0, 10.0))
  {
    var first := JList([JInt(0), JInt(0)]);
    var second := JList([JInt(10), JInt(10)]);
    assert DetermineBox(first) == Success(Bounds(LatLon(0.0, 0.0), LatLon(0.0, 0.0)));
    assert DetermineBox(second) == Success(Bounds(LatLon(10.0, 10.0), LatLon(10.0, 10.0)));
    assert [first, second][..1] == [first];
  }
}

=== FILE: geometry.dfy ===
/** The position, route and bounding-box model of nextplot/types.py, the
    abstract distance measure, and the centroid shared by the cluster and
    colour code. */
module Geometry {
  import opened Results
  import opened Reals
  import opened Seqs

  /** A planar or (lon, lat) coordinate pair, as the distance measures take it. */
  datatype Coord = Coord(x: real, y: real)

  /** A position: longitude, latitude, a description (the JSON it was read
      from; `None` for positions decoded from a routing backend) and the
      distance from the start of its route, 0 until routes are processed. */
  datatype Position = Position(lon: real, lat: real, desc: Option<string>, distance: real) {
    function At(): Coord {
      Coord(lon, lat)
    }
  }

  /** A latitude-first pair, as polylines and map libraries write a
      position. */
  datatype LatLon = LatLon(lat: real, lon: real)

  /** A distance measure: haversine (kilometres on the sphere) or euclidean,
      chosen once per plot. Only the properties below are relied on. */
  type Measure = (Coord, Coord) -> real

  ghost predicate IsMeasure(d: Measure) {
    && (forall a :: d(a, a) == 0.0)
    && (forall a, b :: d(a, b) >= 0.0)
    && (forall a, b :: d(a, b) == d(b, a))
  }

  function Dist(d: Measure, p: Position, q: Position): real {
    d(p.At(), q.At())
  }

  /** `position[key]`: 0 selects the longitude, 1 the latitude, any other key raises. */
  function Component(p: Position, key: int): (r: Result<real>)
    ensures r.Success? <==> key == 0 || key == 1
    ensures r.Success? ==> Coord(if key == 0 then r.value else p.lon, if key == 1 then r.value else p.lat) == p.At()
  {
    if key == 0 then Success(p.lon)
    else if key == 1 then Success(p.lat)
    else Failure("Unrecognized key, use 0 for lon and 1 for lat")
  }

  /** `Position.equal`: compares the coordinates only. */
  function Equal(p: Position, q: Position): (r: bool)
    ensures r <==> p.At() == q.At()
    ensures r <==> Component(p, 0) == Component(q, 0) && Component(p, 1) == Component(q, 1)
  {
    p.lon == q.lon && p.lat == q.lat
  }

  /** Position equality is an equivalence that ignores description and distance. */
  lemma EqualIsEquivalence(p: Position, q: Position, s: Position, desc: Option<string>, dist: real)
    ensures Equal(p, p)
    ensures Equal(p, q) ==> Equal(q, p)
    ensures Equal(p, q) && Equal(q, s) ==> Equal(p, s)
    ensures Equal(p, p.(desc := desc, distance := dist))
  {
  }

  /** `Position.clone`: an independent copy; values have no identity here, so
      the copy equals the original in every field. */
  function Clone(p: Position): (r: Position)
    ensures r == p
    ensures Equal(r, p)
  {
    Position(p.lon, p.lat, p.desc, p.distance)
  }

  datatype BoundingBox = BoundingBox(minX: real, maxX: real, minY: real, maxY: real) {

    function Width(): (w: real)
      ensures minX + w == maxX
      ensures w >= 0.0 <==> minX <= maxX
    {
      maxX - minX
    }

    function Height(): (h: real)
      ensures minY + h == maxY
      ensures h >= 0.0 <==> minY <= maxY
    {
      maxY - minY
    }

    predicate Contains(c: Coord) {
      minX <= c.x <= maxX && minY <= c.y <= maxY
    }
  }

  /** The source's `leg_costs` attribute: the integer 0 when a route is
      created, `None` once routing results are cleared, then a list. */
  datatype LegCosts = InitialZero | Cleared | Costs(values: seq<real>)

  datatype Route = Route(points: seq<Position>, legs: Option<seq<seq<Position>>>, legCosts: LegCosts)

  /** `Route.__init__`. */
  function NewRoute(points: seq<Position>): (r: Route)
    ensures r.points == points && r.legs == None && r.legCosts == InitialZero
  {
    Route(points, None, InitialZero)
  }

  /** First index of the slice: 1 when the start stop is omitted. */
  function SliceStart(omitStart: bool): nat {
    if omitStart then 1 else 0
  }

  /** End (exclusive) of the slice: one less when the end stop is omitted. */
  function SliceStop(n: nat, omitEnd: bool): int {
    if omitEnd then n - 1 else n
  }

  /** `s[start..stop]` read as Python's `range(start, stop)`: empty when stop <= start. */
  function Window<T>(s: seq<T>, start: nat, stop: int): seq<T>
    requires stop <= |s|
  {
    if start < stop then s[start..stop] else []
  }

  /** `Route.to_points`. */
  method ToPoints(route: Route, omitStart: bool, omitEnd: bool) returns (ps: seq<Position>)
    ensures ps == Window(route.points, SliceStart(omitStart), SliceStop(|route.points|, omitEnd))
    ensures |ps| == if SliceStop(|route.points|, omitEnd) <= SliceStart(omitStart) then 0
                    else SliceStop(|route.points|, omitEnd) - SliceStart(omitStart)
    ensures !omitStart && !omitEnd ==> ps == route.points
  {
    ps := [];
    var start := SliceStart(omitStart);
    var stop := SliceStop(|route.points|, omitEnd);
    var i := start;
    while i < stop
      invariant start <= i
      invariant start < stop ==> i <= stop && ps == route.points[start..i]
      invariant stop <= start ==> ps == []
    {
      ps := ps + [route.points[i]];
      i := i + 1;
    }
  }

  /** Whether `to_polyline` can read every leg it asks for. */
  predicate PolylineDefined(route: Route, omitStart: bool, omitEnd: bool) {
    route.legs.None?
    || SliceStop(|route.points|, omitEnd) - 1 <= SliceStart(omitStart)
    || SliceStop(|route.points|, omitEnd) - 1 <= |route.legs.value|
  }

  /** `Route.to_polyline`: the legs `start .. stop - 2` joined, or the points
      themselves when the route has no legs. A leg index past the end of the
      leg list raises `IndexError`. */
  method ToPolyline(route: Route, omitStart: bool, omitEnd: bool) returns (r: Result<seq<Position>>)
    ensures r.Success? <==> PolylineDefined(route, omitStart, omitEnd)
    ensures route.legs.None? ==> r == Success(Window(route.points, SliceStart(omitStart), SliceStop(|route.points|, omitEnd)))
    ensures route.legs.Some? && r.Success? ==>
      var s, e := SliceStart(omitStart), SliceStop(|route.points|, omitEnd) - 1;
      r.value == if s < e then Flatten(route.legs.value[s..e]) else []
  {
    if route.legs.Some? {
      r := JoinLegs(route.legs.value, SliceStart(omitStart), SliceStop(|route.points|, omitEnd) - 1);
    } else {
      var ps := ToPoints(route, omitStart, omitEnd);
      r := Success(ps);
    }
  }

  /** The legs `start .. stop - 1` joined; reading a leg past the end of
      the list raises `IndexError`. */
  method JoinLegs(legs: seq<seq<Position>>, start: nat, stop: int) returns (r: Result<seq<Position>>)
    ensures r.Success? <==> stop <= start || stop <= |legs|
    ensures r.Success? ==> r.value == if start < stop then Flatten(legs[start..stop]) else []
  {
    var line: seq<Position> := [];
    var i := start;
    while i < stop
      invariant start <= i
      invariant start < stop ==> i <= stop
      invariant i > start ==> i <= |legs| && line == Flatten(legs[start..i])
      invariant i == start || stop <= start ==> line == []
    {
      if i >= |legs| {
        return Failure("list index out of range");
      }
      assert legs[start..i + 1][..i - start] == legs[start..i];
      line := line + legs[i];
      i := i + 1;
    }
    r := Success(line);
  }

  function Lons(ps: seq<Position>): (r: seq<real>)
    ensures |r| == |ps| && forall k :: 0 <= k < |ps| ==> r[k] == ps[k].lon
  {
    seq(|ps|, k requires 0 <= k < |ps| => ps[k].lon)
  }

  function Lats(ps: seq<Position>): (r: seq<real>)
    ensures |r| == |ps| && forall k :: 0 <= k < |ps| ==> r[k] == ps[k].lat
  {
    seq(|ps|, k requires 0 <= k < |ps| => ps[k].lat)
  }

  /** The coordinate mean `(sum(xs) / len(xs), sum(ys) / len(ys))`; it lies
      within the coordinate range of the positions, and a single position
      is its own centroid. */
  function Centroid(ps: seq<Position>): (c: Coord)
    requires |ps| > 0
    ensures Min(Lons(ps)) <= c.x <= Max(Lons(ps))
    ensures Min(Lats(ps)) <= c.y <= Max(Lats(ps))
    ensures |ps| == 1 ==> c == ps[0].At()
  {
    AverageBetween(Lons(ps));
    AverageBetween(Lats(ps));
    Coord(Mean(Lons(ps)), Mean(Lats(ps)))
  }
}

=== FILE: indexsort.dfy ===
/** The ordering `prepare_colors` uses when colours are sorted: Python's
    `sorted(range(n), key=...)` is stable, so it orders the indices by key
    and breaks ties by index. Keys are the `(angle, distance)` pairs of
    `cw_angle_distance`, compared as Python compares tuples. */
module IndexSort {
  import opened Seqs

  datatype SortKey = SortKey(angle: real, distance: real)

  /** Python's `<` on `(angle, distance)` tuples. */
  predicate KeyLess(a: SortKey, b: SortKey) {
    a.angle < b.angle || (a.angle == b.angle && a.distance < b.distance)
  }

  /** Index i comes before index j in the stable sort. */
  predicate Before(keys: seq<SortKey>, i: nat, j: nat)
    requires i < |keys| && j < |keys|
  {
    KeyLess(keys[i], keys[j]) || (keys[i] == keys[j] && i < j)
  }

  /** Two distinct indices are always ordered one way or the other, never both. */
  lemma BeforeTotal(keys: seq<SortKey>, i: nat, j: nat)
    requires i < |keys| && j < |keys| && i != j
    ensures Before(keys, i, j) != Before(keys, j, i)
  {
  }

  predicate ValidIndices(keys: seq<SortKey>, s: seq<nat>) {
    forall k :: 0 <= k < |s| ==> s[k] < |keys|
  }

  predicate SortedBy(keys: seq<SortKey>, s: seq<nat>)
    requires ValidIndices(keys, s)
  {
    forall a, b :: 0 <= a < b < |s| ==> Before(keys, s[a], s[b])
  }

  predicate Distinct(s: seq<nat>) {
    forall a, b :: 0 <= a < b < |s| ==> s[a] != s[b]
  }

  /** `order` lists each of 0 .. n-1 exactly once. */
  predicate IsPermutation(order: seq<nat>, n: nat) {
    |order| == n && (forall k :: 0 <= k < n ==> order[k] < n) && Distinct(order)
  }

  lemma BeforeTransitive(keys: seq<SortKey>, i: nat, j: nat, k: nat)
    requires i < |keys| && j < |keys| && k < |keys|
    requires Before(keys, i, j) && Before(keys, j, k)
    ensures Before(keys, i, k)
  {
  }

  function Insert(keys: seq<SortKey>, x: nat, s: seq<nat>): (r: seq<nat>)
    requires x < |keys| && ValidIndices(keys, s) && SortedBy(keys, s) && x !in s
    ensures ValidIndices(keys, r) && SortedBy(keys, r)
    ensures multiset(r) == multiset(s) + multiset{x}
  {
    if |s| == 0 then [x]
    else if Before(keys, x, s[0]) then
      PrependSorted(keys, x, s);
      [x] + s
    else
      BeforeTotal(keys, x, s[0]);
      var rest := Insert(keys, x, s[1..]);
      assert s == [s[0]] + s[1..];
      HeadBeforeAll(keys, s, x, rest);
      [s[0]] + rest
  }

  lemma PrependSorted(keys: seq<SortKey>, x: nat, s: seq<nat>)
    requires x < |keys| && ValidIndices(keys, s) && SortedBy(keys, s) && |s| > 0
    requires Before(keys, x, s[0])
    ensures ValidIndices(keys, [x] + s) && SortedBy(keys, [x] + s)
  {
    var r := [x] + s;
    forall a, b | 0 <= a < b < |r|
      ensures Before(keys, r[a], r[b])
    {
      if a == 0 && b > 1 {
        BeforeTransitive(keys, x, s[0], s[b - 1]);
      }
    }
  }

  lemma HeadBeforeAll(keys: seq<SortKey>, s: seq<nat>, x: nat, rest: seq<nat>)
    requires x < |keys| && ValidIndices(keys, s) && SortedBy(keys, s) && |s| > 0
    requires Before(keys, s[0], x)
    requires ValidIndices(keys, rest) && SortedBy(keys, rest)
    requires multiset(rest) == multiset(s[1..]) + multiset{x}
    ensures ValidIndices(keys, [s[0]] + rest) && SortedBy(keys, [s[0]] + rest)
  {
    var r := [s[0]] + rest;
    forall b | 0 <= b < |rest|
      ensures rest[b] < |keys| && Before(keys, s[0], rest[b])
    {
      assert rest[b] in multiset(rest);
      if rest[b] != x {
        assert rest[b] in multiset(s[1..]);
        var j :| 0 <= j < |s[1..]| && s[1..][j] == rest[b];
        assert s[j + 1] == rest[b];
      }
    }
    forall a, b | 0 <= a < b < |r|
      ensures Before(keys, r[a], r[b])
    {
      if a > 0 {
        assert r[a] == rest[a - 1] && r[b] == rest[b - 1];
      }
    }
  }

  function Sort(keys: seq<SortKey>, s: seq<nat>): (r: seq<nat>)
    requires ValidIndices(keys, s) && Distinct(s)
    ensures ValidIndices(keys, r) && SortedBy(keys, r)
    ensures multiset(r) == multiset(s)
  {
    if |s| == 0 then []
    else
      DistinctTail(s);
      var rest := Sort(keys, s[1..]);
      assert s[0] !in multiset(rest);
      Insert(keys, s[0], rest)
  }

  lemma DistinctTail(s: seq<nat>)
    requires |s| > 0 && Distinct(s)
    ensures Distinct(s[1..]) && s[0] !in multiset(s[1..])
    ensures multiset(s) == multiset(s[1..]) + multiset{s[0]}
  {
    assert s == [s[0]] + s[1..];
  }

  /** The stable order of 0 .. |keys|-1 by key: a permutation in which keys
      never decrease and equal keys keep their index order. */
  function StableOrder(keys: seq<SortKey>): (r: seq<nat>)
    ensures IsPermutation(r, |keys|)
    ensures forall a, b :: 0 <= a < b < |r| ==> KeyLess(keys[r[a]], keys[r[b]]) || (keys[r[a]] == keys[r[b]] && r[a] < r[b])
  {
    var r := Sort(keys, Iota(|keys|));
    assert |r| == |multiset(r)| == |keys|;
    r
  }

  /** A repetition-free sequence of numbers below m has at most m elements. */
  lemma {:induction false} DistinctBelow(s: seq<nat>, m: nat)
    requires Distinct(s) && forall k :: 0 <= k < |s| ==> s[k] < m
    ensures |s| <= m
    decreases m
  {
    if |s| > 0 {
      var last := s[|s| - 1];
      var t := seq(|s| - 1, k requires 0 <= k < |s| - 1 => if s[k] == m - 1 then last else s[k]);
      forall a, b | 0 <= a < b < |t|
        ensures t[a] != t[b]
      {
      }
      DistinctBelow(t, m - 1);
    }
  }

  /** A permutation of 0 .. n-1 contains each of them. */
  lemma PermutationCovers(order: seq<nat>, n: nat, g: nat)
    requires IsPermutation(order, n) && g < n
    ensures g in order
  {
    if g !in order {
      var t := seq(n, k requires 0 <= k < n => if order[k] > g then order[k] - 1 else order[k]);
      forall a, b | 0 <= a < b < n
        ensures t[a] != t[b]
      {
      }
      DistinctBelow(t, n - 1);
      assert false;
    }
  }
}

=== FILE: jsonvalue.dfy ===
/** JSON values as Python's `json` module hands them to the plotting code.
    Python distinguishes `int` from `float`, and `bool` is a subclass of
    `int`, so `isinstance(True, int)` holds; the predicates below follow
    those rules. */
module JsonValue {

  datatype Json =
    | JNull
    | JBool(b: bool)
    | JInt(i: int)
    | JFloat(f: real)
    | JString(s: string)
    | JList(items: seq<Json>)
    | JObject(members: seq<Member>)

  datatype Member = Member(key: string, value: Json)

  /** The Python types the source tests values against with `isinstance`. */
  datatype PyType = IntType | FloatType | NumberType

  /** `isinstance(v, int)`: a JSON integer or a boolean. */
  predicate IsInt(v: Json) {
    v.JInt? || v.JBool?
  }

  function IntValue(v: Json): int
    requires IsInt(v)
  {
    match v
    case JInt(i) => i
    case JBool(b) => if b then 1 else 0
  }

  predicate IsNumber(v: Json) {
    IsInt(v) || v.JFloat?
  }

  function NumberValue(v: Json): real
    requires IsNumber(v)
  {
    if v.JFloat? then v.f else IntValue(v) as real
  }

  predicate IsInstance(v: Json, t: PyType) {
    match t
    case IntType => IsInt(v)
    case FloatType => v.JFloat?
    case NumberType => IsNumber(v)
  }
}

=== FILE: osrm.dfy ===
/** Post-processing of OSRM route responses (nextplot/osrm.py): the
    as-the-crow-flies fallback when OSRM finds no route, the merging of
    repeated polyline vertices, the framing of each leg by the requested
    stops, the snapping figures and the zero-distance flag. The HTTP
    request and polyline decoding are outside the model: a reply arrives
    as decoded (lat, lon) vertices per step. */
module Osrm {
  import opened Results
  import opened Geometry
  import opened Seqs

  /** Assumed speed (m/s) for fallback legs and snapping. */
  const TravelSpeed: real := 10.0

  /** One leg of an OSRM route: its steps' geometries, meters and seconds. */
  datatype OsrmLeg = OsrmLeg(steps: seq<seq<LatLon>>, meters: real, seconds: real)

  /** What the server answered: status 400 with code "NoRoute", any other
      HTTP error, or a JSON body with a code, a message and routes (each
      given by its legs). */
  datatype Reply =
    | NoRoute
    | HttpError(status: int)
    | Answer(code: string, message: string, routes: seq<seq<OsrmLeg>>)

  datatype Response = Response(
    paths: seq<seq<Position>>,
    distances: seq<real>,
    durations: seq<real>,
    zeroDistance: bool,
    noRoute: bool)

  /** A position built from coordinates alone. */
  function Bare(lon: real, lat: real): Position {
    Position(lon, lat, None, 0.0)
  }

  /** The fallback: one straight two-point path per consecutive stop pair,
      its length as distance and that length at the travel speed as duration. */
  function Fallback(d: Measure, positions: seq<Position>): (r: Response)
    ensures r.noRoute && !r.zeroDistance
    ensures |r.paths| == |r.distances| == |r.durations| == (if |positions| == 0 then 0 else |positions| - 1)
    ensures forall i :: 0 <= i < |r.paths| ==>
      |r.paths[i]| == 2 && Equal(r.paths[i][0], positions[i]) && Equal(r.paths[i][1], positions[i + 1])
  {
    var n := if |positions| == 0 then 0 else |positions| - 1;
    Response(
      seq(n, i requires 0 <= i < n => [Bare(positions[i].lon, positions[i].lat), Bare(positions[i + 1].lon, positions[i + 1].lat)]),
      seq(n, i requires 0 <= i < n => Dist(d, positions[i], positions[i + 1])),
      seq(n, i requires 0 <= i < n => Dist(d, positions[i], positions[i + 1]) / TravelSpeed),
      false,
      true)
  }

  /** The fallback's figures are the straight-line lengths of its own paths,
      and its durations are those lengths at the travel speed. */
  lemma FallbackFigures(d: Measure, positions: seq<Position>, i: nat)
    requires i < |Fallback(d, positions).paths|
    ensures var r := Fallback(d, positions);
      && r.distances[i] == Dist(d, r.paths[i][0], r.paths[i][1])
      && r.durations[i] * TravelSpeed == r.distances[i]
  {
  }

  predicate NoAdjacentDuplicates(s: seq<LatLon>) {
    forall i :: 0 < i < |s| ==> s[i] != s[i - 1]
  }

  /** `s` with every run of repeated vertices merged into its first vertex. */
  function Collapse(s: seq<LatLon>): (r: seq<LatLon>)
    requires |s| > 0
    ensures 0 < |r| <= |s| && r[0] == s[0] && r[|r| - 1] == s[|s| - 1]
    ensures NoAdjacentDuplicates(r)
  {
    if |s| == 1 then s
    else
      var n := |s| - 1;
      var c := Collapse(s[..n]);
      if s[n] == s[n - 1] then c else c + [s[n]]
  }

  /** The indices the source's comprehension keeps: the first, and every one
      whose vertex differs from its predecessor. Collapsing picks exactly
      these, in increasing order, so its result is a subsequence. */
  function KeptIndices(s: seq<LatLon>): (r: seq<nat>)
    requires |s| > 0
    ensures |r| == |Collapse(s)| && r[0] == 0
    ensures forall a, b :: 0 <= a < b < |r| ==> r[a] < r[b]
    ensures forall k :: 0 <= k < |r| ==> r[k] < |s|
  {
    if |s| == 1 then [0]
    else
      var n := |s| - 1;
      var before := KeptIndices(s[..n]);
      if s[n] == s[n - 1] then before else before + [n]
  }

  /** The collapsed path is the vertices at the kept indices. */
  lemma {:induction false} CollapsePicksKept(s: seq<LatLon>, k: nat)
    requires |s| > 0 && k < |KeptIndices(s)|
    ensures Collapse(s)[k] == s[KeptIndices(s)[k]]
    decreases |s|
  {
    if |s| > 1 {
      var n := |s| - 1;
      if k < |KeptIndices(s[..n])| {
        CollapsePicksKept(s[..n], k);
      }
    }
  }

  /** An index is kept exactly when its vertex starts a run. */
  lemma {:induction false} KeptIndicesStartRuns(s: seq<LatLon>, i: nat)
    requires i < |s|
    ensures i in KeptIndices(s) <==> i == 0 || s[i] != s[i - 1]
    decreases |s|
  {
    if |s| > 1 {
      var n := |s| - 1;
      if i < n {
        KeptIndicesStartRuns(s[..n], i);
      }
    }
  }

  /** No vertex is lost: each one equals some vertex of the result. */
  lemma {:induction false} CollapseKeepsEveryVertex(s: seq<LatLon>, i: nat)
    requires i < |s|
    ensures s[i] in Collapse(s)
    decreases |s|
  {
    if |s| > 1 {
      var n := |s| - 1;
      if i < n {
        CollapseKeepsEveryVertex(s[..n], i);
      } else if s[n] == s[n - 1] {
        var c := Collapse(s[..n]);
        assert c[|c| - 1] == s[n];
      }
    }
  }

  /** A vertex list without repeats is left as it is. */
  lemma {:induction false} CollapseKeepsDistinctRuns(s: seq<LatLon>)
    requires |s| > 0 && NoAdjacentDuplicates(s)
    ensures Collapse(s) == s
    decreases |s|
  {
    if |s| > 1 {
      var n := |s| - 1;
      assert NoAdjacentDuplicates(s[..n]);
      CollapseKeepsDistinctRuns(s[..n]);
      assert s == s[..n] + [s[n]];
    }
  }

  /** Collapsing twice is collapsing once. */
  lemma CollapseIdempotent(s: seq<LatLon>)
    requires |s| > 0
    ensures Collapse(Collapse(s)) == Collapse(s)
  {
    CollapseKeepsDistinctRuns(Collapse(s));
  }

  /** Decoded vertices as positions, longitude first. */
  function ToPositions(path: seq<LatLon>): (r: seq<Position>)
    ensures |r| == |path|
    ensures forall i :: 0 <= i < |path| ==> r[i].lon == path[i].lon && r[i].lat == path[i].lat
  {
    seq(|path|, i requires 0 <= i < |path| => Bare(path[i].lon, path[i].lat))
  }

  /** The decoded, collapsed vertices of a leg; a leg without vertices
      fails on the first-element lookup. */
  function LegVertices(leg: OsrmLeg): (r: Result<seq<Position>>)
    ensures r.Success? <==> |Flatten(leg.steps)| > 0
    ensures r.Success? ==> 0 < |r.value| <= |Flatten(leg.steps)|
  {
    var raw := Flatten(leg.steps);
    if |raw| == 0 then Failure("IndexError: list index out of range")
    else Success(ToPositions(Collapse(raw)))
  }

  /** The source's snapping terms: measured from the framed path's ends to
      the stops the path was framed with. */
  function SnapAsWritten(d: Measure, framed: seq<Position>, start: Position, end: Position): (r: (real, real))
    requires |framed| > 0
  {
    (Dist(d, framed[0], start), Dist(d, framed[|framed| - 1], end))
  }

  /** Snapping terms measured from the stops to the decoded path's ends. */
  function Snap(d: Measure, vertices: seq<Position>, start: Position, end: Position): (r: (real, real))
    requires |vertices| > 0
    ensures IsMeasure(d) ==> r.0 >= 0.0 && r.1 >= 0.0
  {
    (Dist(d, start, vertices[0]), Dist(d, vertices[|vertices| - 1], end))
  }

  /** A leg's distance in km and duration in seconds, snapping included. */
  function Figures(leg: OsrmLeg, snap: (real, real)): (real, real) {
    (leg.meters / 1000.0 + snap.0 + snap.1, leg.seconds + snap.0 / TravelSpeed + snap.1 / TravelSpeed)
  }

  /** As written, the snapping terms vanish for every leg: the reported
      figures are OSRM's own. */
  lemma SnapAsWrittenVanishes(d: Measure, start: Position, vertices: seq<Position>, end: Position)
    requires IsMeasure(d)
    ensures var framed := [start] + vertices + [end];
      Figures(OsrmLeg([], 1000.0, 0.0), SnapAsWritten(d, framed, start, end)) == (1.0, 0.0)
      && forall leg: OsrmLeg :: Figures(leg, SnapAsWritten(d, framed, start, end)) == (leg.meters / 1000.0, leg.seconds)
  {
    var framed := [start] + vertices + [end];
    assert framed[0] == start && framed[|framed| - 1] == end;
  }

  /** Which snapping terms a leg's figures include: those the source
      computes, or those measured from the stops to the decoded path. */
  datatype Snapping = AsWritten | Corrected

  function LegSnap(snapping: Snapping, d: Measure, vertices: seq<Position>, start: Position, end: Position): (real, real)
    requires |vertices| > 0
  {
    match snapping
    case AsWritten => SnapAsWritten(d, [start] + vertices + [end], start, end)
    case Corrected => Snap(d, vertices, start, end)
  }

  /** A stop 1 away from where the road starts: as written nothing is added
      for the gap; measured from the decoded path it is. */
  lemma SnapGapIgnored()
    ensures var d: Measure := (a: Coord, b: Coord) => (if a.x >= b.x then a.x - b.x else b.x - a.x) + (if a.y >= b.y then a.y - b.y else b.y - a.y);
      var start := Bare(0.0, 0.0);
      var end := Bare(2.0, 0.0);
      var vertices := [Bare(1.0, 0.0), Bare(2.0, 0.0)];
      var leg := OsrmLeg([[LatLon(0.0, 1.0), LatLon(0.0, 2.0)]], 1000.0, 100.0);
      && IsMeasure(d)
      && Figures(leg, SnapAsWritten(d, [start] + vertices + [end], start, end)) == (1.0, 100.0)
      && Figures(leg, Snap(d, vertices, start, end)) == (2.0, 100.1)
  {
  }

  /** One leg: its vertices framed by the stops it connects, with its
      figures; a leg beyond the last stop pair fails on the stop lookup. */
  function ProcessLeg(d: Measure, snapping: Snapping, positions: seq<Position>, idx: nat, leg: OsrmLeg)
    : (r: Result<(seq<Position>, (real, real))>)
    ensures r.Success? <==> |Flatten(leg.steps)| > 0 && idx + 1 < |positions|
  {
    var vertices :- LegVertices(leg);
    if idx + 1 >= |positions| then Failure("IndexError: list index out of range")
    else
      var start := positions[idx];
      var end := positions[idx + 1];
      Success(([start] + vertices + [end], Figures(leg, LegSnap(snapping, d, vertices, start, end))))
  }

  /** A processed leg runs from its stop to the next one through the
      collapsed vertices, and its figures include the snapping gaps. */
  lemma ProcessLegFrames(d: Measure, snapping: Snapping, positions: seq<Position>, idx: nat, leg: OsrmLeg)
    requires ProcessLeg(d, snapping, positions, idx, leg).Success?
    ensures var r := ProcessLeg(d, snapping, positions, idx, leg).value;
      var path := r.0;
      && |path| >= 3 && path[0] == positions[idx] && path[|path| - 1] == positions[idx + 1]
      && path == [positions[idx]] + LegVertices(leg).value + [positions[idx + 1]]
      && r.1 == Figures(leg, LegSnap(snapping, d, LegVertices(leg).value, positions[idx], positions[idx + 1]))
  {
  }

  predicate LegFits(positions: seq<Position>, idx: nat, leg: OsrmLeg) {
    |Flatten(leg.steps)| > 0 && idx + 1 < |positions|
  }

  /** `response` reports each leg as processing it alone would, in order. */
  predicate Reports(d: Measure, snapping: Snapping, positions: seq<Position>, legs: seq<OsrmLeg>, response: Response) {
    && |response.paths| == |response.distances| == |response.durations| == |legs|
    && forall i :: 0 <= i < |legs| ==>
         ProcessLeg(d, snapping, positions, i, legs[i]) == Success((response.paths[i], (response.distances[i], response.durations[i])))
  }

  /** The legs of the first route, processed in order; the zero-distance
      flag stays set until a leg reports a positive distance. */
  function ProcessLegs(d: Measure, snapping: Snapping, positions: seq<Position>, legs: seq<OsrmLeg>): (r: Result<Response>)
    ensures r.Success? ==> |r.value.paths| == |r.value.distances| == |r.value.durations| == |legs| && !r.value.noRoute
  {
    if |legs| == 0 then Success(Response([], [], [], true, false))
    else
      var n := |legs| - 1;
      var before :- ProcessLegs(d, snapping, positions, legs[..n]);
      var leg :- ProcessLeg(d, snapping, positions, n, legs[n]);
      Success(Response(
        before.paths + [leg.0],
        before.distances + [leg.1.0],
        before.durations + [leg.1.1],
        before.zeroDistance && !(legs[n].meters / 1000.0 > 0.0),
        false))
  }

  /** How a successful processing of legs extends that of all but the last. */
  lemma ProcessLegsLast(d: Measure, snapping: Snapping, positions: seq<Position>, legs: seq<OsrmLeg>)
    requires |legs| > 0 && ProcessLegs(d, snapping, positions, legs).Success?
    ensures var n := |legs| - 1;
      && ProcessLegs(d, snapping, positions, legs[..n]).Success?
      && ProcessLeg(d, snapping, positions, n, legs[n]).Success?
    ensures var n := |legs| - 1;
      var b := ProcessLegs(d, snapping, positions, legs[..n]).value;
      var leg := ProcessLeg(d, snapping, positions, n, legs[n]).value;
      ProcessLegs(d, snapping, positions, legs).value == Response(
        b.paths + [leg.0], b.distances + [leg.1.0], b.durations + [leg.1.1],
        b.zeroDistance && !(legs[n].meters / 1000.0 > 0.0), false)
  {
  }

  /** Processing fails exactly when some leg has no vertices or lies
      beyond the last stop pair. */
  lemma {:induction false} ProcessLegsSucceeds(d: Measure, snapping: Snapping, positions: seq<Position>, legs: seq<OsrmLeg>)
    ensures ProcessLegs(d, snapping, positions, legs).Success? <==> forall i :: 0 <= i < |legs| ==> LegFits(positions, i, legs[i])
    decreases |legs|
  {
    if |legs| > 0 {
      var n := |legs| - 1;
      ProcessLegsSucceedsLast(d, snapping, positions, legs);
      ProcessLegsSucceeds(d, snapping, positions, legs[..n]);
      assert forall i :: 0 <= i < n ==> legs[..n][i] == legs[i];
    }
  }

  lemma ProcessLegsSucceedsLast(d: Measure, snapping: Snapping, positions: seq<Position>, legs: seq<OsrmLeg>)
    requires |legs| > 0
    ensures var n := |legs| - 1;
      ProcessLegs(d, snapping, positions, legs).Success? <==>
        ProcessLegs(d, snapping, positions, legs[..n]).Success? && LegFits(positions, n, legs[n])
  {
  }

  /** A processed answer reports each leg as processing it alone would. */
  lemma {:induction false} ProcessLegsReports(d: Measure, snapping: Snapping, positions: seq<Position>, legs: seq<OsrmLeg>)
    requires ProcessLegs(d, snapping, positions, legs).Success?
    ensures Reports(d, snapping, positions, legs, ProcessLegs(d, snapping, positions, legs).value)
    decreases |legs|
  {
    if |legs| > 0 {
      var n := |legs| - 1;
      ProcessLegsLast(d, snapping, positions, legs);
      ProcessLegsReports(d, snapping, positions, legs[..n]);
      ReportsExtend(d, snapping, positions, legs, ProcessLegs(d, snapping, positions, legs[..n]).value,
        ProcessLeg(d, snapping, positions, n, legs[n]).value, ProcessLegs(d, snapping, positions, legs).value);
    }
  }

  /** Reports on all but the last leg, extended by the last leg's report. */
  lemma ReportsExtend(d: Measure, snapping: Snapping, positions: seq<Position>, legs: seq<OsrmLeg>, b: Response,
                      leg: (seq<Position>, (real, real)), r: Response)
    requires |legs| > 0
    requires Reports(d, snapping, positions, legs[..|legs| - 1], b)
    requires ProcessLeg(d, snapping, positions, |legs| - 1, legs[|legs| - 1]) == Success(leg)
    requires r.paths == b.paths + [leg.0] && r.distances == b.distances + [leg.1.0] && r.durations == b.durations + [leg.1.1]
    ensures Reports(d, snapping, positions, legs, r)
  {
    var n := |legs| - 1;
    forall i | 0 <= i < |legs|
      ensures ProcessLeg(d, snapping, positions, i, legs[i]) == Success((r.paths[i], (r.distances[i], r.durations[i])))
    {
      if i < n {
        assert legs[..n][i] == legs[i];
        assert r.paths[i] == b.paths[i] && r.distances[i] == b.distances[i] && r.durations[i] == b.durations[i];
      }
    }
  }

  /** A processed answer is flagged zero-distance exactly when no leg has a
      positive distance (vacuously so without legs). */
  lemma {:induction false} ProcessLegsZeroDistance(d: Measure, snapping: Snapping, positions: seq<Position>, legs: seq<OsrmLeg>)
    requires ProcessLegs(d, snapping, positions, legs).Success?
    ensures ProcessLegs(d, snapping, positions, legs).value.zeroDistance <==> forall i :: 0 <= i < |legs| ==> legs[i].meters / 1000.0 <= 0.0
    decreases |legs|
  {
    if |legs| > 0 {
      var n := |legs| - 1;
      ProcessLegsLast(d, snapping, positions, legs);
      ProcessLegsZeroDistance(d, snapping, positions, legs[..n]);
      NoPositiveLegExtend(legs, legs[..n], ProcessLegs(d, snapping, positions, legs[..n]).value.zeroDistance,
        ProcessLegs(d, snapping, positions, legs).value.zeroDistance);
    }
  }

  lemma NoPositiveLegExtend(legs: seq<OsrmLeg>, init: seq<OsrmLeg>, before: bool, after: bool)
    requires |legs| > 0 && init == legs[..|legs| - 1]
    requires before <==> forall i :: 0 <= i < |init| ==> init[i].meters / 1000.0 <= 0.0
    requires after == (before && !(legs[|legs| - 1].meters / 1000.0 > 0.0))
    ensures after <==> forall i :: 0 <= i < |legs| ==> legs[i].meters / 1000.0 <= 0.0
  {
    assert forall i :: 0 <= i < |init| ==> init[i] == legs[i];
  }

  /** `query_route` on one reply. */
  function QueryRoute(d: Measure, snapping: Snapping, positions: seq<Position>, reply: Reply): (r: Result<Response>)
    ensures reply.NoRoute? ==> r == Success(Fallback(d, positions))
    ensures reply.HttpError? ==> r.Failure?
    ensures reply.Answer? && (reply.code != "Ok" || |reply.routes| == 0) ==> r.Failure?
    ensures reply.Answer? && reply.code == "Ok" && |reply.routes| > 0 ==> r == ProcessLegs(d, snapping, positions, reply.routes[0])
    ensures reply.Answer? && r.Success? ==> |reply.routes| > 0 && |r.value.paths| == |reply.routes[0]|
  {
    match reply
    case NoRoute => Success(Fallback(d, positions))
    case HttpError(status) => Failure("Error querying OSRM")
    case Answer(code, message, routes) =>
      if code != "Ok" then Failure("OSRM returned an error: " + message)
      else if |routes| == 0 then Failure("No route found")
      else ProcessLegs(d, snapping, positions, routes[0])
  }

  /** Every leg of a successful answer runs from one stop to the next, and
      its distance is at least OSRM's own. */
  lemma AnsweredLegs(d: Measure, snapping: Snapping, positions: seq<Position>, reply: Reply, i: nat)
    requires IsMeasure(d) && reply.Answer?
    requires QueryRoute(d, snapping, positions, reply).Success? && i < |QueryRoute(d, snapping, positions, reply).value.paths|
    ensures var r := QueryRoute(d, snapping, positions, reply).value;
      && i + 1 < |positions| && |r.paths[i]| >= 3
      && r.paths[i][0] == positions[i] && r.paths[i][|r.paths[i]| - 1] == positions[i + 1]
      && r.distances[i] >= reply.routes[0][i].meters / 1000.0
      && r.durations[i] >= reply.routes[0][i].seconds
  {
    var legs := reply.routes[0];
    ProcessLegsReports(d, snapping, positions, legs);
    ProcessLegFrames(d, snapping, positions, i, legs[i]);
  }

  /** The figures of an answered leg: as written, OSRM's own kilometres
      and seconds; corrected, the kilometres plus the gaps from the stops to
      the ends of the decoded path. */
  lemma AnsweredFigures(d: Measure, snapping: Snapping, positions: seq<Position>, reply: Reply, i: nat)
    requires reply.Answer?
    requires QueryRoute(d, snapping, positions, reply).Success? && i < |QueryRoute(d, snapping, positions, reply).value.paths|
    ensures var r := QueryRoute(d, snapping, positions, reply).value;
      var leg := reply.routes[0][i];
      snapping == AsWritten && IsMeasure(d) ==> r.distances[i] == leg.meters / 1000.0 && r.durations[i] == leg.seconds
    ensures var r := QueryRoute(d, snapping, positions, reply).value;
      var leg := reply.routes[0][i];
      snapping == Corrected ==> (LegVertices(leg).Success? && i + 1 < |positions|
        && var v := LegVertices(leg).value;
        r.distances[i] == leg.meters / 1000.0 + Dist(d, positions[i], v[0]) + Dist(d, v[|v| - 1], positions[i + 1]))
  {
    var legs := reply.routes[0];
    ProcessLegsReports(d, snapping, positions, legs);
    ProcessLegFrames(d, snapping, positions, i, legs[i]);
    if IsMeasure(d) {
      SnapAsWrittenVanishes(d, positions[i], LegVertices(legs[i]).value, positions[i + 1]);
    }
  }

  datatype Routed = Routed(routes: seq<Route>, responses: seq<Response>, zeroDistanceRoutes: nat, noRouteRoutes: nat)

  function ZeroDistanceCount(rs: seq<Response>): nat {
    if |rs| == 0 then 0 else ZeroDistanceCount(rs[..|rs| - 1]) + (if rs[|rs| - 1].zeroDistance then 1 else 0)
  }

  function NoRouteCount(rs: seq<Response>): nat {
    if |rs| == 0 then 0 else NoRouteCount(rs[..|rs| - 1]) + (if rs[|rs| - 1].noRoute then 1 else 0)
  }

  /** Each response for route k, and the route with its legs replaced. */
  predicate Applied(d: Measure, snapping: Snapping, routes: seq<Route>, replies: seq<Reply>, out: Routed)
    requires |replies| == |routes|
  {
    && |out.routes| == |out.responses| == |routes|
    && forall k :: 0 <= k < |routes| ==>
         && QueryRoute(d, snapping, routes[k].points, replies[k]) == Success(out.responses[k])
         && out.routes[k] == routes[k].(legs := Some(out.responses[k].paths))
  }

  /** Route n's response appended to the responses of the routes before it. */
  function Extend(b: Routed, route: Route, response: Response): Routed {
    Routed(
      b.routes + [route.(legs := Some(response.paths))],
      b.responses + [response],
      b.zeroDistanceRoutes + (if response.zeroDistance then 1 else 0),
      b.noRouteRoutes + (if response.noRoute then 1 else 0))
  }

  lemma AppliedExtend(d: Measure, snapping: Snapping, routes: seq<Route>, replies: seq<Reply>, b: Routed, response: Response)
    requires |replies| == |routes| > 0
    requires Applied(d, snapping, routes[..|routes| - 1], replies[..|routes| - 1], b)
    requires QueryRoute(d, snapping, routes[|routes| - 1].points, replies[|routes| - 1]) == Success(response)
    ensures Applied(d, snapping, routes, replies, Extend(b, routes[|routes| - 1], response))
  {
    var n := |routes| - 1;
    var out := Extend(b, routes[n], response);
    forall k | 0 <= k < |routes|
      ensures QueryRoute(d, snapping, routes[k].points, replies[k]) == Success(out.responses[k])
      ensures out.routes[k] == routes[k].(legs := Some(out.responses[k].paths))
    {
      if k < n {
        assert routes[..n][k] == routes[k] && replies[..n][k] == replies[k];
        assert out.responses[k] == b.responses[k] && out.routes[k] == b.routes[k];
      }
    }
  }

  /** `query_routes`: one reply per route, in order; each response's paths
      become the route's legs, and zero-distance and no-route responses
      are counted. The first failing reply ends the run. */
  function QueryRoutes(d: Measure, snapping: Snapping, routes: seq<Route>, replies: seq<Reply>): (r: Result<Routed>)
    requires |replies| == |routes|
    ensures r.Success? ==> Applied(d, snapping, routes, replies, r.value)
    ensures r.Success? ==> (r.value.zeroDistanceRoutes == ZeroDistanceCount(r.value.responses)
      && r.value.noRouteRoutes == NoRouteCount(r.value.responses))
  {
    if |routes| == 0 then Success(Routed([], [], 0, 0))
    else
      var n := |routes| - 1;
      var before := QueryRoutes(d, snapping, routes[..n], replies[..n]);
      if before.Failure? then Failure(before.error)
      else
        var response := QueryRoute(d, snapping, routes[n].points, replies[n]);
        if response.Failure? then Failure(response.error)
        else
          var out := Extend(before.value, routes[n], response.value);
          AppliedExtend(d, snapping, routes, replies, before.value, response.value);
          assert out.responses[..n] == before.value.responses;
          Success(out)
  }

  /** The run succeeds exactly when every route's reply can be processed. */
  lemma {:induction false} QueryRoutesSucceeds(d: Measure, snapping: Snapping, routes: seq<Route>, replies: seq<Reply>)
    requires |replies| == |routes|
    ensures QueryRoutes(d, snapping, routes, replies).Success? <==> forall k :: 0 <= k < |routes| ==> QueryRoute(d, snapping, routes[k].points, replies[k]).Success?
    decreases |routes|
  {
    if |routes| > 0 {
      var n := |routes| - 1;
      QueryRoutesSucceedsLast(d, snapping, routes, replies);
      QueryRoutesSucceeds(d, snapping, routes[..n], replies[..n]);
      assert forall k :: 0 <= k < n ==> routes[..n][k] == routes[k] && replies[..n][k] == replies[k];
    }
  }

  lemma QueryRoutesSucceedsLast(d: Measure, snapping: Snapping, routes: seq<Route>, replies: seq<Reply>)
    requires |replies| == |routes| > 0
    ensures var n := |routes| - 1;
      QueryRoutes(d, snapping, routes, replies).Success? <==>
        QueryRoutes(d, snapping, routes[..n], replies[..n]).Success? && QueryRoute(d, snapping, routes[n].points, replies[n]).Success?
  {
  }

  /** The counts never exceed the number of routes, and each is zero
      exactly when no response carries its flag. */
  lemma {:induction false} CountsBounded(rs: seq<Response>)
    ensures ZeroDistanceCount(rs) <= |rs| && NoRouteCount(rs) <= |rs|
    ensures NoRouteCount(rs) == 0 <==> forall k :: 0 <= k < |rs| ==> !rs[k].noRoute
    ensures ZeroDistanceCount(rs) == 0 <==> forall k :: 0 <= k < |rs| ==> !rs[k].zeroDistance
  {
    if |rs| > 0 {
      var n := |rs| - 1;
      CountsBounded(rs[..n]);
      assert forall k :: 0 <= k < n ==> rs[..n][k] == rs[k];
    }
  }
}

=== FILE: pointmode.dfy ===
/** The point mode of nextplot (nextplot/point.py) below its rendering:
    numbering of the point groups and the pairwise distance statistics. */
module PointMode {
  import opened Geometry
  import opened Seqs
  import opened Reals

  /** Point groups are numbered 1 .. n in input order. */
  function GroupNumbers(n: nat): (r: seq<nat>)
    ensures |r| == n
    ensures forall i :: 0 <= i < n ==> r[i] == i + 1
    ensures forall i, j :: 0 <= i < j < n ==> 1 <= r[i] < r[j] <= n
  {
    seq(n, i requires 0 <= i < n => i + 1)
  }

  /** The largest finite double, the initial minimum of the scan. */
  const FloatMax: real := 179769313486231570814527423731704356798070567525844996598917476803157260780028538760589558632766878171540458953514382464234321326889464182768467546703537516986049910576551282076245490090389328944075868508455133942304583236903222948165808559332123348274797826204144723168738177180919299881250404026184124858368.0

  /** The first column row i visits: as written each point is paired with
      itself and every later point; otherwise only with the later ones. */
  function First(withSelf: bool, i: nat): nat {
    if withSelf then i else i + 1
  }

  predicate Visited(withSelf: bool, i: nat, j: nat) {
    First(withSelf, i) <= j
  }

  /** The number of pairs visited in the first `rows` rows. */
  function RowsTotal(n: nat, withSelf: bool, rows: nat): nat {
    if rows == 0 then 0
    else RowsTotal(n, withSelf, rows - 1) + (if First(withSelf, rows - 1) <= n then n - First(withSelf, rows - 1) else 0)
  }

  lemma RowsTotalClosed(n: nat, withSelf: bool, rows: nat)
    requires rows <= n
    ensures withSelf ==> 2 * RowsTotal(n, withSelf, rows) == rows * (2 * n + 1 - rows)
    ensures !withSelf ==> 2 * RowsTotal(n, withSelf, rows) == rows * (2 * n - 1 - rows)
  {
    if withSelf {
      RowsWithSelf(n, rows);
    } else {
      RowsWithoutSelf(n, rows);
    }
  }

  lemma {:induction false} RowsWithSelf(n: nat, rows: nat)
    requires rows <= n
    ensures 2 * RowsTotal(n, true, rows) == rows * (2 * n + 1 - rows)
    decreases rows
  {
    if rows > 0 {
      RowsWithSelf(n, rows - 1);
      assert RowsTotal(n, true, rows) == RowsTotal(n, true, rows - 1) + (n - (rows - 1));
      ClosedStep(n, rows, 1);
    }
  }

  lemma {:induction false} RowsWithoutSelf(n: nat, rows: nat)
    requires rows <= n
    ensures 2 * RowsTotal(n, false, rows) == rows * (2 * n - 1 - rows)
    decreases rows
  {
    if rows > 0 {
      RowsWithoutSelf(n, rows - 1);
      assert RowsTotal(n, false, rows) == RowsTotal(n, false, rows - 1) + (n - rows);
      ClosedStep(n, rows, -1);
    }
  }

  /** All rows of n points: n(n+1)/2 pairs with the self-pairs, n(n-1)/2 without. */
  lemma PairCounts(n: nat)
    ensures 2 * RowsTotal(n, true, n) == n * (n + 1)
    ensures 2 * RowsTotal(n, false, n) == n * (n - 1)
  {
    RowsWithSelf(n, n);
    RowsWithoutSelf(n, n);
    assert 2 * n + 1 - n == n + 1 && 2 * n - 1 - n == n - 1;
  }

  /** Twice the pairs of row r - 1 carry the closed form from r - 1 rows to r. */
  lemma ClosedStep(n: int, r: int, c: int)
    requires c == 1 || c == -1
    ensures (r - 1) * (2 * n + c - (r - 1)) + (2 * n + c + 1 - 2 * r) == r * (2 * n + c - r)
  {
  }

  /** The sum of the distances row i visits in columns j .. n-1. */
  function RowSum(d: Measure, ps: seq<Position>, i: nat, j: nat): real
    requires i < |ps| && j <= |ps|
    decreases |ps| - j
  {
    if j == |ps| then 0.0 else Dist(d, ps[i], ps[j]) + RowSum(d, ps, i, j + 1)
  }

  /** The sum of the distances of all pairs that rows i .. n-1 visit. */
  function VisitedSum(d: Measure, ps: seq<Position>, withSelf: bool, i: nat): real
    requires i <= |ps|
    decreases |ps| - i
  {
    if i == |ps| then 0.0 else RowSum(d, ps, i, First(withSelf, i)) + VisitedSum(d, ps, withSelf, i + 1)
  }

  /** The sum of the distances of every visited pair: what `agg` should end as. */
  function PairSum(d: Measure, ps: seq<Position>, withSelf: bool): real {
    VisitedSum(d, ps, withSelf, 0)
  }

  /** Under a measure the self-pairs add nothing: as written the sum is the
      same as over distinct pairs, only divided by more pairs. */
  lemma {:induction false} SelfPairsAddNothing(d: Measure, ps: seq<Position>, i: nat)
    requires IsMeasure(d) && i <= |ps|
    ensures VisitedSum(d, ps, true, i) == VisitedSum(d, ps, false, i)
    ensures i == 0 ==> PairSum(d, ps, true) == PairSum(d, ps, false)
    decreases |ps| - i
  {
    if i < |ps| {
      SelfPairsAddNothing(d, ps, i + 1);
      assert RowSum(d, ps, i, i) == Dist(d, ps[i], ps[i]) + RowSum(d, ps, i, i + 1);
    }
  }

  /** c copies of x added up; kept apart from the product so that the
      scan's invariant stays linear. */
  function Times(c: nat, x: real): real {
    if c == 0 then 0.0 else Times(c - 1, x) + x
  }

  lemma {:induction false} TimesMonotone(c: nat, a: real, b: real)
    requires a <= b
    ensures Times(c, a) <= Times(c, b)
    decreases c
  {
    if c > 0 {
      TimesMonotone(c - 1, a, b);
    }
  }

  lemma {:induction false} TimesIsProduct(c: nat, x: real)
    ensures Times(c, x) == c as real * x
    decreases c
  {
    if c > 0 {
      TimesIsProduct(c - 1, x);
      assert c as real * x == (c - 1) as real * x + x;
    }
  }

  /** One step of the scan keeps count * min <= agg <= count * max. */
  lemma AggregateStep(count: nat, agg: real, min: real, max: real, dist: real, lo: real, hi: real)
    requires Times(count, min) <= agg <= Times(count, max)
    requires lo <= min && lo <= dist && max <= hi && dist <= hi
    ensures Times(count + 1, lo) <= agg + dist <= Times(count + 1, hi)
  {
    TimesMonotone(count, lo, min);
    TimesMonotone(count, max, hi);
  }

  /** The running figures of the pair scan. */
  datatype Scan = Scan(count: nat, min: real, max: real, agg: real)

  /** Figures consistent with any sequence of visited distances: the sum
      lies between count times the minimum and count times the maximum. */
  predicate Consistent(s: Scan) {
    && s.max >= 0.0 && s.min <= FloatMax
    && Times(s.count, s.min) <= s.agg <= Times(s.count, s.max)
    && (s.count == 0 ==> s.min == FloatMax && s.agg == 0.0)
  }

  /** The extremes are initial values or distances of visited pairs. */
  predicate Attained(d: Measure, ps: seq<Position>, withSelf: bool, s: Scan) {
    && (s.max == 0.0 || exists a, b :: 0 <= a < |ps| && 0 <= b < |ps| && Visited(withSelf, a, b) && Dist(d, ps[a], ps[b]) == s.max)
    && (s.min == FloatMax || exists a, b :: 0 <= a < |ps| && 0 <= b < |ps| && Visited(withSelf, a, b) && Dist(d, ps[a], ps[b]) == s.min)
  }

  /** Visiting one more pair. */
  function Step(s: Scan, dist: real): (r: Scan)
    requires Consistent(s)
    ensures Consistent(r) && r.count == s.count + 1 && r.agg == s.agg + dist
    ensures r.min <= s.min && s.max <= r.max && r.min <= dist <= r.max
    ensures (r.min == s.min || r.min == dist) && (r.max == s.max || r.max == dist)
  {
    var lo := if s.min > dist then dist else s.min;
    var hi := if s.max < dist then dist else s.max;
    StepConsistent(s, dist, lo, hi);
    Scan(s.count + 1, lo, hi, s.agg + dist)
  }

  lemma StepConsistent(s: Scan, dist: real, lo: real, hi: real)
    requires Consistent(s)
    requires lo <= s.min && lo <= dist && s.max <= hi && dist <= hi && lo <= FloatMax
    ensures Consistent(Scan(s.count + 1, lo, hi, s.agg + dist))
  {
    AggregateStep(s.count, s.agg, s.min, s.max, dist, lo, hi);
  }

  lemma AttainedStep(d: Measure, ps: seq<Position>, withSelf: bool, s: Scan, i: nat, j: nat)
    requires Consistent(s) && Attained(d, ps, withSelf, s)
    requires i < |ps| && j < |ps| && Visited(withSelf, i, j)
    ensures Attained(d, ps, withSelf, Step(s, Dist(d, ps[i], ps[j])))
  {
  }

  /** Row i's pairs with columns from..to-1 lie between the scan's extremes. */
  predicate RowWithin(d: Measure, ps: seq<Position>, i: nat, from: nat, to: nat, s: Scan)
    requires i < |ps| && to <= |ps|
  {
    forall b :: from <= b < to ==> s.min <= Dist(d, ps[i], ps[b]) <= s.max
  }

  /** The visited pairs of the first `rows` rows lie between the scan's extremes. */
  predicate RowsWithin(d: Measure, ps: seq<Position>, withSelf: bool, rows: nat, s: Scan)
    requires rows <= |ps|
  {
    forall a, b :: 0 <= a < rows && 0 <= b < |ps| && Visited(withSelf, a, b) ==> s.min <= Dist(d, ps[a], ps[b]) <= s.max
  }

  /** Visiting pair (i, j) keeps the row's invariant. */
  lemma RowStep(d: Measure, ps: seq<Position>, withSelf: bool, i: nat, j: nat, s0: Scan, s: Scan)
    requires i < |ps| && First(withSelf, i) <= j < |ps|
    requires Consistent(s) && Attained(d, ps, withSelf, s)
    requires s.min <= s0.min && s0.max <= s.max && RowWithin(d, ps, i, First(withSelf, i), j, s)
    ensures var t := Step(s, Dist(d, ps[i], ps[j]));
      && Attained(d, ps, withSelf, t) && t.min <= s0.min && s0.max <= t.max
      && RowWithin(d, ps, i, First(withSelf, i), j + 1, t)
  {
    assert Visited(withSelf, i, j);
    AttainedStep(d, ps, withSelf, s, i, j);
    var t := Step(s, Dist(d, ps[i], ps[j]));
    forall b | First(withSelf, i) <= b <= j
      ensures t.min <= Dist(d, ps[i], ps[b]) <= t.max
    {
      if b < j {
        assert s.min <= Dist(d, ps[i], ps[b]) <= s.max;
      }
    }
  }

  /** A finished row extends the invariant of the rows before it. */
  lemma RowsStep(d: Measure, ps: seq<Position>, withSelf: bool, i: nat, s: Scan, t: Scan)
    requires i < |ps| && RowsWithin(d, ps, withSelf, i, s)
    requires t.min <= s.min && s.max <= t.max && RowWithin(d, ps, i, First(withSelf, i), |ps|, t)
    ensures RowsWithin(d, ps, withSelf, i + 1, t)
  {
    forall a, b | 0 <= a <= i && 0 <= b < |ps| && Visited(withSelf, a, b)
      ensures t.min <= Dist(d, ps[a], ps[b]) <= t.max
    {
      if a < i {
        assert s.min <= Dist(d, ps[a], ps[b]) <= s.max;
      }
    }
  }

  /** What row i has established once columns up to j-1 are visited,
      starting from the scan s0 of the rows before it. */
  predicate RowScanned(d: Measure, ps: seq<Position>, withSelf: bool, i: nat, j: nat, s0: Scan, s: Scan)
    requires i < |ps| && First(withSelf, i) <= j <= |ps|
  {
    && Consistent(s) && Attained(d, ps, withSelf, s)
    && s.count == s0.count + (j - First(withSelf, i))
    && s.agg + RowSum(d, ps, i, j) == s0.agg + RowSum(d, ps, i, First(withSelf, i))
    && s.min <= s0.min && s0.max <= s.max
    && RowWithin(d, ps, i, First(withSelf, i), j, s)
  }

  /** Visiting column j extends what the row has established. */
  lemma RowScannedStep(d: Measure, ps: seq<Position>, withSelf: bool, i: nat, j: nat, s0: Scan, s: Scan)
    requires i < |ps| && First(withSelf, i) <= j < |ps| && RowScanned(d, ps, withSelf, i, j, s0, s)
    ensures RowScanned(d, ps, withSelf, i, j + 1, s0, Step(s, Dist(d, ps[i], ps[j])))
  {
    RowStep(d, ps, withSelf, i, j, s0, s);
  }

  /** One row of the scan: pairs (i, j) for j from the row's first column;
      it adds the row's distances to the sum and widens min and max to them. */
  method ScanRow(d: Measure, ps: seq<Position>, withSelf: bool, i: nat, s0: Scan) returns (s: Scan)
    requires i < |ps| && Consistent(s0) && Attained(d, ps, withSelf, s0)
    ensures RowScanned(d, ps, withSelf, i, |ps|, s0, s)
  {
    s := s0;
    var j := First(withSelf, i);
    while j < |ps|
      invariant First(withSelf, i) <= j <= |ps| && RowScanned(d, ps, withSelf, i, j, s0, s)
    {
      RowScannedStep(d, ps, withSelf, i, j, s0, s);
      s := Step(s, Dist(d, ps[i], ps[j]));
      j := j + 1;
    }
  }

  /** What the scan has established after the first `rows` rows. */
  predicate Scanned(d: Measure, ps: seq<Position>, withSelf: bool, rows: nat, s: Scan)
    requires rows <= |ps|
  {
    && Consistent(s) && Attained(d, ps, withSelf, s)
    && s.count == RowsTotal(|ps|, withSelf, rows)
    && s.agg + VisitedSum(d, ps, withSelf, rows) == PairSum(d, ps, withSelf)
    && RowsWithin(d, ps, withSelf, rows, s)
  }

  /** A scanned row extends what the rows before it established. */
  lemma ScannedStep(d: Measure, ps: seq<Position>, withSelf: bool, i: nat, s: Scan, t: Scan)
    requires i < |ps| && Scanned(d, ps, withSelf, i, s) && RowScanned(d, ps, withSelf, i, |ps|, s, t)
    ensures Scanned(d, ps, withSelf, i + 1, t)
  {
    RowsStep(d, ps, withSelf, i, s, t);
    TotalsStep(d, ps, withSelf, i, s, t);
  }

  /** The count and the sum after row i. */
  lemma TotalsStep(d: Measure, ps: seq<Position>, withSelf: bool, i: nat, s: Scan, t: Scan)
    requires i < |ps| && s.count == RowsTotal(|ps|, withSelf, i)
    requires s.agg + VisitedSum(d, ps, withSelf, i) == PairSum(d, ps, withSelf)
    requires t.count == s.count + (|ps| - First(withSelf, i))
    requires t.agg + RowSum(d, ps, i, |ps|) == s.agg + RowSum(d, ps, i, First(withSelf, i))
    ensures t.count == RowsTotal(|ps|, withSelf, i + 1)
    ensures t.agg + VisitedSum(d, ps, withSelf, i + 1) == PairSum(d, ps, withSelf)
  {
  }

  /** After the last row the scan has counted and added up every visited pair. */
  lemma ScannedAll(d: Measure, ps: seq<Position>, withSelf: bool, s: Scan)
    requires Scanned(d, ps, withSelf, |ps|, s)
    ensures s.count == RowsTotal(|ps|, withSelf, |ps|)
    ensures s.agg == PairSum(d, ps, withSelf)
    ensures Consistent(s) && Attained(d, ps, withSelf, s)
    ensures forall i, j :: 0 <= i < |ps| && 0 <= j < |ps| && Visited(withSelf, i, j) ==>
      s.min <= Dist(d, ps[i], ps[j]) <= s.max
  {
  }

  /** The pair scan of `statistics`: counts the visited pairs, adds up their
      distances and keeps the largest (from 0) and the smallest (from the
      largest double). */
  method PairScan(d: Measure, ps: seq<Position>, withSelf: bool) returns (s: Scan)
    ensures s.count == RowsTotal(|ps|, withSelf, |ps|)
    ensures s.agg == PairSum(d, ps, withSelf)
    ensures Consistent(s) && Attained(d, ps, withSelf, s)
    ensures forall i, j :: 0 <= i < |ps| && 0 <= j < |ps| && Visited(withSelf, i, j) ==>
      s.min <= Dist(d, ps[i], ps[j]) <= s.max
  {
    s := Scan(0, FloatMax, 0.0, 0.0);
    var i := 0;
    while i < |ps|
      invariant 0 <= i <= |ps| && Scanned(d, ps, withSelf, i, s)
    {
      var t := ScanRow(d, ps, withSelf, i, s);
      ScannedStep(d, ps, withSelf, i, s, t);
      s := t;
      i := i + 1;
    }
    ScannedAll(d, ps, withSelf, s);
  }

  datatype PointStats = PointStats(npoints: nat, count: nat, min: real, max: real, avg: real)

  /** The figures from a scan: the minimum falls back to 0 when it never
      left its initial value, and the mean is 0 without any pair. */
  function Finish(npoints: nat, scan: Scan): (s: PointStats)
    requires Consistent(scan)
    ensures s.npoints == npoints && s.count == scan.count && s.max == scan.max
    ensures s.min == if scan.min == FloatMax then 0.0 else scan.min
    ensures scan.count == 0 ==> s.avg == 0.0 && s.min == 0.0
    ensures scan.count > 0 ==> s.avg == scan.agg / scan.count as real
    ensures scan.count > 0 ==> scan.min <= s.avg <= scan.max
  {
    var avg := if scan.count > 0 then scan.agg / scan.count as real else 0.0;
    MeanWithin(scan.agg, scan.count, scan.min, scan.max);
    PointStats(npoints, scan.count, if scan.min == FloatMax then 0.0 else scan.min, scan.max, avg)
  }

  lemma MeanWithin(agg: real, count: nat, min: real, max: real)
    requires Times(count, min) <= agg <= Times(count, max)
    ensures count > 0 ==> min <= agg / count as real <= max
  {
    if count > 0 {
      TimesIsProduct(count, min);
      TimesIsProduct(count, max);
      QuotientBetween(agg, count as real, min, max);
    }
  }

  /** `statistics` as written: every point is also paired with itself, so
      n(n+1)/2 pairs are counted and, for any measure with d(p, p) = 0,
      the minimum distance reported for a non-empty input is 0. */
  method StatisticsAsWritten(d: Measure, groups: seq<seq<Position>>) returns (s: PointStats)
    ensures s.npoints == |Flatten(groups)|
    ensures 2 * s.count == s.npoints * (s.npoints + 1)
    ensures s.count > 0 ==> s.avg == PairSum(d, Flatten(groups), true) / s.count as real
    ensures s.count == 0 ==> s.avg == 0.0
    ensures s.max >= 0.0
    ensures forall i, j :: 0 <= i <= j < s.npoints ==> Dist(d, Flatten(groups)[i], Flatten(groups)[j]) <= s.max
    ensures s.max == 0.0 || exists i, j :: 0 <= i <= j < s.npoints && Dist(d, Flatten(groups)[i], Flatten(groups)[j]) == s.max
    ensures IsMeasure(d) && s.npoints > 0 ==> s.min == 0.0
    ensures s.npoints == 0 ==> s.min == 0.0
  {
    var ps := Flatten(groups);
    var scan := PairScan(d, ps, true);
    s := Finish(|ps|, scan);
    FinishCount(|ps|, true, scan);
    OrderedMaximum(d, ps, scan);
    if IsMeasure(d) && |ps| > 0 {
      assert Visited(true, 0, 0);
      assert scan.min <= Dist(d, ps[0], ps[0]) == 0.0;
    }
  }

  /** The pair count a finished scan reports for n points. */
  lemma FinishCount(n: nat, withSelf: bool, scan: Scan)
    requires Consistent(scan) && scan.count == RowsTotal(n, withSelf, n)
    ensures var s := Finish(n, scan);
      && (withSelf ==> 2 * s.count == s.npoints * (s.npoints + 1))
      && (!withSelf ==> 2 * s.count == s.npoints * (s.npoints - 1))
      && (!withSelf && n < 2 ==> s.count == 0)
  {
    PairCounts(n);
    if !withSelf && n < 2 {
      assert n * (n - 1) == 0;
    }
  }

  /** With self-pairs the maximum bounds every pair i <= j and is 0 or one of them. */
  lemma OrderedMaximum(d: Measure, ps: seq<Position>, scan: Scan)
    requires Attained(d, ps, true, scan)
    requires forall i, j :: 0 <= i < |ps| && 0 <= j < |ps| && Visited(true, i, j) ==> Dist(d, ps[i], ps[j]) <= scan.max
    ensures forall i, j :: 0 <= i <= j < |ps| ==> Dist(d, ps[i], ps[j]) <= scan.max
    ensures scan.max == 0.0 || exists i, j :: 0 <= i <= j < |ps| && Dist(d, ps[i], ps[j]) == scan.max
  {
    forall i, j | 0 <= i <= j < |ps|
      ensures Dist(d, ps[i], ps[j]) <= scan.max
    {
      assert Visited(true, i, j);
    }
    if scan.max != 0.0 {
      var a, b :| 0 <= a < |ps| && 0 <= b < |ps| && Visited(true, a, b) && Dist(d, ps[a], ps[b]) == scan.max;
      assert a <= b;
    }
  }

  /** Over distinct pairs the maximum bounds every pair i < j and is 0 or one of them. */
  lemma DistinctMaximum(d: Measure, ps: seq<Position>, scan: Scan)
    requires Attained(d, ps, false, scan)
    requires forall i, j :: 0 <= i < |ps| && 0 <= j < |ps| && Visited(false, i, j) ==> Dist(d, ps[i], ps[j]) <= scan.max
    ensures forall i, j :: 0 <= i < j < |ps| ==> Dist(d, ps[i], ps[j]) <= scan.max
    ensures scan.max == 0.0 || exists i, j :: 0 <= i < j < |ps| && Dist(d, ps[i], ps[j]) == scan.max
  {
    forall i, j | 0 <= i < j < |ps|
      ensures Dist(d, ps[i], ps[j]) <= scan.max
    {
      assert Visited(false, i, j);
    }
    if scan.max != 0.0 {
      var a, b :| 0 <= a < |ps| && 0 <= b < |ps| && Visited(false, a, b) && Dist(d, ps[a], ps[b]) == scan.max;
      assert a < b;
    }
  }

  /** Distances of pairs of distinct points below the largest double. */
  predicate Finite(d: Measure, ps: seq<Position>) {
    forall i, j :: 0 <= i < j < |ps| ==> Dist(d, ps[i], ps[j]) < FloatMax
  }

  /** With at least two points, the scan over distinct pairs leaves its
      initial minimum behind for the smallest distance it saw. */
  lemma DistinctMinimum(d: Measure, ps: seq<Position>, scan: Scan)
    requires Consistent(scan) && Attained(d, ps, false, scan) && Finite(d, ps) && |ps| >= 2
    requires forall i, j :: 0 <= i < |ps| && 0 <= j < |ps| && Visited(false, i, j) ==> scan.min <= Dist(d, ps[i], ps[j])
    ensures scan.min < FloatMax
    ensures forall i, j :: 0 <= i < j < |ps| ==> scan.min <= Dist(d, ps[i], ps[j])
    ensures exists i, j :: 0 <= i < j < |ps| && Dist(d, ps[i], ps[j]) == scan.min
  {
    assert Visited(false, 0, 1);
    forall i, j | 0 <= i < j < |ps|
      ensures scan.min <= Dist(d, ps[i], ps[j])
    {
      assert Visited(false, i, j);
    }
    var i, j :| 0 <= i < |ps| && 0 <= j < |ps| && Visited(false, i, j) && Dist(d, ps[i], ps[j]) == scan.min;
    assert i < j;
  }

  /** `statistics` over pairs of distinct points: n(n-1)/2 pairs, and the
      reported minimum is the smallest distance between two different
      points (while distances stay below the largest double). */
  method Statistics(d: Measure, groups: seq<seq<Position>>) returns (s: PointStats)
    ensures s.npoints == |Flatten(groups)|
    ensures 2 * s.count == s.npoints * (s.npoints - 1)
    ensures s.max >= 0.0
    ensures forall i, j :: 0 <= i < j < s.npoints ==> Dist(d, Flatten(groups)[i], Flatten(groups)[j]) <= s.max
    ensures Finite(d, Flatten(groups)) && s.npoints >= 2 ==>
      (forall i, j :: 0 <= i < j < s.npoints ==> s.min <= Dist(d, Flatten(groups)[i], Flatten(groups)[j]))
      && (exists i, j :: 0 <= i < j < s.npoints && Dist(d, Flatten(groups)[i], Flatten(groups)[j]) == s.min)
    ensures s.max == 0.0 || exists i, j :: 0 <= i < j < s.npoints && Dist(d, Flatten(groups)[i], Flatten(groups)[j]) == s.max
    ensures s.count > 0 ==> s.avg == PairSum(d, Flatten(groups), false) / s.count as real
    ensures s.npoints < 2 ==> s.min == 0.0 && s.avg == 0.0
    ensures s.count > 0 ==> s.min <= s.avg <= s.max
  {
    var ps := Flatten(groups);
    var scan := PairScan(d, ps, false);
    s := Finish(|ps|, scan);
    FinishCount(|ps|, false, scan);
    DistinctMaximum(d, ps, scan);
    DistinctMinimumReported(d, ps, scan);
  }

  /** The minimum `Finish` reports for a scan over distinct pairs. */
  lemma DistinctMinimumReported(d: Measure, ps: seq<Position>, scan: Scan)
    requires Consistent(scan) && Attained(d, ps, false, scan)
    requires forall i, j :: 0 <= i < |ps| && 0 <= j < |ps| && Visited(false, i, j) ==> scan.min <= Dist(d, ps[i], ps[j])
    ensures Finite(d, ps) && |ps| >= 2 ==>
      (forall i, j :: 0 <= i < j < |ps| ==> Finish(|ps|, scan).min <= Dist(d, ps[i], ps[j]))
      && (exists i, j :: 0 <= i < j < |ps| && Dist(d, ps[i], ps[j]) == Finish(|ps|, scan).min)
  {
    if Finite(d, ps) && |ps| >= 2 {
      DistinctMinimum(d, ps, scan);
    }
  }
}

=== FILE: progression.dfy ===
/** Duration strings and the common-prefix helper of the progression mode
    (nextplot/progression.py). A duration such as "1h30m" is read as a
    series of (number, unit) tokens; the result is given in microseconds
    as an exact real. */
module Progression {
  import opened Results

  const Nanosecond: int := 1
  const Microsecond: int := 1000 * Nanosecond
  const Millisecond: int := 1000 * Microsecond
  const Second: int := 1000 * Millisecond
  const Minute: int := 60 * Second
  const Hour: int := 60 * Minute
  const Day: int := 24 * Hour
  const Week: int := 7 * Day
  const Month: int := 30 * Day
  const Year: int := 365 * Day

  const MicroSign: char := '\U{B5}'
  const Mu: char := '\U{3BC}'

  /** The unit table, in nanoseconds: "ns", "us" (also written with a
      micro sign or a Greek mu), "ms", "s", "m", "h", "d", "w", "mm", "y".
      Looked up character by character. */
  function UnitSize(u: string): (r: Option<int>)
    ensures r.Some? ==> r.value >= Nanosecond && 1 <= |u| <= 2
  {
    if |u| == 1 then
      match u[0]
      case 's' => Some(Second)
      case 'm' => Some(Minute)
      case 'h' => Some(Hour)
      case 'd' => Some(Day)
      case 'w' => Some(Week)
      case 'y' => Some(Year)
      case _ => None
    else if |u| == 2 && u[1] == 's' then
      if u[0] == 'n' then Some(Nanosecond)
      else if u[0] == 'u' || u[0] == MicroSign || u[0] == Mu then Some(Microsecond)
      else if u[0] == 'm' then Some(Millisecond)
      else None
    else if |u| == 2 && u[0] == 'm' && u[1] == 'm' then Some(Month)
    else None
  }

  /** Each unit of the table in terms of the next smaller one. */
  lemma UnitLadder()
    ensures UnitSize("us") == UnitSize([MicroSign, 's']) == UnitSize([Mu, 's']) == Some(1000)
    ensures UnitSize("ms") == Some(1000 * 1000) && UnitSize("s") == Some(1000 * 1000 * 1000)
    ensures UnitSize("m") == Some(60 * Second) && UnitSize("h") == Some(60 * Minute)
    ensures UnitSize("d") == Some(24 * Hour) && UnitSize("w") == Some(7 * Day)
    ensures UnitSize("mm") == Some(30 * Day) && UnitSize("y") == Some(365 * Day)
    ensures UnitSize("M") == None && UnitSize("") == None && UnitSize("sec") == None
  {
  }

  /** Characters of the number part (`[\d\.]`) and of the unit part (`[a-zµμ]`). */
  predicate IsDigit(c: char) { '0' <= c <= '9' }
  predicate IsNumberChar(c: char) { IsDigit(c) || c == '.' }
  predicate IsUnitChar(c: char) { 'a' <= c <= 'z' || c == MicroSign || c == Mu }

  /** Length of the longest prefix of number characters. */
  function NumberRun(s: string): (n: nat)
    ensures n <= |s| && (n < |s| ==> !IsNumberChar(s[n]))
    ensures forall i :: 0 <= i < n ==> IsNumberChar(s[i])
  {
    if |s| == 0 || !IsNumberChar(s[0]) then 0 else 1 + NumberRun(s[1..])
  }

  /** Length of the longest prefix of unit characters. */
  function UnitRun(s: string): (n: nat)
    ensures n <= |s| && (n < |s| ==> !IsUnitChar(s[n]))
    ensures forall i :: 0 <= i < n ==> IsUnitChar(s[i])
  {
    if |s| == 0 || !IsUnitChar(s[0]) then 0 else 1 + UnitRun(s[1..])
  }

  datatype Token = Token(value: string, unit: string)

  predicate WellFormed(t: Token) {
    && |t.value| > 0 && (forall i :: 0 <= i < |t.value| ==> IsNumberChar(t.value[i]))
    && |t.unit| > 0 && (forall i :: 0 <= i < |t.unit| ==> IsUnitChar(t.unit[i]))
  }

  /** A token found at the start of a text and the length it covers. */
  datatype Match = Found(token: Token, end: nat) | NoMatch

  /** A match of `([\d\.]+)([a-zµμ]+)` at the start of `s`: a maximal run
      of number characters followed by a maximal run of unit characters.
      Gives the token and the length it covers. */
  function MatchAt(s: string): (r: Match)
    ensures r.Found? ==> WellFormed(r.token) && 0 < r.end <= |s|
    ensures r.Found? ==> NumberRun(s) < r.end && r.token == Token(s[..NumberRun(s)], s[NumberRun(s)..r.end])
    ensures r.Found? <==> 0 < NumberRun(s) < |s| && IsUnitChar(s[NumberRun(s)])
    ensures r.Found? ==> r.end == NumberRun(s) + UnitRun(s[NumberRun(s)..])
  {
    var j := NumberRun(s);
    if j > 0 && j < |s| && IsUnitChar(s[j]) then
      var k := j + UnitRun(s[j..]);
      Found(Token(s[..j], s[j..k]), k)
    else NoMatch
  }

  /** The matches of the pattern, left to right; where no match starts the
      scan moves on by one character. */
  function Tokens(s: string): (r: seq<Token>)
    ensures forall k :: 0 <= k < |r| ==> WellFormed(r[k])
    decreases |s|
  {
    if |s| == 0 then []
    else
      match MatchAt(s)
      case Found(t, k) => [t] + Tokens(s[k..])
      case NoMatch => Tokens(s[1..])
  }

  /** A character that belongs to no token. */
  predicate IsSeparator(c: char) { !IsNumberChar(c) && !IsUnitChar(c) }

  lemma {:induction false} NumberRunStops(a: string, b: string)
    requires |a| > 0 && IsSeparator(a[|a| - 1])
    ensures NumberRun(a + b) == NumberRun(a) < |a|
    decreases |a|
  {
    if |a| > 1 && IsNumberChar(a[0]) {
      assert (a + b)[1..] == a[1..] + b;
      NumberRunStops(a[1..], b);
    }
  }

  lemma {:induction false} UnitRunStops(a: string, b: string)
    requires |a| > 0 && IsSeparator(a[|a| - 1])
    ensures UnitRun(a + b) == UnitRun(a) < |a|
    decreases |a|
  {
    if |a| > 1 && IsUnitChar(a[0]) {
      assert (a + b)[1..] == a[1..] + b;
      UnitRunStops(a[1..], b);
    }
  }

  /** A match inside text that ends in a separator stops before it. */
  lemma MatchAtStops(a: string, b: string)
    requires |a| > 0 && IsSeparator(a[|a| - 1])
    ensures MatchAt(a + b) == MatchAt(a)
    ensures MatchAt(a).Found? ==> MatchAt(a).end < |a|
  {
    RunsStop(a, b);
    var j := NumberRun(a);
    if MatchAt(a).Found? {
      var r, q := MatchAt(a), MatchAt(a + b);
      assert q.Found? && q.end == r.end;
      assert q.token == r.token;
    }
  }

  /** Both runs of a text that ends in a separator stop inside it. */
  lemma RunsStop(a: string, b: string)
    requires |a| > 0 && IsSeparator(a[|a| - 1])
    ensures var j := NumberRun(a);
      && NumberRun(a + b) == j < |a| && (a + b)[j] == a[j] && (a + b)[..j] == a[..j]
      && (j > 0 && IsUnitChar(a[j]) ==>
            var k := j + UnitRun(a[j..]);
            k < |a| && UnitRun((a + b)[j..]) == UnitRun(a[j..]) && (a + b)[j..k] == a[j..k])
  {
    var s := a + b;
    NumberRunStops(a, b);
    var j := NumberRun(a);
    if j > 0 && IsUnitChar(a[j]) {
      assert a[j..] + b == s[j..];
      UnitRunStops(a[j..], b);
    }
  }

  /** Text that ends in a separator is tokenized on its own: the tokens of
      a concatenation are the tokens of its parts. */
  lemma {:induction false} TokensSplit(a: string, b: string)
    requires |a| > 0 && IsSeparator(a[|a| - 1])
    ensures Tokens(a + b) == Tokens(a) + Tokens(b)
    decreases |a|
  {
    var s := a + b;
    MatchAtStops(a, b);
    match MatchAt(a)
    case Found(t, k) =>
      assert s[k..] == a[k..] + b;
      TokensSplit(a[k..], b);
    case NoMatch =>
      if |a| == 1 {
        assert s[1..] == b;
      } else {
        assert s[1..] == a[1..] + b;
        TokensSplit(a[1..], b);
      }
  }

  /** A leading separator is skipped. */
  lemma TokensSkipSeparator(c: char, s: string)
    requires IsSeparator(c)
    ensures Tokens([c] + s) == Tokens(s)
  {
    assert ([c] + s)[1..] == s;
  }

  /** Tokens written back to back, each number directly followed by its
      unit, as in "1h30m". */
  function Render(ts: seq<Token>): string {
    if |ts| == 0 then "" else ts[0].value + ts[0].unit + Render(ts[1..])
  }

  /** A number run stops where the number characters end. */
  lemma {:induction false} NumberRunOver(a: string, b: string)
    requires forall i :: 0 <= i < |a| ==> IsNumberChar(a[i])
    requires |b| == 0 || !IsNumberChar(b[0])
    ensures NumberRun(a + b) == |a|
    decreases |a|
  {
    if |a| > 0 {
      assert (a + b)[1..] == a[1..] + b;
      NumberRunOver(a[1..], b);
    } else {
      assert a + b == b;
    }
  }

  /** A unit run stops where the unit characters end. */
  lemma {:induction false} UnitRunOver(a: string, b: string)
    requires forall i :: 0 <= i < |a| ==> IsUnitChar(a[i])
    requires |b| == 0 || !IsUnitChar(b[0])
    ensures UnitRun(a + b) == |a|
    decreases |a|
  {
    if |a| > 0 {
      assert (a + b)[1..] == a[1..] + b;
      UnitRunOver(a[1..], b);
    } else {
      assert a + b == b;
    }
  }

  /** Rendered tokens start with the first token's number. */
  lemma RenderStart(ts: seq<Token>)
    requires |ts| > 0 && WellFormed(ts[0])
    ensures |Render(ts)| >= 2 && IsNumberChar(Render(ts)[0]) && Render(ts)[0] == ts[0].value[0]
  {
  }

  /** Tokenizing tokens written back to back gives the tokens back. */
  lemma {:induction false} TokensOfRender(ts: seq<Token>)
    requires forall k :: 0 <= k < |ts| ==> WellFormed(ts[k])
    ensures Tokens(Render(ts)) == ts
    decreases |ts|
  {
    if |ts| > 0 {
      var more := ts[1..];
      assert forall k :: 0 <= k < |more| ==> more[k] == ts[k + 1];
      if |more| > 0 {
        RenderStart(more);
      }
      MatchAtRendered(ts[0], Render(more));
      TokensOfRender(more);
    }
  }

  /** A well-formed token followed by a number or nothing is matched whole. */
  lemma MatchAtRendered(t: Token, rest: string)
    requires WellFormed(t)
    requires |rest| == 0 || IsNumberChar(rest[0])
    ensures var s := t.value + t.unit + rest;
      MatchAt(s) == Found(t, |t.value| + |t.unit|) && s[|t.value| + |t.unit|..] == rest
  {
    var s := t.value + t.unit + rest;
    var j := |t.value|;
    var u := |t.unit|;
    assert s == t.value + (t.unit + rest);
    NumberRunOver(t.value, t.unit + rest);
    assert s[j..] == t.unit + rest;
    UnitRunOver(t.unit, rest);
    var r := MatchAt(s);
    assert r.Found? && r.end == j + u;
    assert s[..j] == t.value && s[j..j + u] == t.unit && s[j + u..] == rest;
    assert r.token == t;
  }

  function DigitOf(c: char): (v: nat)
    requires IsDigit(c)
    ensures v <= 9
  {
    c as int - '0' as int
  }

  /** The value of a run of decimal digits. */
  function DigitsValue(ds: string): (v: nat)
    requires forall i :: 0 <= i < |ds| ==> IsDigit(ds[i])
  {
    if |ds| == 0 then 0 else DigitsValue(ds[..|ds| - 1]) * 10 + DigitOf(ds[|ds| - 1])
  }

  /** The value of digits written after a decimal point. */
  function FractionValue(ds: string): (v: real)
    requires forall i :: 0 <= i < |ds| ==> IsDigit(ds[i])
    ensures 0.0 <= v < 1.0
  {
    if |ds| == 0 then 0.0 else (DigitOf(ds[0]) as real + FractionValue(ds[1..])) / 10.0
  }

  predicate AllDigits(s: string) { forall i :: 0 <= i < |s| ==> IsDigit(s[i]) }

  /** No two decimal points. */
  predicate AtMostOneDot(v: string) {
    forall i, j :: 0 <= i < j < |v| && v[i] == '.' ==> v[j] != '.'
  }

  /** `float(value)` on a run of digits and points: at most one point and
      at least one digit, read as a decimal number. */
  function ParseNumber(v: string): (r: Option<real>)
    requires forall i :: 0 <= i < |v| ==> IsNumberChar(v[i])
    ensures r.Some? ==> r.value >= 0.0
    ensures r.Some? <==> |v| > 0 && v != "." && AtMostOneDot(v)
    ensures AllDigits(v) && |v| > 0 ==> r == Some(DigitsValue(v) as real)
  {
    if '.' !in v then
      assert AllDigits(v) by {
        forall i | 0 <= i < |v|
          ensures IsDigit(v[i])
        {
          assert v[i] in v;
          assert IsNumberChar(v[i]) && v[i] != '.';
        }
      }
      if |v| == 0 then None else Some(DigitsValue(v) as real)
    else
      var i := DotIndex(v);
      var whole := v[..i];
      var fraction := v[i + 1..];
      DotsAfterPoint(v, i);
      if !AllDigits(fraction) || |whole| + |fraction| == 0 then None
      else Some(DigitsValue(whole) as real + FractionValue(fraction))
  }

  /** With digits before a point, the text after it is all digits exactly
      when there is no second point. */
  lemma DotsAfterPoint(v: string, i: nat)
    requires forall k :: 0 <= k < |v| ==> IsNumberChar(v[k])
    requires i < |v| && v[i] == '.' && AllDigits(v[..i])
    ensures AllDigits(v[i + 1..]) <==> AtMostOneDot(v)
  {
    if AllDigits(v[i + 1..]) {
      forall p, q | 0 <= p < q < |v| && v[p] == '.'
        ensures v[q] != '.'
      {
        if q > i {
          assert v[i + 1..][q - i - 1] == v[q];
        }
      }
    } else {
      var k :| 0 <= k < |v[i + 1..]| && !IsDigit(v[i + 1..][k]);
      assert v[i + 1 + k] == '.';
    }
  }

  /** x / 10^k, one decimal place at a time. */
  function Shift(x: real, k: nat): real {
    if k == 0 then x else Shift(x, k - 1) / 10.0
  }

  function Pow10(k: nat): (p: nat)
    ensures p >= 1
  {
    if k == 0 then 1 else 10 * Pow10(k - 1)
  }

  /** Shifting by k places divides by ten to the k. */
  lemma {:induction false} ShiftIsDivision(x: real, k: nat)
    ensures Shift(x, k) * Pow10(k) as real == x
  {
    if k > 0 {
      ShiftIsDivision(x, k - 1);
      ShiftStep(Shift(x, k - 1), Shift(x, k), Pow10(k - 1) as real, Pow10(k) as real, x);
    }
  }

  lemma ShiftStep(s: real, t: real, p: real, q: real, x: real)
    requires s * p == x && t == s / 10.0 && q == 10.0 * p
    ensures t * q == x
  {
  }

  lemma {:induction false} ShiftAdd(a: real, b: real, k: nat)
    ensures Shift(a + b, k) == Shift(a, k) + Shift(b, k)
  {
    if k > 0 {
      ShiftAdd(a, b, k - 1);
    }
  }

  lemma {:induction false} ShiftTen(a: real, k: nat)
    requires k > 0
    ensures Shift(10.0 * a, k) == Shift(a, k - 1)
  {
    if k > 1 {
      ShiftTen(a, k - 1);
    }
  }

  /** Shifting a whole number of k digits by k places puts its leading
      digit in the first decimal place. */
  lemma {:induction false} ShiftLeading(ds: string)
    requires |ds| > 0 && AllDigits(ds)
    ensures Shift(DigitsValue(ds) as real, |ds|)
      == (DigitOf(ds[0]) as real + Shift(DigitsValue(ds[1..]) as real, |ds| - 1)) / 10.0
    decreases |ds|
  {
    var n := |ds|;
    if n > 1 {
      var init := ds[..n - 1];
      var tail := ds[1..];
      ShiftLeading(init);
      assert init[0] == ds[0];
      assert init[1..] == tail[..n - 2];
      assert tail[n - 2] == ds[n - 1];
      var last := DigitOf(ds[n - 1]) as real;
      var a := DigitsValue(init) as real;
      var b := DigitsValue(init[1..]) as real;
      assert DigitsValue(ds) as real == 10.0 * a + last;
      assert DigitsValue(tail) as real == 10.0 * b + last;
      ShiftAdd(10.0 * a, last, n);
      ShiftTen(a, n);
      ShiftAdd(10.0 * b, last, n - 1);
      ShiftTen(b, n - 1);
    } else {
      assert ds[1..] == "";
    }
  }

  /** Digits after a point are worth their value as a whole number, shifted
      by their count. */
  lemma {:induction false} FractionIsShifted(ds: string)
    requires AllDigits(ds)
    ensures FractionValue(ds) == Shift(DigitsValue(ds) as real, |ds|)
    decreases |ds|
  {
    if |ds| > 0 {
      FractionIsShifted(ds[1..]);
      ShiftLeading(ds);
    }
  }

  /** A number with one point reads as its whole digits plus its fraction
      digits over ten to their count. */
  lemma ParseNumberPoint(v: string, i: nat)
    requires forall k :: 0 <= k < |v| ==> IsNumberChar(v[k])
    requires i < |v| && v[i] == '.' && |v| > 1
    requires AllDigits(v[..i]) && AllDigits(v[i + 1..])
    ensures ParseNumber(v).Some?
    ensures ParseNumber(v).value == DigitsValue(v[..i]) as real + Shift(DigitsValue(v[i + 1..]) as real, |v| - i - 1)
  {
    assert v[i] in v;
    OnlyPoint(v, i, DotIndex(v));
    FractionIsShifted(v[i + 1..]);
  }

  /** With digits on both sides of a point, no other point exists. */
  lemma OnlyPoint(v: string, i: nat, j: nat)
    requires i < |v| && j < |v| && v[j] == '.'
    requires AllDigits(v[..i]) && AllDigits(v[i + 1..])
    ensures j == i
  {
  }

  /** "1.5" and ".5" read as 1.5 and 0.5. */
  lemma PointExamples()
    ensures ParseNumber("1.5") == Some(1.5)
    ensures ParseNumber(".5") == Some(0.5)
  {
    assert "1.5"[..1] == "1" && "1.5"[2..] == "5";
    ParseNumberPoint("1.5", 1);
    assert ".5"[..0] == "" && ".5"[1..] == "5";
    ParseNumberPoint(".5", 0);
  }

  /** "1." reads as 1, and "1.2.3" does not read. */
  lemma PointEdgeExamples()
    ensures ParseNumber("1.") == Some(1.0)
    ensures ParseNumber("1.2.3") == None
  {
    assert "1."[..1] == "1" && "1."[2..] == "";
    ParseNumberPoint("1.", 1);
    assert "1.2.3"[1] == '.' && "1.2.3"[3] == '.';
  }

  function DotIndex(v: string): (i: nat)
    requires '.' in v && forall k :: 0 <= k < |v| ==> IsNumberChar(v[k])
    ensures i < |v| && v[i] == '.' && AllDigits(v[..i])
  {
    if v[0] == '.' then 0
    else
      assert '.' in v[1..];
      var i := 1 + DotIndex(v[1..]);
      assert v[..i] == [v[0]] + v[1..][..i - 1];
      assert IsNumberChar(v[0]) && IsDigit(v[0]);
      assert forall k :: 1 <= k < i ==> v[..i][k] == v[1..][..i - 1][k - 1];
      i
  }

  /** The decimal digits of a natural number. */
  function Digits(n: nat): (s: string)
    ensures |s| > 0 && AllDigits(s)
  {
    var last := ('0' as int + n % 10) as char;
    if n < 10 then [last] else Digits(n / 10) + [last]
  }

  /** Reading back the digits of n gives n. */
  lemma {:induction false} DigitsRoundTrip(n: nat)
    ensures '.' !in Digits(n)
    ensures ParseNumber(Digits(n)) == Some(n as real)
  {
    assert DigitsValue(Digits(n)) == n by {
      DigitsValueRoundTrip(n);
    }
  }

  lemma {:induction false} DigitsValueRoundTrip(n: nat)
    ensures DigitsValue(Digits(n)) == n
  {
    var s := Digits(n);
    if n >= 10 {
      DigitsValueRoundTrip(n / 10);
      assert s[..|s| - 1] == Digits(n / 10);
    }
  }

  /** One token in nanoseconds: its unit must be in the table and its
      number readable. */
  function TokenValue(t: Token): (r: Result<real>)
    requires WellFormed(t)
    ensures r.Success? <==> UnitSize(t.unit).Some? && ParseNumber(t.value).Some?
    ensures r.Success? ==> r.value >= 0.0
  {
    match UnitSize(t.unit)
    case None => Failure("Unknown unit " + t.unit)
    case Some(size) =>
      match ParseNumber(t.value)
      case None => Failure("Invalid value " + t.value)
      case Some(x) =>
        ProductNonNegative(x, size as real);
        Success(x * size as real)
  }

  lemma ProductNonNegative(x: real, y: real)
    requires x >= 0.0 && y >= 0.0
    ensures x * y >= 0.0
  {
  }

  predicate AllReadable(ts: seq<Token>)
    requires forall k :: 0 <= k < |ts| ==> WellFormed(ts[k])
  {
    forall k :: 0 <= k < |ts| ==> TokenValue(ts[k]).Success?
  }

  /** The tokens' total in nanoseconds, in order; the first token with an
      unknown unit or an unreadable number fails. */
  function TokensTotal(ts: seq<Token>): (r: Result<real>)
    requires forall k :: 0 <= k < |ts| ==> WellFormed(ts[k])
    ensures r.Success? <==> AllReadable(ts)
    ensures r.Success? ==> r.value >= 0.0
  {
    if |ts| == 0 then Success(0.0)
    else
      assert forall k :: 1 <= k < |ts| ==> ts[k] == ts[1..][k - 1];
      var v := TokenValue(ts[0]);
      var rest := TokensTotal(ts[1..]);
      if v.Failure? then Failure(v.error)
      else if rest.Failure? then Failure(rest.error)
      else Success(v.value + rest.value)
  }

  lemma {:induction false} TokensTotalAppend(a: seq<Token>, b: seq<Token>)
    requires forall k :: 0 <= k < |a| ==> WellFormed(a[k])
    requires forall k :: 0 <= k < |b| ==> WellFormed(b[k])
    requires forall k :: 0 <= k < |a + b| ==> WellFormed((a + b)[k])
    ensures TokensTotal(a + b).Success? <==> TokensTotal(a).Success? && TokensTotal(b).Success?
    ensures TokensTotal(a + b).Success? ==> TokensTotal(a + b).value == TokensTotal(a).value + TokensTotal(b).value
    decreases |a|
  {
    if |a| > 0 {
      assert (a + b)[1..] == a[1..] + b;
      assert (a + b)[0] == a[0];
      TokensTotalAppend(a[1..], b);
    } else {
      assert a + b == b;
    }
  }

  predicate IsZeroLiteral(s: string) {
    s == "0" || s == "+0" || s == "-0"
  }

  /** `duration_from_str`, in microseconds. */
  function DurationFromStr(s: string): (r: Result<real>)
    ensures IsZeroLiteral(s) ==> r == Success(0.0)
    ensures !IsZeroLiteral(s) && |Tokens(s)| == 0 ==> r.Failure?
    ensures !IsZeroLiteral(s) ==> (r.Success? <==> |Tokens(s)| > 0 && TokensTotal(Tokens(s)).Success?)
    ensures !IsZeroLiteral(s) && r.Success? ==>
      && |s| > 0 && TokensTotal(Tokens(s)).Success?
      && r.value == (if s[0] == '-' then -(TokensTotal(Tokens(s)).value / 1000.0) else TokensTotal(Tokens(s)).value / 1000.0)
  {
    if IsZeroLiteral(s) then Success(0.0)
    else
      var ts := Tokens(s);
      if |ts| == 0 then Failure("Invalid duration " + s)
      else
        var total :- TokensTotal(ts);
        Success(if s[0] == '-' then -(total / 1000.0) else total / 1000.0)
  }

  /** A token whose unit is not in the table makes the whole string fail. */
  lemma UnknownUnitFails(s: string, k: nat)
    requires !IsZeroLiteral(s) && k < |Tokens(s)| && UnitSize(Tokens(s)[k].unit).None?
    ensures DurationFromStr(s).Failure?
  {
    assert !TokenValue(Tokens(s)[k]).Success?;
  }

  /** The sign comes from the first character alone. */
  lemma SignOfDuration(s: string)
    requires DurationFromStr(s).Success?
    ensures DurationFromStr(s).value < 0.0 ==> s[0] == '-'
    ensures DurationFromStr(s).value > 0.0 ==> s[0] != '-'
  {
  }

  /** A leading '-' negates a duration and changes nothing else. */
  lemma Negated(s: string)
    requires |s| > 0 && s[0] != '-' && s != "+0"
    ensures DurationFromStr("-" + s).Success? <==> DurationFromStr(s).Success?
    ensures DurationFromStr(s).Success? ==> DurationFromStr("-" + s).value == -DurationFromStr(s).value
  {
    var t := "-" + s;
    assert t[1..] == s;
    assert Tokens(t) == Tokens(s);
    if s == "0" {
      assert IsZeroLiteral(t);
    } else {
      assert !IsZeroLiteral(t);
    }
  }

  /** Durations separated by a separator character add up, when neither
      part carries a sign. */
  lemma DurationsAdd(a: string, b: string)
    requires |a| > 1 && IsSeparator(a[|a| - 1]) && a[0] != '-'
    requires |b| > 0 && b[0] != '-' && !IsZeroLiteral(b)
    requires DurationFromStr(a).Success? && DurationFromStr(b).Success?
    ensures DurationFromStr(a + b).Success?
    ensures DurationFromStr(a + b).value == DurationFromStr(a).value + DurationFromStr(b).value
  {
    var ta := Tokens(a);
    var tb := Tokens(b);
    TokensSplit(a, b);
    TokensTotalAppend(ta, tb);
    assert !IsZeroLiteral(a) && !IsZeroLiteral(a + b) && (a + b)[0] == a[0];
    var x := TokensTotal(ta).value;
    var y := TokensTotal(tb).value;
    assert DurationFromStr(a).value == x / 1000.0;
    assert DurationFromStr(b).value == y / 1000.0;
    var tab := Tokens(a + b);
    assert tab == ta + tb;
    assert TokensTotal(tab).Success?;
    assert TokensTotal(tab).value == TokensTotal(ta + tb).value;
    assert TokensTotal(tab).value == x + y;
    assert |tab| > 0;
    assert DurationFromStr(a + b).Success?;
    assert DurationFromStr(a + b).value == (x + y) / 1000.0;
  }

  /** A small worked example: one hour and thirty minutes. */
  lemma HourAndAHalf()
    ensures DurationFromStr("1h30m").Success? && DurationFromStr("1h30m").value == 5400000000.0
  {
    ExampleTokens();
    ExampleTotal();
    assert !IsZeroLiteral("1h30m") && "1h30m"[0] == '1';
  }

  /** Any tokens written back to back read as their total: the string
      succeeds exactly when every token is readable. */
  lemma RenderedDuration(ts: seq<Token>)
    requires |ts| > 0 && forall k :: 0 <= k < |ts| ==> WellFormed(ts[k])
    ensures DurationFromStr(Render(ts)).Success? <==> AllReadable(ts)
    ensures DurationFromStr(Render(ts)).Success? ==> DurationFromStr(Render(ts)).value == TokensTotal(ts).value / 1000.0
  {
    TokensOfRender(ts);
    RenderStart(ts);
    assert !IsZeroLiteral(Render(ts));
  }

  /** "1m30.5s" is 90 500 000 microseconds. */
  lemma MinuteAndAHalfSecond()
    ensures DurationFromStr("1m30.5s") == Success(90500000.0)
  {
    var ts := [Token("1", "m"), Token("30.5", "s")];
    assert Render(ts[1..][1..]) == "";
    assert Render(ts) == "1m30.5s";
    MinuteAndAHalfTotal();
    RenderedDuration(ts);
  }

  lemma MinuteAndAHalfTotal()
    ensures TokensTotal([Token("1", "m"), Token("30.5", "s")]) == Success(90500000000.0)
  {
    var ts := [Token("1", "m"), Token("30.5", "s")];
    ExampleMinute();
    ExampleSeconds();
    assert TokensTotal(ts[1..][1..]) == Success(0.0);
  }

  lemma ExampleMinute()
    ensures TokenValue(Token("1", "m")) == Success(60000000000.0)
  {
    assert "1"[..0] == "";
    assert ParseNumber("1") == Some(1.0);
  }

  lemma ExampleSeconds()
    ensures TokenValue(Token("30.5", "s")) == Success(30500000000.0)
  {
    ThirtyAndAHalf();
  }

  lemma ThirtyAndAHalf()
    ensures ParseNumber("30.5") == Some(30.5)
  {
    assert "30.5"[..2] == "30" && "30.5"[3..] == "5" && "30"[..1] == "3" && "3"[..0] == "" && "5"[..0] == "";
    ParseNumberPoint("30.5", 2);
  }

  lemma ExampleTotal()
    ensures TokensTotal([Token("1", "h"), Token("30", "m")]).Success?
    ensures TokensTotal([Token("1", "h"), Token("30", "m")]).value == 5400000000000.0
  {
    assert "1"[..0] == "" && "30"[..1] == "3" && "3"[..0] == "";
    assert DigitsValue("1") == 1 && DigitsValue("3") == 3 && DigitsValue("30") == 30;
    assert TokenValue(Token("1", "h")).value == 3600000000000.0;
    assert TokenValue(Token("30", "m")).value == 1800000000000.0;
    assert [Token("1", "h"), Token("30", "m")][1..] == [Token("30", "m")];
    assert [Token("30", "m")][1..] == [];
  }

  lemma ExampleTokens()
    ensures Tokens("1h30m") == [Token("1", "h"), Token("30", "m")]
  {
    var s := "1h30m";
    ExampleHead();
    ExampleTail();
    assert s[2..] == "30m";
  }

  lemma ExampleHead()
    ensures MatchAt("1h30m") == Found(Token("1", "h"), 2)
  {
    var s := "1h30m";
    assert s[1..] == "h30m" && "h30m"[1..] == "30m";
    assert NumberRun("h30m") == 0 && NumberRun(s) == 1;
    assert UnitRun("30m") == 0 && UnitRun(s[1..]) == 1;
    assert s[..1] == "1" && s[1..2] == "h";
  }

  lemma ExampleTail()
    ensures Tokens("30m") == [Token("30", "m")]
  {
    var t := "30m";
    ExampleTailMatch();
    assert t[3..] == "";
    assert Tokens(t) == [Token("30", "m")] + Tokens("");
  }

  lemma ExampleTailMatch()
    ensures MatchAt("30m") == Found(Token("30", "m"), 3)
  {
    var t := "30m";
    assert t[1..] == "0m" && "0m"[1..] == "m" && "m"[1..] == "";
    assert NumberRun("m") == 0 && NumberRun("0m") == 1 && NumberRun(t) == 2;
    assert UnitRun("") == 0 && UnitRun("m") == 1;
    assert t[..2] == "30" && t[2..] == "m" && t[2..3] == "m";
  }

  // ---------------------------------------------------------------------
  // Common prefix

  /** Python's `<=` on strings: code-point lexicographic order. */
  predicate LexLe(a: string, b: string) {
    |a| == 0 || (|b| > 0 && (a[0] < b[0] || (a[0] == b[0] && LexLe(a[1..], b[1..]))))
  }

  predicate LexLess(a: string, b: string) { LexLe(a, b) && a != b }

  lemma {:induction false} LexReflexive(a: string)
    ensures LexLe(a, a)
    decreases |a|
  {
    if |a| > 0 {
      LexReflexive(a[1..]);
    }
  }

  lemma {:induction false} LexTotal(a: string, b: string)
    ensures LexLe(a, b) || LexLe(b, a)
    decreases |a|
  {
    if |a| > 0 && |b| > 0 && a[0] == b[0] {
      LexTotal(a[1..], b[1..]);
    }
  }

  lemma {:induction false} LexTransitive(a: string, b: string, c: string)
    requires LexLe(a, b) && LexLe(b, c)
    ensures LexLe(a, c)
    decreases |a|
  {
    if |a| > 0 && a[0] == b[0] && b[0] == c[0] {
      LexTransitive(a[1..], b[1..], c[1..]);
    }
  }

  lemma {:induction false} LexAntisymmetric(a: string, b: string)
    requires LexLe(a, b) && LexLe(b, a)
    ensures a == b
    decreases |a|
  {
    if |a| > 0 {
      LexAntisymmetric(a[1..], b[1..]);
      assert a == [a[0]] + a[1..] && b == [b[0]] + b[1..];
    }
  }

  /** `min(m)`: the first element no other element is below. */
  function MinString(m: seq<string>): (r: string)
    requires |m| > 0
    ensures r in m && forall k :: 0 <= k < |m| ==> LexLe(r, m[k])
  {
    if |m| == 1 then LexReflexive(m[0]); m[0]
    else
      var n := |m| - 1;
      var c := MinString(m[..n]);
      assert forall k :: 0 <= k < n ==> m[..n][k] == m[k];
      LexTotal(c, m[n]);
      LexReflexive(m[n]);
      if LexLess(m[n], c) then
        forall k | 0 <= k < n
          ensures LexLe(m[n], m[k])
        {
          LexTransitive(m[n], c, m[k]);
        }
        m[n]
      else c
  }

  /** `max(m)`: the first element no other element is above. */
  function MaxString(m: seq<string>): (r: string)
    requires |m| > 0
    ensures r in m && forall k :: 0 <= k < |m| ==> LexLe(m[k], r)
  {
    if |m| == 1 then LexReflexive(m[0]); m[0]
    else
      var n := |m| - 1;
      var c := MaxString(m[..n]);
      assert forall k :: 0 <= k < n ==> m[..n][k] == m[k];
      LexTotal(c, m[n]);
      LexReflexive(m[n]);
      if LexLess(c, m[n]) then
        forall k | 0 <= k < n
          ensures LexLe(m[k], m[n])
        {
          LexTransitive(m[k], c, m[n]);
        }
        m[n]
      else c
  }

  predicate IsPrefix(p: string, s: string) { |p| <= |s| && s[..|p|] == p }

  /** The loop over s1: stop at the first position where s2 differs. */
  function PairPrefix(s1: string, s2: string, i: nat): (r: string)
    requires i <= |s1| && i <= |s2| && LexLe(s1, s2) && s1[..i] == s2[..i]
    ensures IsPrefix(r, s1) && IsPrefix(r, s2) && |r| >= i
    ensures |r| == |s1| || (|r| < |s2| && s1[|r|] != s2[|r|])
    decreases |s1| - i
  {
    if i == |s1| then s1
    else
      assert i < |s2| by {
        if i == |s2| {
          LexPrefixBound(s1, s2, i);
        }
      }
      if s1[i] != s2[i] then s1[..i]
      else
        assert s1[..i + 1] == s2[..i + 1];
        PairPrefix(s1, s2, i + 1)
  }

  /** When s1 <= s2 and they agree up to i, s1 ends no later than s2. */
  lemma {:induction false} LexPrefixBound(s1: string, s2: string, i: nat)
    requires i <= |s1| && i <= |s2| && s1[..i] == s2[..i] && LexLe(s1, s2) && i == |s2|
    ensures i == |s1|
    decreases i
  {
    if i > 0 {
      assert s1[0] == s2[0];
      assert s1[1..][..i - 1] == s2[1..][..i - 1];
      LexPrefixBound(s1[1..], s2[1..], i - 1);
    }
  }

  /** `commonprefix(m)`: the longest common prefix of the smallest and the
      largest element. */
  function CommonPrefix(m: seq<string>): (r: string)
    ensures |m| == 0 ==> r == ""
  {
    if |m| == 0 then ""
    else
      var lo := MinString(m);
      var hi := MaxString(m);
      LexTransitive(lo, m[0], hi);
      PairPrefix(lo, hi, 0)
  }

  /** A string between two others shares every prefix they share. */
  lemma {:induction false} Sandwich(p: string, a: string, x: string, b: string)
    requires IsPrefix(p, a) && IsPrefix(p, b) && LexLe(a, x) && LexLe(x, b)
    ensures IsPrefix(p, x)
    decreases |p|
  {
    if |p| > 0 {
      assert a[0] == p[0] == b[0];
      assert a[0] <= x[0] <= b[0];
      assert p[1..] == a[1..][..|p| - 1] == b[1..][..|p| - 1];
      Sandwich(p[1..], a[1..], x[1..], b[1..]);
      assert x[..|p|] == [x[0]] + x[1..][..|p| - 1];
    }
  }

  /** The common prefix is a prefix of every element, and every common
      prefix of all elements is a prefix of it: it is the longest one. */
  lemma CommonPrefixIsLongest(m: seq<string>, p: string)
    ensures forall k :: 0 <= k < |m| ==> IsPrefix(CommonPrefix(m), m[k])
    ensures |m| > 0 && (forall k :: 0 <= k < |m| ==> IsPrefix(p, m[k])) ==> IsPrefix(p, CommonPrefix(m))
  {
    if |m| > 0 {
      var lo := MinString(m);
      var hi := MaxString(m);
      var r := CommonPrefix(m);
      forall k | 0 <= k < |m|
        ensures IsPrefix(r, m[k])
      {
        Sandwich(r, lo, m[k], hi);
      }
      if forall k :: 0 <= k < |m| ==> IsPrefix(p, m[k]) {
        assert IsPrefix(p, lo) && IsPrefix(p, hi);
        assert |p| <= |r|;
        assert p == lo[..|p|];
      }
    }
  }
}

=== FILE: reals.dfy ===
/** Aggregates over lists of numbers as the statistics code uses them:
    Python's `sum`, `max` and `min`. `max` and `min` raise on an empty list,
    so they require a non-empty one here. */
module Reals {

  function Sum(s: seq<real>): real
  {
    if |s| == 0 then 0.0 else Sum(s[..|s| - 1]) + s[|s| - 1]
  }

  function SumInt(s: seq<int>): int
  {
    if |s| == 0 then 0 else SumInt(s[..|s| - 1]) + s[|s| - 1]
  }

  function Max(s: seq<real>): (m: real)
    requires |s| > 0
    ensures forall k :: 0 <= k < |s| ==> s[k] <= m
    ensures exists k :: 0 <= k < |s| && s[k] == m
  {
    if |s| == 1 then s[0]
    else
      var m' := Max(s[..|s| - 1]);
      assert forall k :: 0 <= k < |s| - 1 ==> s[..|s| - 1][k] == s[k];
      if s[|s| - 1] > m' then s[|s| - 1] else m'
  }

  function Min(s: seq<real>): (m: real)
    requires |s| > 0
    ensures forall k :: 0 <= k < |s| ==> m <= s[k]
    ensures exists k :: 0 <= k < |s| && s[k] == m
  {
    if |s| == 1 then s[0]
    else
      var m' := Min(s[..|s| - 1]);
      assert forall k :: 0 <= k < |s| - 1 ==> s[..|s| - 1][k] == s[k];
      if s[|s| - 1] < m' then s[|s| - 1] else m'
  }

  /** `max(s, default=0)`. */
  function MaxOrZero(s: seq<real>): (m: real)
    ensures |s| == 0 ==> m == 0.0
    ensures forall k :: 0 <= k < |s| ==> s[k] <= m
  {
    if |s| == 0 then 0.0 else Max(s)
  }

  /** A sum of non-negative terms is non-negative. */
  lemma {:induction false} SumNonNegative(s: seq<real>)
    requires forall k :: 0 <= k < |s| ==> s[k] >= 0.0
    ensures Sum(s) >= 0.0
    decreases |s|
  {
    if |s| > 0 {
      SumNonNegative(s[..|s| - 1]);
    }
  }

  /** A sum of zeros is zero. */
  lemma {:induction false} SumZero(s: seq<real>)
    requires forall k :: 0 <= k < |s| ==> s[k] == 0.0
    ensures Sum(s) == 0.0
    decreases |s|
  {
    if |s| > 0 {
      SumZero(s[..|s| - 1]);
    }
  }

  /** Every term lies between `lo` and `hi`, so the sum lies between n*lo and n*hi. */
  lemma {:induction false} SumBounds(s: seq<real>, lo: real, hi: real)
    requires forall k :: 0 <= k < |s| ==> lo <= s[k] <= hi
    ensures |s| as real * lo <= Sum(s) <= |s| as real * hi
    decreases |s|
  {
    if |s| > 0 {
      var n := |s| - 1;
      SumBounds(s[..n], lo, hi);
      assert |s| as real * lo == n as real * lo + lo;
      assert |s| as real * hi == n as real * hi + hi;
    }
  }

  lemma {:induction false} SumIntBounds(s: seq<int>, lo: int, hi: int)
    requires forall k :: 0 <= k < |s| ==> lo <= s[k] <= hi
    ensures |s| * lo <= SumInt(s) <= |s| * hi
    decreases |s|
  {
    if |s| > 0 {
      var n := |s| - 1;
      SumIntBounds(s[..n], lo, hi);
      assert |s| * lo == n * lo + lo;
      assert |s| * hi == n * hi + hi;
    }
  }

  /** The arithmetic mean: the value that, taken once per element, adds up to the sum. */
  function Mean(s: seq<real>): (r: real)
    requires |s| > 0
    ensures r * |s| as real == Sum(s)
  {
    var n := |s| as real;
    var t := Sum(s);
    QuotientTimes(t / n, t, n);
    t / n
  }

  lemma QuotientTimes(a: real, t: real, n: real)
    requires n > 0.0 && a == t / n
    ensures a * n == t
  {
  }

  /** Maximum, minimum and mean of a non-empty list of statistics. */
  datatype Summary = Summary(max: real, min: real, avg: real)

  function Summarize(values: seq<real>): (s: Summary)
    requires |values| > 0
    ensures forall k :: 0 <= k < |values| ==> s.min <= values[k] <= s.max
    ensures exists k :: 0 <= k < |values| && values[k] == s.max
    ensures exists k :: 0 <= k < |values| && values[k] == s.min
    ensures s.min <= s.avg <= s.max
    ensures s.avg == Mean(values)
  {
    AverageBetween(values);
    Summary(Max(values), Min(values), Mean(values))
  }

  /** The average of a non-empty list lies between its minimum and its maximum. */
  lemma AverageBetween(s: seq<real>)
    requires |s| > 0
    ensures Min(s) <= Mean(s) <= Max(s)
  {
    AverageWithin(s, Min(s), Max(s));
  }

  lemma AverageWithin(s: seq<real>, lo: real, hi: real)
    requires |s| > 0
    requires forall k :: 0 <= k < |s| ==> lo <= s[k] <= hi
    ensures lo <= Mean(s) <= hi
  {
    SumBounds(s, lo, hi);
    FactorBetween(Mean(s), |s| as real, lo, hi);
  }

  lemma FactorBetween(m: real, n: real, lo: real, hi: real)
    requires n > 0.0 && n * lo <= m * n <= n * hi
    ensures lo <= m <= hi
  {
  }

  lemma QuotientBetween(x: real, n: real, lo: real, hi: real)
    requires n > 0.0 && n * lo <= x <= n * hi
    ensures lo <= x / n <= hi
  {
  }
}

=== FILE: results.dfy ===
/** Option and Result wrappers for the model's error paths: a Python
    exception (or an early error return) becomes a `Failure` carrying the
    message the source would raise or print. */
module Results {

  datatype Option<+T> = None | Some(value: T)

  datatype Result<+T> = Success(value: T) | Failure(error: string) {

    predicate IsFailure() {
      Failure?
    }

    function PropagateFailure<U>(): Result<U>
      requires Failure?
    {
      Failure(error)
    }

    function Extract(): T
      requires Success?
    {
      value
    }
  }
}

=== FILE: routemode.dfy ===
/** The route mode of nextplot (nextplot/route.py) below its rendering:
    where unassigned stops are looked up, coordinate checks, the distance
    and length accumulation along each route, the short-route filter and
    the route statistics. */
module RouteMode {
  import opened Results
  import opened Geometry
  import opened Reals
  import opened Seqs
  import opened Common
  import opened Distances

  /** JSON paths for the unassigned stops: none without an unassigned path;
      otherwise the unassigned x/y paths, falling back to the route ones. */
  function UnassignedPaths(unassigned: string, unassignedX: string, unassignedY: string, x: string, y: string)
    : (r: Option<(string, string, string)>)
    ensures r.None? <==> unassigned == ""
    ensures r.Some? ==> r.value.0 == unassigned
    ensures r.Some? ==> r.value.1 == (if unassignedX != "" then unassignedX else x)
    ensures r.Some? ==> r.value.2 == (if unassignedY != "" then unassignedY else y)
    ensures r.Some? && unassignedX == "" && unassignedY == "" ==> r.value == (unassigned, x, y)
  {
    if unassigned == "" then None
    else Some((unassigned, if unassignedX != "" then unassignedX else x, if unassignedY != "" then unassignedY else y))
  }

  /** The stops of the routes and the unassigned stops after the coordinate
      checks, with the world-coordinate flag that selects the distance. */
  datatype Prepared = Prepared(routes: seq<seq<Position>>, unassigned: seq<seq<Position>>, world: bool)

  /** The checks `plot` runs before wrapping routes, as written: when there
      are unassigned stops, their check's world flag replaces the one of
      the routes. */
  function PrepareAsWritten(points: seq<seq<Position>>, unassigned: seq<seq<Position>>, swap: bool, coords: CoordinateChoice)
    : (r: Result<Prepared>)
    ensures |points| == 0 ==> r.Failure?
    ensures r.Success? && |unassigned| > 0 ==> (PreprocessCoordinates(unassigned, swap, coords).Success?
      && r.value.world == PreprocessCoordinates(unassigned, swap, coords).value.1)
  {
    if |points| == 0 then Failure("no points found in given file(s) using given filter(s)")
    else
      var (routes, world) :- PreprocessCoordinates(points, swap, coords);
      if |unassigned| > 0 then
        var (others, otherWorld) :- PreprocessCoordinates(unassigned, swap, coords);
        Success(Prepared(routes, others, otherWorld))
      else Success(Prepared(routes, unassigned, world))
  }

  /** The same checks with the world flag holding only when both the route
      stops and the unassigned stops are world coordinates. */
  function Prepare(points: seq<seq<Position>>, unassigned: seq<seq<Position>>, swap: bool, coords: CoordinateChoice)
    : (r: Result<Prepared>)
    ensures |points| == 0 ==> r.Failure?
    ensures r.Success? ==> r.value.routes == SwapAll(points, swap) && r.value.unassigned == SwapAll(unassigned, swap)
    ensures r.Success? ==> (r.value.world <==> (coords != Euclidean
      && (forall g, k :: 0 <= g < |r.value.routes| && 0 <= k < |r.value.routes[g]| ==> InWorldRange(r.value.routes[g][k]))
      && (forall g, k :: 0 <= g < |r.value.unassigned| && 0 <= k < |r.value.unassigned[g]| ==> InWorldRange(r.value.unassigned[g][k]))))
  {
    if |points| == 0 then Failure("no points found in given file(s) using given filter(s)")
    else
      var (routes, world) :- PreprocessCoordinates(points, swap, coords);
      if |unassigned| > 0 then
        var (others, otherWorld) :- PreprocessCoordinates(unassigned, swap, coords);
        Success(Prepared(routes, others, world && otherWorld))
      else
        assert SwapAll(unassigned, swap) == unassigned;
        Success(Prepared(routes, unassigned, world))
  }

  /** Planar route stops next to unassigned stops that happen to lie in
      the world range: as written the plot takes them for world coordinates. */
  lemma WorldFlagOverwritten()
    ensures var points := [[Position(500.0, 0.0, None, 0.0)]];
      var unassigned := [[Position(1.0, 1.0, None, 0.0)]];
      PrepareAsWritten(points, unassigned, false, Auto).value.world
      && !Prepare(points, unassigned, false, Auto).value.world
  {
    var points := [[Position(500.0, 0.0, None, 0.0)]];
    var unassigned := [[Position(1.0, 1.0, None, 0.0)]];
    assert !InWorldRange(SwapAll(points, false)[0][0]);
    assert AllWorld(SwapAll(unassigned, false));
  }

  /** Stop k after the route loop: from the second stop on, it records the
      length of the path up to it. */
  function StopRecord(d: Measure, points: seq<Position>, k: nat): (p: Position)
    requires k < |points|
    ensures p.At() == points[k].At() && p.desc == points[k].desc
  {
    if k == 0 then points[0] else points[k].(distance := PathLength(d, points[..k + 1]))
  }

  function StopRecords(d: Measure, points: seq<Position>): (r: seq<Position>)
    ensures |r| == |points| && forall k :: 0 <= k < |points| ==> r[k] == StopRecord(d, points, k)
  {
    seq(|points|, k requires 0 <= k < |points| => StopRecord(d, points, k))
  }

  /** The processing loop of one route: each stop after the first records
      the path length up to it, and the route's length is the whole path. */
  method AccumulateDistances(d: Measure, points: seq<Position>) returns (out: seq<Position>, length: real)
    ensures out == StopRecords(d, points)
    ensures length == PathLength(d, points)
  {
    out := points;
    length := 0.0;
    if |points| == 0 {
      return;
    }
    var i := 1;
    while i < |points|
      invariant 1 <= i <= |points| && |out| == |points|
      invariant forall k :: 0 <= k < i ==> out[k] == StopRecord(d, points, k)
      invariant forall k :: i <= k < |out| ==> out[k] == points[k]
      invariant length == PathLength(d, points[..i])
    {
      PathLengthStep(d, points, i);
      assert Dist(d, out[i], out[i - 1]) == Dist(d, points[i], points[i - 1]);
      length := length + Dist(d, out[i], out[i - 1]);
      out := out[i := out[i].(distance := length)];
      i := i + 1;
    }
    assert points[..|points|] == points;
  }

  /** Along a route the recorded stop distances never decrease. */
  lemma StopDistancesIncrease(d: Measure, points: seq<Position>, a: nat, b: nat)
    requires IsMeasure(d) && 1 <= a <= b < |points|
    ensures StopRecord(d, points, a).distance <= StopRecord(d, points, b).distance
  {
    PathLengthMonotone(d, points, a + 1, b + 1);
  }

  /** The route loop of `plot`: every route gets its stop distances and its length. */
  method ProcessRoutes(d: Measure, routes: seq<Route>) returns (out: seq<Route>, lengths: seq<real>)
    ensures |out| == |routes| && |lengths| == |routes|
    ensures forall r :: 0 <= r < |routes| ==> out[r] == routes[r].(points := StopRecords(d, routes[r].points))
    ensures forall r :: 0 <= r < |routes| ==> lengths[r] == PathLength(d, routes[r].points)
  {
    out := [];
    lengths := [];
    var r := 0;
    while r < |routes|
      invariant 0 <= r <= |routes| && |out| == r && |lengths| == r
      invariant forall q :: 0 <= q < r ==> out[q] == routes[q].(points := StopRecords(d, routes[q].points))
      invariant forall q :: 0 <= q < r ==> lengths[q] == PathLength(d, routes[q].points)
    {
      var points, length := AccumulateDistances(d, routes[r].points);
      out := out + [routes[r].(points := points)];
      lengths := lengths + [length];
      r := r + 1;
    }
  }

  /** The `omit_short` filter: with a positive bound exactly the routes with
      more stops than the bound remain, in their original order. */
  function OmitShort(routes: seq<Route>, omitShort: int): (r: seq<Route>)
    ensures omitShort <= 0 ==> r == routes
    ensures |r| <= |routes|
    ensures omitShort > 0 ==> forall k :: 0 <= k < |r| ==> r[k] in routes && |r[k].points| > omitShort
    ensures omitShort > 0 ==> forall k :: 0 <= k < |routes| && |routes[k].points| > omitShort ==> routes[k] in r
  {
    if omitShort > 0 then Filter(routes, (route: Route) => |route.points| > omitShort) else routes
  }

  /** Keeping routes is order preserving: the kept routes of a concatenation
      are those of each part, one after the other. */
  lemma OmitShortAppend(a: seq<Route>, b: seq<Route>, omitShort: int)
    ensures OmitShort(a + b, omitShort) == OmitShort(a, omitShort) + OmitShort(b, omitShort)
  {
    if omitShort > 0 {
      FilterAppend(a, b, (route: Route) => |route.points| > omitShort);
    }
  }

  datatype RouteStats = RouteStats(
    nroutes: nat,
    stops: Summary, stopsTotal: int,
    lengths: Summary, lengthTotal: real,
    diameters: Summary,
    unassigned: nat,
    costs: Option<Summary>)

  /** The stops of every route, route by route. */
  function StopLists(routes: seq<Route>): (r: seq<seq<Position>>)
    ensures |r| == |routes| && forall k :: 0 <= k < |routes| ==> r[k] == routes[k].points
  {
    seq(|routes|, k requires 0 <= k < |routes| => routes[k].points)
  }

  function StopCounts(routes: seq<Route>): (r: seq<real>)
    ensures |r| == |routes| && forall k :: 0 <= k < |routes| ==> r[k] == |routes[k].points| as real
  {
    Lengths(StopLists(routes))
  }

  predicate AllRouted(routes: seq<Route>) {
    forall k :: 0 <= k < |routes| ==> routes[k].legs.Some?
  }

  /** Per-route cost totals, once every route has legs; a route whose leg
      costs were never turned into a list cannot be summed. */
  function RouteCosts(routes: seq<Route>): (r: Result<seq<real>>)
    ensures r.Success? <==> forall k :: 0 <= k < |routes| ==> routes[k].legCosts.Costs?
    ensures r.Success? ==> (|r.value| == |routes|
      && forall k :: 0 <= k < |routes| ==> r.value[k] == Sum(routes[k].legCosts.values))
  {
    if |routes| == 0 then Success([])
    else
      var init :- RouteCosts(routes[..|routes| - 1]);
      assert forall k :: 0 <= k < |routes| - 1 ==> routes[..|routes| - 1][k] == routes[k];
      match routes[|routes| - 1].legCosts
      case Costs(values) => Success(init + [Sum(values)])
      case _ => Failure("'int' object is not iterable")
  }

  /** The diameter of every route, over all ordered pairs of its stops:
      0 for a route of at most one stop under a measure. */
  method Diameters(d: Measure, routes: seq<Route>) returns (diameters: seq<real>)
    ensures |diameters| == |routes|
    ensures forall q :: 0 <= q < |routes| ==> IsDiameter(d, routes[q].points, false, diameters[q])
    ensures forall q :: 0 <= q < |routes| && |routes[q].points| <= 1 && IsMeasure(d) ==> diameters[q] == 0.0
  {
    diameters := [];
    var k := 0;
    while k < |routes|
      invariant 0 <= k <= |routes| && |diameters| == k
      invariant forall q :: 0 <= q < k ==> IsDiameter(d, routes[q].points, false, diameters[q])
      invariant forall q :: 0 <= q < k && |routes[q].points| <= 1 && IsMeasure(d) ==> diameters[q] == 0.0
    {
      var m := Diameter(d, routes[k].points, false);
      diameters := diameters + [m];
      k := k + 1;
    }
  }

  /** The stop counts of the routes, summarized: the largest and the
      smallest are stop counts of some route, and the average times the
      average is the total of the counts over the number of routes. */
  function StopSummary(routes: seq<Route>): (s: Summary)
    requires |routes| > 0
    ensures forall k :: 0 <= k < |routes| ==> s.min <= |routes[k].points| as real <= s.max
    ensures exists k :: 0 <= k < |routes| && s.max == |routes[k].points| as real
    ensures exists k :: 0 <= k < |routes| && s.min == |routes[k].points| as real
    ensures s.avg == Sum(StopCounts(routes)) / |routes| as real
  {
    var counts := StopCounts(routes);
    var s := Summarize(counts);
    assert forall k :: 0 <= k < |routes| ==> counts[k] == |routes[k].points| as real;
    s
  }

  /** The cost figures: present exactly when every route has legs, and then
      the largest and smallest route cost totals and their average. */
  function CostSummary(routes: seq<Route>): (r: Result<Option<Summary>>)
    requires |routes| > 0
    ensures r.Success? <==> (AllRouted(routes) ==> forall k :: 0 <= k < |routes| ==> routes[k].legCosts.Costs?)
    ensures r.Success? ==> (r.value.Some? <==> AllRouted(routes))
    ensures r.Success? && r.value.Some? ==> forall k :: 0 <= k < |routes| ==>
      r.value.value.min <= Sum(routes[k].legCosts.values) <= r.value.value.max
    ensures r.Success? && r.value.Some? ==>
      (exists k :: 0 <= k < |routes| && r.value.value.max == Sum(routes[k].legCosts.values))
      && (exists k :: 0 <= k < |routes| && r.value.value.min == Sum(routes[k].legCosts.values))
    ensures r.Success? && r.value.Some? ==> (RouteCosts(routes).Success?
      && r.value.value.avg == Sum(RouteCosts(routes).value) / |routes| as real)
  {
    if !AllRouted(routes) then Success(None)
    else
      var totals :- RouteCosts(routes);
      Success(Some(Summarize(totals)))
  }

  /** The diameters of the routes and their summary: never negative, and
      no two stops of a route lie further apart than the largest. */
  method DiameterSummary(d: Measure, routes: seq<Route>) returns (diameters: seq<real>, s: Summary)
    requires |routes| > 0
    ensures |diameters| == |routes|
    ensures forall q :: 0 <= q < |routes| ==> IsDiameter(d, routes[q].points, false, diameters[q])
    ensures s == Summarize(diameters)
    ensures s.min >= 0.0
    ensures forall k, i, j :: 0 <= k < |routes| && 0 <= i < |routes[k].points| && 0 <= j < |routes[k].points| ==>
      Dist(d, routes[k].points[i], routes[k].points[j]) <= s.max
  {
    diameters := Diameters(d, routes);
    s := Summarize(diameters);
    ghost var q :| 0 <= q < |diameters| && diameters[q] == s.min;
    assert IsDiameter(d, routes[q].points, false, diameters[q]);
    forall k, i, j | 0 <= k < |routes| && 0 <= i < |routes[k].points| && 0 <= j < |routes[k].points|
      ensures Dist(d, routes[k].points[i], routes[k].points[j]) <= s.max
    {
      assert IsDiameter(d, routes[k].points, false, diameters[k]);
      assert Counted(false, i, j);
    }
  }

  /** `statistics` of the route mode. The stop totals count all stops and
      the unassigned figure counts all unassigned stops; cost figures exist
      exactly when every route has legs. */
  method RouteStatistics(d: Measure, routes: seq<Route>, lengths: seq<real>, unassigned: seq<seq<Position>>)
    returns (r: Result<RouteStats>)
    requires |lengths| == |routes|
    ensures r.Success? <==> |routes| > 0 && (AllRouted(routes) ==> forall k :: 0 <= k < |routes| ==> routes[k].legCosts.Costs?)
    ensures r.Success? ==> r.value.nroutes == |routes|
    ensures r.Success? ==> r.value.stopsTotal == |Flatten(seq(|routes|, k requires 0 <= k < |routes| => routes[k].points))|
    ensures r.Success? ==> r.value.stops == Summarize(StopCounts(routes))
    ensures r.Success? ==> r.value.lengthTotal == Sum(lengths) && r.value.lengths == Summarize(lengths)
    ensures r.Success? ==> exists ds :: (|ds| == |routes| && r.value.diameters == Summarize(ds)
      && forall q :: 0 <= q < |routes| ==> IsDiameter(d, routes[q].points, false, ds[q]))
    ensures r.Success? ==> r.value.unassigned == |Flatten(unassigned)|
    ensures r.Success? ==> (r.value.costs.Some? <==> AllRouted(routes))
    ensures r.Success? && r.value.costs.Some? ==> (RouteCosts(routes).Success?
      && r.value.costs.value == Summarize(RouteCosts(routes).value))
  {
    if |routes| == 0 {
      return Failure("max() arg is an empty sequence");
    }
    var costs := CostSummary(routes);
    if costs.Failure? {
      return Failure(costs.error);
    }
    var ds, diameters := DiameterSummary(d, routes);
    var groups := seq(|routes|, k requires 0 <= k < |routes| => routes[k].points);
    FlattenLength(groups);
    FlattenLength(unassigned);
    r := Success(RouteStats(|routes|, StopSummary(routes), TotalLength(groups),
      Summarize(lengths), Sum(lengths), diameters, TotalLength(unassigned), costs.value));
  }

  /** What the diameter figures of `statistics` say about the routes: no
      diameter is negative, and no two stops of any route lie further apart
      than the largest diameter. */
  lemma DiametersBound(d: Measure, routes: seq<Route>, ds: seq<real>, s: Summary)
    requires |routes| > 0 && |ds| == |routes| && s == Summarize(ds)
    requires forall q :: 0 <= q < |routes| ==> IsDiameter(d, routes[q].points, false, ds[q])
    ensures s.min >= 0.0
    ensures forall k, i, j :: 0 <= k < |routes| && 0 <= i < |routes[k].points| && 0 <= j < |routes[k].points| ==>
      Dist(d, routes[k].points[i], routes[k].points[j]) <= s.max
  {
    var q :| 0 <= q < |ds| && ds[q] == s.min;
    assert IsDiameter(d, routes[q].points, false, ds[q]);
    forall k, i, j | 0 <= k < |routes| && 0 <= i < |routes[k].points| && 0 <= j < |routes[k].points|
      ensures Dist(d, routes[k].points[i], routes[k].points[j]) <= s.max
    {
      assert IsDiameter(d, routes[k].points, false, ds[k]);
      assert Counted(false, i, j);
    }
  }
}

=== FILE: routingkit.dfy ===
/** Road-network legs from RoutingKit (nextplot/routingkit.py): the
    contraction-hierarchy file name, the queries built from consecutive
    stops, and how the returned paths and costs become the legs and leg
    costs of each route. The RoutingKit process itself is outside the
    model; its paths and costs are inputs. */
module RoutingKit {
  import opened Results
  import opened Geometry
  import opened Seqs

  /** Assumed speed (m/s) for straight-line fallbacks and snapping. */
  const TravelSpeed: real := 10.0

  datatype Profile = Car | Bike | Pedestrian

  function ProfileName(p: Profile): string {
    match p
    case Car => "car"
    case Bike => "bike"
    case Pedestrian => "pedestrian"
  }

  function ModeName(distance: bool): string {
    if distance then "distance" else "duration"
  }

  /** The part of the file name after the OSM file name. */
  function ChSuffix(profile: Profile, distance: bool): string {
    "_" + ProfileName(profile) + "_" + ModeName(distance) + ".ch"
  }

  /** The contraction-hierarchy file for an OSM file, a profile and a cost mode. */
  function ChFileName(osm: string, profile: Profile, distance: bool): (r: string)
    ensures |r| > |osm| + 4 && r[..|osm|] == osm && r[|osm|] == '_' && r[|r| - 3..] == ".ch"
  {
    osm + ChSuffix(profile, distance)
  }

  lemma ChSuffixInjective(p1: Profile, d1: bool, p2: Profile, d2: bool)
    requires ChSuffix(p1, d1) == ChSuffix(p2, d2)
    ensures p1 == p2 && d1 == d2
  {
    var n := |ProfileName(p1)|;
    assert n == |ChSuffix(p1, d1)| - 13 == |ChSuffix(p2, d2)| - 13 == |ProfileName(p2)|;
    assert ChSuffix(p1, d1)[n + 3] == ModeName(d1)[1];
    assert ChSuffix(p2, d2)[n + 3] == ModeName(d2)[1];
  }

  /** Different profiles or cost modes never share a file. */
  lemma ChFileNameInjective(osm: string, p1: Profile, d1: bool, p2: Profile, d2: bool)
    ensures ChFileName(osm, p1, d1) == ChFileName(osm, p2, d2) <==> p1 == p2 && d1 == d2
  {
    if ChFileName(osm, p1, d1) == ChFileName(osm, p2, d2) {
      assert ChSuffix(p1, d1) == ChFileName(osm, p1, d1)[|osm|..];
      assert ChSuffix(p2, d2) == ChFileName(osm, p2, d2)[|osm|..];
      ChSuffixInjective(p1, d1, p2, d2);
    }
  }

  /** One query: a stop pair of a route. */
  datatype Query = Query(route: nat, start: Position, end: Position)

  function StopPairs(r: nat, ps: seq<Position>): (qs: seq<Query>)
    ensures |qs| == if |ps| == 0 then 0 else |ps| - 1
    ensures forall i :: 0 <= i < |qs| ==> qs[i] == Query(r, ps[i], ps[i + 1])
  {
    if |ps| == 0 then [] else seq(|ps| - 1, i requires 0 <= i < |ps| - 1 => Query(r, ps[i], ps[i + 1]))
  }

  /** The query list: the consecutive stop pairs of every route, route by
      route and in stop order. */
  function Queries(routes: seq<Route>): (qs: seq<Query>)
    ensures forall j :: 0 <= j < |qs| ==> qs[j].route < |routes|
    ensures |qs| == PairCount(routes)
  {
    if |routes| == 0 then []
    else Queries(routes[..|routes| - 1]) + StopPairs(|routes| - 1, routes[|routes| - 1].points)
  }

  function PairCount(routes: seq<Route>): nat {
    if |routes| == 0 then 0
    else PairCount(routes[..|routes| - 1]) + (if |routes[|routes| - 1].points| == 0 then 0 else |routes[|routes| - 1].points| - 1)
  }

  /** A cost as reported: distances as they are, durations at the travel speed. */
  function Scaled(cost: real, distance: bool): real {
    if distance then cost else cost / TravelSpeed
  }

  /** The leg and leg cost for one query. Without a path, or when start and
      end coincide, the leg is the straight line; otherwise the path is
      framed by the stops and the snapping distances are added to the cost. */
  function Reconcile(d: Measure, distance: bool, q: Query, path: seq<Position>, cost: real): (r: (seq<Position>, real))
    ensures |r.0| >= 2 && r.0[0] == q.start && r.0[|r.0| - 1] == q.end
    ensures |path| == 0 || Equal(q.start, q.end) ==>
      r == ([q.start, q.end], Scaled(Dist(d, q.start, q.end), distance))
    ensures |path| > 0 && !Equal(q.start, q.end) ==>
      r.0 == [q.start] + path + [q.end]
      && r.1 == cost + Scaled(Dist(d, q.start, path[0]), distance) + Scaled(Dist(d, path[|path| - 1], q.end), distance)
  {
    if |path| == 0 || Equal(q.start, q.end) then
      ([q.start, q.end], Scaled(Dist(d, q.start, q.end), distance))
    else
      ([q.start] + path + [q.end],
       cost + Scaled(Dist(d, q.start, path[0]), distance) + Scaled(Dist(d, path[|path| - 1], q.end), distance))
  }

  /** Every route with its legs and leg costs cleared. */
  function ClearAll(routes: seq<Route>): (r: seq<Route>)
    ensures |r| == |routes|
    ensures forall k :: 0 <= k < |routes| ==> r[k] == routes[k].(legs := None, legCosts := Cleared)
  {
    seq(|routes|, k requires 0 <= k < |routes| => routes[k].(legs := None, legCosts := Cleared))
  }

  /** Appends a leg and its cost to a route. */
  function AddLeg(route: Route, leg: seq<Position>, cost: real): Route {
    match route.legs
    case None => route.(legs := Some([leg]), legCosts := Costs([cost]))
    case Some(legs) => route.(legs := Some(legs + [leg]), legCosts := Costs((if route.legCosts.Costs? then route.legCosts.values else []) + [cost]))
  }

  /** The first n outcomes applied to the routes, in query order. */
  function Apply(routes: seq<Route>, qs: seq<Query>, outcomes: seq<(seq<Position>, real)>): (r: seq<Route>)
    requires |outcomes| == |qs| && forall j :: 0 <= j < |qs| ==> qs[j].route < |routes|
    ensures |r| == |routes| && forall k :: 0 <= k < |routes| ==> r[k].points == routes[k].points
  {
    if |qs| == 0 then routes
    else
      var n := |qs| - 1;
      var before := Apply(routes, qs[..n], outcomes[..n]);
      before[qs[n].route := AddLeg(before[qs[n].route], outcomes[n].0, outcomes[n].1)]
  }

  /** The legs the outcomes give route k, in query order. */
  function LegsOf(k: nat, qs: seq<Query>, outcomes: seq<(seq<Position>, real)>): (legs: seq<seq<Position>>)
    requires |outcomes| == |qs|
  {
    if |qs| == 0 then []
    else
      var n := |qs| - 1;
      LegsOf(k, qs[..n], outcomes[..n]) + (if qs[n].route == k then [outcomes[n].0] else [])
  }

  function CostsOf(k: nat, qs: seq<Query>, outcomes: seq<(seq<Position>, real)>): (costs: seq<real>)
    requires |outcomes| == |qs|
    ensures |costs| == |LegsOf(k, qs, outcomes)|
  {
    if |qs| == 0 then []
    else
      var n := |qs| - 1;
      CostsOf(k, qs[..n], outcomes[..n]) + (if qs[n].route == k then [outcomes[n].1] else [])
  }

  /** A route holding exactly the given legs and costs: no legs and cleared
      costs when there are none. */
  predicate Holds(r: Route, legs: seq<seq<Position>>, costs: seq<real>) {
    && (r.legs.None? <==> |legs| == 0)
    && (r.legs.None? ==> r.legCosts == Cleared)
    && (r.legs.Some? ==> r.legs.value == legs && r.legCosts == Costs(costs))
  }

  /** Adding a leg to a route that holds some legs makes it hold one more. */
  lemma AddLegHolds(r: Route, legs: seq<seq<Position>>, costs: seq<real>, leg: seq<Position>, cost: real)
    requires Holds(r, legs, costs) && |costs| == |legs|
    ensures Holds(AddLeg(r, leg, cost), legs + [leg], costs + [cost])
  {
    if r.legs.None? {
      assert legs + [leg] == [leg] && costs + [cost] == [cost];
    }
  }

  /** After clearing, each route holds exactly the legs and costs of its
      own queries, in order; a route without queries keeps no legs. */
  lemma {:induction false} ApplyCollects(routes: seq<Route>, qs: seq<Query>, outcomes: seq<(seq<Position>, real)>, k: nat)
    requires |outcomes| == |qs| && forall j :: 0 <= j < |qs| ==> qs[j].route < |routes|
    requires k < |routes|
    ensures Holds(Apply(ClearAll(routes), qs, outcomes)[k], LegsOf(k, qs, outcomes), CostsOf(k, qs, outcomes))
    decreases |qs|
  {
    if |qs| > 0 {
      var n := |qs| - 1;
      ApplyCollects(routes, qs[..n], outcomes[..n], k);
      var before := Apply(ClearAll(routes), qs[..n], outcomes[..n])[k];
      if qs[n].route == k {
        AddLegHolds(before, LegsOf(k, qs[..n], outcomes[..n]), CostsOf(k, qs[..n], outcomes[..n]), outcomes[n].0, outcomes[n].1);
      } else {
        assert LegsOf(k, qs, outcomes) == LegsOf(k, qs[..n], outcomes[..n]) + [];
        assert CostsOf(k, qs, outcomes) == CostsOf(k, qs[..n], outcomes[..n]) + [];
      }
    }
  }

  /** The lookup errors of the result loop: a path without a cost, and a
      path without a query. */
  const CostMissing := "IndexError: list index out of range"
  const QueryMissing := "KeyError: no query for this path"

  /** `query_routes` after the RoutingKit call: the paths and costs come
      back in query order. The loop reads path i's cost before its query,
      so the first path lacking either decides the error: a missing cost
      when the costs run out no later than the queries, a missing query
      otherwise. */
  function QueryRoutes(d: Measure, distance: bool, routes: seq<Route>, paths: seq<seq<Position>>, costs: seq<real>)
    : (r: Result<seq<Route>>)
    ensures r.Success? <==> |paths| <= |Queries(routes)| && |paths| <= |costs|
    ensures r.Success? ==> |r.value| == |routes| && forall k :: 0 <= k < |routes| ==> r.value[k].points == routes[k].points
    ensures |costs| < |paths| && |costs| <= |Queries(routes)| ==> r == Failure(CostMissing)
    ensures |Queries(routes)| < |paths| && |Queries(routes)| < |costs| ==> r == Failure(QueryMissing)
  {
    var qs := Queries(routes);
    if |paths| > |costs| && |costs| <= |qs| then Failure(CostMissing)
    else if |paths| > |qs| then Failure(QueryMissing)
    else
      var outcomes := Outcomes(d, distance, qs[..|paths|], paths, costs);
      Success(Apply(ClearAll(routes), qs[..|paths|], outcomes))
  }

  function Outcomes(d: Measure, distance: bool, qs: seq<Query>, paths: seq<seq<Position>>, costs: seq<real>)
    : (r: seq<(seq<Position>, real)>)
    requires |qs| == |paths| <= |costs|
    ensures |r| == |qs| && forall j :: 0 <= j < |qs| ==> r[j] == Reconcile(d, distance, qs[j], paths[j], costs[j])
  {
    seq(|qs|, j requires 0 <= j < |qs| => Reconcile(d, distance, qs[j], paths[j], costs[j]))
  }

  /** Every outcome's leg runs from its query's start to its query's end. */
  predicate Framed(qs: seq<Query>, outcomes: seq<(seq<Position>, real)>)
    requires |outcomes| == |qs|
  {
    forall j :: 0 <= j < |qs| ==>
      |outcomes[j].0| > 0 && outcomes[j].0[0] == qs[j].start && outcomes[j].0[|outcomes[j].0| - 1] == qs[j].end
  }

  /** One leg per pair of consecutive stops, the i-th running from stop i
      to stop i+1. */
  predicate FollowsStops(legs: seq<seq<Position>>, ps: seq<Position>) {
    && |legs| == (if |ps| == 0 then 0 else |ps| - 1)
    && forall i :: 0 <= i < |legs| ==>
         |legs[i]| > 0 && legs[i][0] == ps[i] && legs[i][|legs[i]| - 1] == ps[i + 1]
  }

  lemma FramedSplit(a: seq<Query>, oa: seq<(seq<Position>, real)>, b: seq<Query>, ob: seq<(seq<Position>, real)>)
    requires |oa| == |a| && |ob| == |b| && Framed(a + b, oa + ob)
    ensures Framed(a, oa) && Framed(b, ob)
  {
    forall j | 0 <= j < |a|
      ensures |oa[j].0| > 0 && oa[j].0[0] == a[j].start && oa[j].0[|oa[j].0| - 1] == a[j].end
    {
      assert (a + b)[j] == a[j] && (oa + ob)[j] == oa[j];
    }
    forall j | 0 <= j < |b|
      ensures |ob[j].0| > 0 && ob[j].0[0] == b[j].start && ob[j].0[|ob[j].0| - 1] == b[j].end
    {
      assert (a + b)[|a| + j] == b[j] && (oa + ob)[|a| + j] == ob[j];
    }
  }

  lemma {:induction false} LegsOfAppend(k: nat, a: seq<Query>, oa: seq<(seq<Position>, real)>, b: seq<Query>, ob: seq<(seq<Position>, real)>)
    requires |oa| == |a| && |ob| == |b|
    ensures LegsOf(k, a + b, oa + ob) == LegsOf(k, a, oa) + LegsOf(k, b, ob)
    decreases |b|
  {
    if |b| == 0 {
      assert a + b == a && oa + ob == oa;
    } else {
      var n := |b| - 1;
      assert (a + b)[..|a| + n] == a + b[..n];
      assert (oa + ob)[..|a| + n] == oa + ob[..n];
      LegsOfAppend(k, a, oa, b[..n], ob[..n]);
    }
  }

  lemma {:induction false} LegsOfNone(k: nat, qs: seq<Query>, outcomes: seq<(seq<Position>, real)>)
    requires |outcomes| == |qs| && forall j :: 0 <= j < |qs| ==> qs[j].route != k
    ensures LegsOf(k, qs, outcomes) == []
    decreases |qs|
  {
    if |qs| > 0 {
      LegsOfNone(k, qs[..|qs| - 1], outcomes[..|qs| - 1]);
    }
  }

  lemma {:induction false} LegsOfAll(k: nat, qs: seq<Query>, outcomes: seq<(seq<Position>, real)>)
    requires |outcomes| == |qs| && forall j :: 0 <= j < |qs| ==> qs[j].route == k
    ensures |LegsOf(k, qs, outcomes)| == |qs|
    ensures forall j :: 0 <= j < |qs| ==> LegsOf(k, qs, outcomes)[j] == outcomes[j].0
    decreases |qs|
  {
    if |qs| > 0 {
      LegsOfAll(k, qs[..|qs| - 1], outcomes[..|qs| - 1]);
    }
  }

  /** With an outcome for every query, route k collects one leg per pair of
      consecutive stops, the i-th running from stop i to stop i+1. */
  lemma {:induction false} AllPairsCollected(routes: seq<Route>, outcomes: seq<(seq<Position>, real)>, k: nat)
    requires |outcomes| == |Queries(routes)| && Framed(Queries(routes), outcomes)
    requires k < |routes|
    ensures FollowsStops(LegsOf(k, Queries(routes), outcomes), routes[k].points)
    decreases |routes|
  {
    var m := |routes| - 1;
    if k < m {
      var front := routes[..m];
      var early := outcomes[..|Queries(front)|];
      EarlierRouteKept(routes, outcomes, k);
      QueriesLast(routes, outcomes, k);
      AllPairsCollected(front, early, k);
      assert front[k] == routes[k];
      assert LegsOf(k, Queries(routes), outcomes) == LegsOf(k, Queries(front), early);
    } else {
      LastRouteCollected(routes, outcomes);
    }
  }

  /** Route k before the last collects the legs it collects without the
      last route's queries. */
  lemma EarlierRouteKept(routes: seq<Route>, outcomes: seq<(seq<Position>, real)>, k: nat)
    requires |outcomes| == |Queries(routes)|
    requires k < |routes| - 1
    ensures |Queries(routes[..|routes| - 1])| <= |outcomes|
    ensures LegsOf(k, Queries(routes), outcomes) == LegsOf(k, Queries(routes[..|routes| - 1]), outcomes[..|Queries(routes[..|routes| - 1])|])
  {
    QueriesFront(routes);
    LegsOfPrefix(k, Queries(routes), outcomes, |Queries(routes[..|routes| - 1])|);
  }

  /** The queries of all but the last route come first; the rest are the
      last route's. */
  lemma QueriesFront(routes: seq<Route>)
    requires |routes| > 0
    ensures var front, qs := Queries(routes[..|routes| - 1]), Queries(routes);
      && |front| <= |qs| && qs[..|front|] == front
      && forall j :: |front| <= j < |qs| ==> qs[j].route == |routes| - 1
  {
    var m := |routes| - 1;
    var front := Queries(routes[..m]);
    var qs := Queries(routes);
    var pairs := StopPairs(m, routes[m].points);
    assert qs == front + pairs;
    forall j | |front| <= j < |qs|
      ensures qs[j].route == m
    {
      assert qs[j] == pairs[j - |front|];
    }
  }

  /** Queries for other routes after position p add no legs to route k. */
  lemma {:induction false} LegsOfPrefix(k: nat, qs: seq<Query>, outcomes: seq<(seq<Position>, real)>, p: nat)
    requires |outcomes| == |qs| && p <= |qs|
    requires forall j :: p <= j < |qs| ==> qs[j].route != k
    ensures LegsOf(k, qs, outcomes) == LegsOf(k, qs[..p], outcomes[..p])
    decreases |qs| - p
  {
    if p < |qs| {
      var n := |qs| - 1;
      LegsOfPrefix(k, qs[..n], outcomes[..n], p);
      assert qs[..n][..p] == qs[..p] && outcomes[..n][..p] == outcomes[..p];
    } else {
      assert qs[..p] == qs && outcomes[..p] == outcomes;
    }
  }

  /** The last route collects one leg per pair of its consecutive stops. */
  lemma LastRouteCollected(routes: seq<Route>, outcomes: seq<(seq<Position>, real)>)
    requires |outcomes| == |Queries(routes)| && Framed(Queries(routes), outcomes)
    requires |routes| > 0
    ensures FollowsStops(LegsOf(|routes| - 1, Queries(routes), outcomes), routes[|routes| - 1].points)
  {
    var m := |routes| - 1;
    QueriesLast(routes, outcomes, m);
    var front := Queries(routes[..m]);
    var pairs := StopPairs(m, routes[m].points);
    assert forall j :: 0 <= j < |front| ==> front[j].route < m;
    LegsOfNone(m, front, outcomes[..|front|]);
    PairsFollowStops(m, routes[m].points, outcomes[|front|..]);
    var legs := LegsOf(m, pairs, outcomes[|front|..]);
    assert [] + legs == legs;
  }

  /** The queries of all routes are those of all but the last, then the
      last route's stop pairs; framing and collected legs split alike. */
  lemma QueriesLast(routes: seq<Route>, outcomes: seq<(seq<Position>, real)>, k: nat)
    requires |routes| > 0 && |outcomes| == |Queries(routes)| && Framed(Queries(routes), outcomes)
    ensures |Queries(routes[..|routes| - 1])| + |StopPairs(|routes| - 1, routes[|routes| - 1].points)| == |outcomes|
    ensures Framed(Queries(routes[..|routes| - 1]), outcomes[..|Queries(routes[..|routes| - 1])|])
    ensures Framed(StopPairs(|routes| - 1, routes[|routes| - 1].points), outcomes[|Queries(routes[..|routes| - 1])|..])
    ensures LegsOf(k, Queries(routes), outcomes)
      == LegsOf(k, Queries(routes[..|routes| - 1]), outcomes[..|Queries(routes[..|routes| - 1])|])
       + LegsOf(k, StopPairs(|routes| - 1, routes[|routes| - 1].points), outcomes[|Queries(routes[..|routes| - 1])|..])
  {
    var m := |routes| - 1;
    var front := Queries(routes[..m]);
    var pairs := StopPairs(m, routes[m].points);
    assert Queries(routes) == front + pairs;
    var of := outcomes[..|front|];
    var op := outcomes[|front|..];
    assert outcomes == of + op;
    LegsOfAppend(k, front, of, pairs, op);
    FramedSplit(front, of, pairs, op);
  }

  lemma PairsFollowStops(k: nat, ps: seq<Position>, outcomes: seq<(seq<Position>, real)>)
    requires |outcomes| == |StopPairs(k, ps)| && Framed(StopPairs(k, ps), outcomes)
    ensures FollowsStops(LegsOf(k, StopPairs(k, ps), outcomes), ps)
  {
    var pairs := StopPairs(k, ps);
    LegsOfAll(k, pairs, outcomes);
    var legs := LegsOf(k, pairs, outcomes);
    forall i | 0 <= i < |legs|
      ensures |legs[i]| > 0 && legs[i][0] == ps[i] && legs[i][|legs[i]| - 1] == ps[i + 1]
    {
      assert legs[i] == outcomes[i].0;
      assert pairs[i] == Query(k, ps[i], ps[i + 1]);
    }
  }

  /** When RoutingKit answers every query, every route with at least two
      stops gets one leg and one cost per stop pair, each leg running from
      one stop to the next; shorter routes are left without legs. */
  lemma CompleteAnswer(d: Measure, distance: bool, routes: seq<Route>, paths: seq<seq<Position>>, costs: seq<real>, k: nat)
    requires |paths| == |Queries(routes)| <= |costs| && k < |routes|
    ensures QueryRoutes(d, distance, routes, paths, costs).Success?
    ensures var r := QueryRoutes(d, distance, routes, paths, costs).value[k];
      var n := |routes[k].points|;
      && (n < 2 ==> r.legs.None? && r.legCosts == Cleared)
      && (n >= 2 ==>
            && r.legs.Some? && FollowsStops(r.legs.value, routes[k].points)
            && r.legCosts.Costs? && |r.legCosts.values| == n - 1)
  {
    var qs := Queries(routes);
    assert qs[..|paths|] == qs;
    var outcomes := Outcomes(d, distance, qs, paths, costs);
    assert Framed(qs, outcomes);
    assert QueryRoutes(d, distance, routes, paths, costs).value == Apply(ClearAll(routes), qs, outcomes);
    FramedCollects(routes, outcomes, k);
  }

  /** Framed outcomes for every query give route k one leg per stop pair,
      or none when it has fewer than two stops. */
  lemma FramedCollects(routes: seq<Route>, outcomes: seq<(seq<Position>, real)>, k: nat)
    requires |outcomes| == |Queries(routes)| && Framed(Queries(routes), outcomes) && k < |routes|
    ensures var r := Apply(ClearAll(routes), Queries(routes), outcomes)[k];
      var n := |routes[k].points|;
      && (n < 2 ==> r.legs.None? && r.legCosts == Cleared)
      && (n >= 2 ==>
            && r.legs.Some? && FollowsStops(r.legs.value, routes[k].points)
            && r.legCosts.Costs? && |r.legCosts.values| == n - 1)
  {
    ApplyCollects(routes, Queries(routes), outcomes, k);
    AllPairsCollected(routes, outcomes, k);
  }

  /** A leg's cost is never negative when the routed cost is not, and a
      query whose stops coincide costs nothing. */
  lemma ReconcileCost(d: Measure, distance: bool, q: Query, path: seq<Position>, cost: real)
    requires IsMeasure(d) && cost >= 0.0
    ensures Reconcile(d, distance, q, path, cost).1 >= 0.0
    ensures Equal(q.start, q.end) ==> Reconcile(d, distance, q, path, cost).1 == 0.0
  {
  }

  /** Whatever RoutingKit returns, a route has legs exactly when it has leg
      costs, as many of one as of the other. */
  lemma LegsMatchCosts(d: Measure, distance: bool, routes: seq<Route>, paths: seq<seq<Position>>, costs: seq<real>, k: nat)
    requires QueryRoutes(d, distance, routes, paths, costs).Success? && k < |routes|
    ensures var r := QueryRoutes(d, distance, routes, paths, costs).value[k];
      && (r.legs.None? <==> r.legCosts == Cleared)
      && (r.legs.Some? ==> r.legCosts.Costs? && |r.legs.value| == |r.legCosts.values| > 0)
  {
    var qs := Queries(routes)[..|paths|];
    var outcomes := Outcomes(d, distance, qs, paths, costs);
    ApplyCollects(routes, qs, outcomes, k);
  }
}

=== FILE: seqs.dfy ===
/** Sequence helpers shared by the model: order-preserving filtering,
    flattening of nested lists and counting. */
module Seqs {

  /** The elements of `s` that satisfy `keep`, in their original order
      (a Python list comprehension with an `if`). */
  function Filter<T>(s: seq<T>, keep: T -> bool): (r: seq<T>)
    ensures |r| <= |s|
    ensures forall k :: 0 <= k < |r| ==> r[k] in s && keep(r[k])
    ensures forall k :: 0 <= k < |s| && keep(s[k]) ==> s[k] in r
  {
    if |s| == 0 then []
    else Filter(s[..|s| - 1], keep) + (if keep(s[|s| - 1]) then [s[|s| - 1]] else [])
  }

  lemma {:induction false} FilterAppend<T>(a: seq<T>, b: seq<T>, keep: T -> bool)
    ensures Filter(a + b, keep) == Filter(a, keep) + Filter(b, keep)
    decreases |b|
  {
    if |b| == 0 {
      assert a + b == a;
    } else {
      var b' := b[..|b| - 1];
      assert (a + b)[..|a + b| - 1] == a + b';
      FilterAppend(a, b', keep);
    }
  }

  lemma {:induction false} FilterKeepsAll<T>(s: seq<T>, keep: T -> bool)
    requires forall k :: 0 <= k < |s| ==> keep(s[k])
    ensures Filter(s, keep) == s
    decreases |s|
  {
    if |s| > 0 {
      FilterKeepsAll(s[..|s| - 1], keep);
    }
  }

  lemma {:induction false} FilterDropsAll<T>(s: seq<T>, keep: T -> bool)
    requires forall k :: 0 <= k < |s| ==> !keep(s[k])
    ensures Filter(s, keep) == []
    decreases |s|
  {
    if |s| > 0 {
      FilterDropsAll(s[..|s| - 1], keep);
    }
  }

  /** The number of elements of `s` that satisfy `p`. */
  function Count<T>(s: seq<T>, p: T -> bool): (n: nat)
    ensures n == |Filter(s, p)|
  {
    if |s| == 0 then 0
    else Count(s[..|s| - 1], p) + (if p(s[|s| - 1]) then 1 else 0)
  }

  /** The concatenation of all lists in `ls`, in order (`list.extend` in a loop). */
  function Flatten<T>(ls: seq<seq<T>>): seq<T>
  {
    if |ls| == 0 then [] else Flatten(ls[..|ls| - 1]) + ls[|ls| - 1]
  }

  /** The length of every list, as the real numbers the summaries take. */
  function Lengths<T>(ls: seq<seq<T>>): (r: seq<real>)
    ensures |r| == |ls| && forall k :: 0 <= k < |ls| ==> r[k] == |ls[k]| as real
  {
    seq(|ls|, k requires 0 <= k < |ls| => |ls[k]| as real)
  }

  function TotalLength<T>(ls: seq<seq<T>>): nat
  {
    if |ls| == 0 then 0 else TotalLength(ls[..|ls| - 1]) + |ls[|ls| - 1]|
  }

  lemma {:induction false} FlattenLength<T>(ls: seq<seq<T>>)
    ensures |Flatten(ls)| == TotalLength(ls)
    decreases |ls|
  {
    if |ls| > 0 {
      FlattenLength(ls[..|ls| - 1]);
    }
  }

  lemma {:induction false} FlattenAppend<T>(a: seq<seq<T>>, b: seq<seq<T>>)
    ensures Flatten(a + b) == Flatten(a) + Flatten(b)
    decreases |b|
  {
    if |b| == 0 {
      assert a + b == a;
    } else {
      var b' := b[..|b| - 1];
      assert (a + b)[..|a + b| - 1] == a + b';
      FlattenAppend(a, b');
    }
  }

  /** Every element of the flattened list comes from one of the lists. */
  lemma {:induction false} FlattenMember<T>(ls: seq<seq<T>>, x: T)
    requires x in Flatten(ls)
    ensures exists i :: 0 <= i < |ls| && x in ls[i]
    decreases |ls|
  {
    var last := ls[|ls| - 1];
    if x !in last {
      FlattenMember(ls[..|ls| - 1], x);
      var i :| 0 <= i < |ls| - 1 && x in ls[..|ls| - 1][i];
      assert x in ls[i];
    }
  }

  /** `0, 1, ..., n - 1` (Python's `list(range(n))`). */
  function Iota(n: nat): (r: seq<nat>)
    ensures |r| == n
    ensures forall k :: 0 <= k < n ==> r[k] == k
  {
    if n == 0 then [] else Iota(n - 1) + [n - 1]
  }
}
